=== FILE: README.md ===
# hone — a Dafny model of the tuning tool's core

`hone` is a hyperparameter-tuning tool. It runs a user command many times.
Each run asks a tuner for parameter values and reports metrics back.
This project models its deterministic core as pure Dafny functions over immutable datatypes, and proves what that core promises:

- **Validated value types and parameter domains** (`Types`, `Param`, `Domain`, `Ask`, `Metric`, `Trial`). Smart constructors reject exactly the inputs the source rejects. The discrete "snap max to step" rule is proved to stay within the range.
- **Distribution merging** (`Hp`, with `Lex` for the ordering of a `BTreeSet<String>`): choice union, range hull, idempotence, and a finding about the choice branch.
- **Attribute parsing** (`Attr`): split at the first `:`, with a round trip.
- **Tuners** (`Tuners`, `RandomTuner`, `Retry`): the dispatch, the random tuner's result constraints, and the retry wrapper's bounded retry counter and FIFO action queue.
- **Journals and trial tables** (`PubSub`, `Trials`, `Study`):
  - newline framing and a write/read round trip;
  - trial attribution by the reader;
  - draining polls that never return a record twice;
  - the fold that rebuilds the trial table;
  - the study server's bookkeeping and memoised suggestions.
- **Runner bookkeeping** (`Runner`, `Loader`, `TempDir`):
  - id counters, the worker bound, and the running-observation table;
  - replaying a saved event log with id remapping and elapsed-time offsets;
  - the memoising temporary-directory table.
- **Event-stream reductions** (`Show`, `Best`): best-per-metric tracking per study, and the Pareto front, with a finding.
- **Small helpers** (`Rng`, `Report`, `Config`): seed expansion and decimal seed parsing/printing, metric defaulting, and the nearest-ancestor config lookup.

Conventions:

- An `f64` is a `real`. Where the source validates it, it is `Types.F64 = Finite(v) | NonFinite`.
- `anyhow::Result` is `Result<T, string>`. The crate's own `Result` is `Result<T, ErrorKind>`.
- A panic the source can reach is an `Err` carrying the panic message.
- Things the model cannot see are function parameters: the wrapped tuner, JSON encoding, `is_better_than`, `dominates`, random draws, fresh ids, clocks and the file system.

Each Rust file is modelled against its own interface. The files disagree among themselves (for example `Tune::tell` returns `bool` in `src/tuners.rs` but unit in `src/tuners/retry.rs`), so the modules are not composed into one program.

## Model

| member | source | states |
|---|---|---|
| Types.NewNonEmptyVec | src/types.rs:13-20 | fails exactly on the empty vector; on success `get` returns the input elements unchanged and in order |
| Types.NonEmptyVecTryFrom | src/types.rs:26-28 | deserialising a vector accepts and rejects exactly as `new`, with the same contents |
| Types.NewInclusiveRange | src/types.rs:51-73 | accepts exactly finite bounds with `min <= max` (so `min == max` is allowed); the non-finite `min` is reported before `max`; the result's bounds are the arguments and its width is non-negative |
| Types.InclusiveRangeTryFrom | src/types.rs:76-81 | deserialising a range goes through the same validation as `new` |
| Types.NewNonNegF64 | src/types.rs:95-103 | accepts exactly finite, non-negative input and keeps the value |
| Types.NewFiniteF64 | src/types.rs:119-126 | rejects exactly the non-finite input and `get` returns the input |
| Param.NewParamName | src/param.rs:8-14 | `get` returns the name given, and no other name does |
| Param.NewCategorical | src/param.rs:62-70 | fails exactly on an empty choice list; otherwise keeps the list unchanged |
| Param.NewOrdinal | src/param.rs:80-88 | fails exactly on an empty choice list; otherwise keeps the list unchanged |
| Param.NewContinous | src/param.rs:108-114 | accepts exactly a valid range, plus a non-negative `min` when `ln` is set; keeps range and `ln` |
| Param.NewNormal | src/param.rs:133-138 | accepts exactly a finite mean and a finite non-negative stddev, and keeps both |
| Param.SnapMaxBounds | src/param.rs:157-165 | the snapped maximum `min + floor((max-min)/step)*step` lies in `[min, max]` and within one step of `max` |
| Param.NewDiscrete | src/param.rs:157-165 | accepts exactly a valid range with a finite positive step; keeps `min` and the step, and sets `max` to the snapped maximum |
| Param.Count | src/param.rs:175-177 | the count is the truncation of `width/step`: at most the quotient and, below `u64::MAX`, more than the quotient minus one |
| Param.DiscreteCountAfterSnap | src/param.rs:157-177 | after snapping, the count of steps lands exactly on the snapped maximum |
| Param.NewFidelity | src/param.rs:188-198 | without a step the range is validated and kept; with a step it succeeds exactly when the discrete constructor does and snaps `max` the same way |
| Param.ConstructorsEstablishValid | src/param.rs:62-198 | every successfully built parameter type has non-empty choices, a valid range and a non-negative step |
| Param.IsMaxFidelity | src/param.rs:28-38 | `Some` exactly for a fidelity type with a numeric value, and then true iff the value is the range maximum |
| Param.Display | src/param.rs:216-220 | a string value displays verbatim |
| Domain.CategoricalType | src/domain.rs:13-17 | the categorical string type carrying the choices unchanged |
| Domain.OrdinalType | src/domain.rs:19-23 | the ordinal string type carrying the choices unchanged |
| Domain.NormalType | src/domain.rs:25-30 | a non-fidelity normal type with mean and stddev unchanged |
| Domain.ContinousType | src/domain.rs:32-37 | a continuous type carrying start, end, `ln` and fidelity unchanged |
| Domain.DiscreteType | src/domain.rs:39-44 | a discrete type carrying start, end, step and fidelity unchanged |
| Domain.Display | src/domain.rs:66-70 | a string value displays verbatim |
| Ask.ToParamType | src/commands/ask.rs:50-85 | total, and fails only for a range with both `ln` and a step; `Bool` is categorical `["false","true"]`; choices are categorical or ordinal by `ordinal`; normal, continuous and discrete pass their fields through |
| Ask.ToParamTypeReadBack | src/commands/ask.rs:50-85 | every successful translation can be read back into the spec's own fields |
| Ask.BoolIsChoiceOfFalseTrue | src/commands/ask.rs:52-55 | `Bool` is the same type as the non-ordinal choice of `false` then `true` |
| Lex.SortedSet | src/hp.rs:99-101 | collecting into a `BTreeSet` and back gives a strictly sorted list with exactly the input's elements, one each |
| Hp.ExpandIfNeed | src/hp.rs:87-145 | as written: an error exactly for incompatible distributions, with `self` untouched; choices compare the union's size with the old list's length; ranges change exactly when not already covered, to the hull |
| Hp.ExpandCovers | src/hp.rs:87-145 | after a successful merge `self` admits every value of the merged-in distribution, provided the known choice list has no duplicate |
| Hp.ExpandIdempotent | src/hp.rs:99-141 | merging the same distribution a second time reports no change |
| Hp.LengthTestIsInclusion | src/hp.rs:99-101 | for a duplicate-free choice list the source's length test coincides with set inclusion |
| Hp.ExpandDropsNewChoice | src/hp.rs:99-101 | the known list `["a","a"]` absorbs the new choice `"b"` and reports no change, although it does not cover it; the fixed merge records it |
| Hp.ExpandIfNeedFixed | src/hp.rs:87-145 | reports no change exactly when compatible and already covering; otherwise as the source |
| Hp.ExpandFixedCovers | src/hp.rs:87-145 | after any successful fixed merge `self` covers the merged-in distribution |
| Hp.ExpandFixedIdempotent | src/hp.rs:87-145 | the fixed merge is idempotent |
| Hp.Render | src/hp.rs:30-44 | with `--arg`, `Flag(false)` renders as nothing, `Flag(true)` as `--name`, and other values as `--name=...`; without it a flag is `true`/`false` and a choice is verbatim |
| Attr.Parse | src/attr.rs:10-20 | fails exactly when there is no `:`; otherwise the key has no `:` and the input is key, `:`, value (empty key or value allowed, value may hold `:`) |
| Attr.ParseRoundTrip | src/attr.rs:10-20 | parsing `key ++ ":" ++ value` for a key without `:` returns exactly that key and value |
| Trial.NewTrialId | src/trial.rs:7-13 | `get` returns the number given, and it is the only id doing so (so `new(id.get()) == id`) |
| Trial.NewObservationId | src/trial.rs:22-28 | `get` returns the number given, and it is the only id doing so |
| Trial.CompareTrialIds | src/trial.rs:1-4 | the derived ordering of trial ids is that of the wrapped numbers |
| Trial.CompareObservationIds | src/trial.rs:16-19 | the derived ordering of observation ids is that of the wrapped numbers |
| Metric.NewMetricValue | src/metric.rs:10-18 | accepts exactly finite values and keeps them |
| Tuners.DefaultNextAction | src/tuners.rs:16-18 | the default `next_action` is always `CreateTrial` |
| Tuners.DefaultTunerSpec | src/tuners.rs:45-49 | the default spec is the random tuner without a seed |
| Tuners.Build | src/tuners.rs:38-42 | a random spec builds a random tuner with no finished trials |
| Tuners.Ask | src/tuners.rs:57-66 | delegates to the random tuner with unchanged arguments and result |
| Tuners.Tell | src/tuners.rs:68-72 | delegates to the random tuner with unchanged arguments and result |
| Tuners.NextAction | src/tuners.rs:74-78 | delegates to the default, leaving the tuner unchanged |
| Tuners.DefaultTunerCreatesTrial | src/tuners.rs:16-49 | the default tuner builds and asks to create a trial |
| RandomTuner.DefaultSpec | src/tuners/random.rs:10-14 | the derived default has no fixed seed |
| RandomTuner.Build | src/tuners/random.rs:16-36 | builds with no finished trials, seeded by the spec's seed or else by the given entropy |
| RandomTuner.Ask | src/tuners/random.rs:39-77 | a choice is an element of the list; a non-log continuous value lies in `[min, max)`; a discrete value is `min + n*step` with `n < count`; a fidelity value is the range maximum; an empty range is the `low >= high` panic, and a log-scale range starting at 0 the `must be finite` panic; any type serde can read back is accepted, including a log-scale type with a negative lower bound |
| RandomTuner.LogNegativeMinPanics | src/tuners/random.rs:48-55 | a deserialised log-scale type with a negative lower bound, which `ContinousParamType::new` would refuse, and asking for it is the `low >= high` panic |
| RandomTuner.DiscreteGridPointInRange | src/tuners/random.rs:63-67 | every grid point below the count lies within the range |
| RandomTuner.Tell | src/tuners/random.rs:79-82 | appends the trial id to the finished trials, keeps the generator, and returns `true` |
| Retry.New | src/tuners/retry.rs:15-22 | nothing queued and nothing being retried |
| Retry.Ask | src/tuners/retry.rs:26-49 | a retried trial gets its original value without the wrapped tuner, or an error for a parameter the original lacked; other trials are delegated |
| Retry.Tell | src/tuners/retry.rs:51-85 | an observation without an exit status is the panic of the opening assertion, changing nothing; success removes the retry entry and forwards the original with only metrics and exit status replaced (erroring on differing parameters); a failure below the limit increments the count and queues exactly one `ResumeTrial`; at the limit the original failure is forwarded and nothing is queued |
| Retry.NextAction | src/tuners/retry.rs:87-89 | queued actions come first, in FIFO order, before the wrapped tuner is asked |
| Retry.StepsPreserveValid | src/tuners/retry.rs:26-89 | no operation lets a retry count exceed `max_retries` |
| Retry.RepeatedFailures | src/tuners/retry.rs:71-83 | `k <= max_retries` failures of a trial leave it retried `k` times with `k` resumes queued |
| Rng.ToBeBytes | src/rng.rs:12-13 | eight bytes whose big-endian value is the seed |
| Rng.Seed256 | src/rng.rs:11-17 | 32 bytes: the seed's big-endian bytes, then 24 zeros |
| Rng.Seed256Injective | src/rng.rs:12-13 | decoding bytes 0..8 recovers the seed, so distinct seeds give distinct seeds |
| Rng.ParseDigits | src/rng.rs:56-58 | succeeds exactly on a digit string whose value fits in a `u64`, and returns that value |
| Rng.ParseU64 | src/rng.rs:56-58 | empty input and a lone `+` are errors, a leading `+` is skipped, and otherwise the digits are parsed |
| Rng.Print | src/rng.rs:61-65 | decimal digits without a leading zero whose value is the number |
| Rng.SeedFromStr | src/rng.rs:53-58 | succeeds exactly when the text parses as a `u64`, and the seed is that number |
| Rng.SeedToString | src/rng.rs:61-65 | the seed in decimal digits, without a leading zero, whose value is the seed |
| Rng.SeedRoundTrip | src/rng.rs:53-65 | parsing the displayed seed returns that seed |
| Rng.NonDecimalRefused | src/rng.rs:56-58 | text that is not a (possibly `+`-signed) decimal is refused |
| Report.NewReportOpt | src/report.rs:8-20 | the direction defaults to minimise |
| Report.ToMetric | src/report.rs:23-32 | the name defaults to `objective value` and is otherwise kept exactly; value and direction pass through |
| Config.Default | src/config.rs:16-19 | no data directory |
| Config.LookupPath | src/config.rs:26-37 | fails with `InvalidInput` exactly when no ancestor has `.hone/config.json`; otherwise returns that file in the closest such ancestor |
| PubSub.WriteAction | src/pubsub.rs:130-135 | appends exactly one encoded record and a single newline, keeping the journal before it |
| PubSub.NewReader | src/pubsub.rs:145-150 | a new reader starts at the beginning of the journal, outside any trial |
| PubSub.FindNewline | src/pubsub.rs:163-166 | finds the first newline at or after the position, or reports that there is none |
| PubSub.Attribute | src/pubsub.rs:171-184 | `Start` is tagged with its own id and becomes current; `End` is tagged with the current id and clears it; others are tagged with the current id; no current trial is `InvalidInput` |
| PubSub.ReadAction | src/pubsub.rs:152-187 | at end of file or before an incomplete line, returns nothing and leaves the position alone; otherwise consumes exactly one line |
| PubSub.Drain | src/pubsub.rs:79-104 | reading until nothing is left leaves no newline after the position |
| PubSub.DrainWritten | src/pubsub.rs:130-187 | draining written actions returns them, attributed as the reference attribution does |
| PubSub.Poll | src/pubsub.rs:79-105 | on success every listed regular-file journal is drained, and the readers of unlisted paths are kept |
| PubSub.PollIsQueue | src/pubsub.rs:79-105 | a poll returns the records each regular-file journal drains to from the reader it had before, in directory order, or the first error |
| PubSub.PollLeavesReaders | src/pubsub.rs:79-105 | after a successful poll each journal's reader is where its drain stopped, so readers persist to the next poll |
| PubSub.QueueWritten | src/pubsub.rs:79-105 | draining journals that hold written actions after their readers returns those actions in order and leaves each reader at its journal's end |
| PubSub.PollWritten | src/pubsub.rs:79-135 | polling journals written after their readers returns exactly the written actions, attributed, journal by journal in directory order |
| PubSub.PollDrained | src/pubsub.rs:79-105 | polling fully drained journals again returns nothing and changes no reader |
| PubSub.NoRecordTwice | src/pubsub.rs:79-105 | when every journal grows by appended lines, the next poll returns exactly the actions of the appended lines and none the previous poll returned |
| PubSub.DrainGrown | src/pubsub.rs:152-166 | a drain, then a drain of the grown journal from where it stopped, return together exactly what one drain of the grown journal returns |
| Trials.NewTrial | src/trials.rs:22-24 | a new trial has its id and timestamp and nothing else yet |
| Trials.Apply | src/trials.rs:21-38 | `Start` inserts or replaces the trial under its id; `Define`, `Sample`, `Report` for an unknown id are `InvalidInput`, otherwise update only that trial; `End` changes nothing |
| Trials.Fold | src/trials.rs:19-39 | succeeds exactly when every action's trial was started earlier; the keys are the started ids and each trial is filed under its own id |
| Trials.ListTrials | src/trials.rs:14-42 | one trial per distinct started id, each under its own id |
| Study.HandleAction | src/study.rs:138-165 | follows the same table rules as the trials fold and leaves the current trial and the published actions alone |
| Study.HandleActionIsApply | src/study.rs:138-165 | the server's table update is the trials fold's step |
| Study.Sync | src/study.rs:131-136 | handles the polled actions in order, stops at the first error, and leaves the current trial and the published actions alone |
| Study.SyncIsFold | src/study.rs:131-136 | syncing a batch of polled actions is the trials fold |
| Study.HandleCommand | src/study.rs:248-268 | `StartTrial` publishes `Start` for a fresh trial and makes it current; `EndTrial` publishes `End` and clears it |
| Study.Suggest | src/study.rs:222-246 | no current trial is `Bug`; a known parameter returns the stored value and publishes nothing; an empty choice list is `InvalidInput`; otherwise a choice is picked, `Define` then `Sample` are published and the value is recorded |
| Study.SuggestMemoised | src/study.rs:222-246 | suggesting the same parameter again returns the same value and publishes nothing |
| Study.HandleMessage | src/study.rs:199-220 | a reply is `Bug`; a report with no current trial is `Bug`, otherwise the metric is recorded and `Report` is published with the trial's last step |
| Runner.New | src/runner.rs:99-115 | nothing running or finished, all counters at zero, and the worker bound and run limit are the ones given |
| Runner.IsStudyFinished | src/runner.rs:219-223 | never without a run limit, otherwise once that many observations have finished |
| Runner.StartObservation | src/runner.rs:117-131 | files the observation under a fresh id from `next_observation_id`, adds it to the running list and writes `ObsStarted`; the other counters, the finished count, the worker bound and the run limit are unchanged |
| Runner.Schedule | src/runner.rs:142-179 | the optimizer is asked only below the worker bound and at most one observation starts; `CreateTrial` draws fresh trial and observation ids and writes `TrialStarted` then `ObsStarted`, `ResumeTrial` a fresh observation id for the given trial and writes `ObsStarted`, each adding only the new table entry; `FinishTrial` changes nothing but the output; `QuitOptimization` ends with `Ok`; the runner invariant is kept |
| Runner.SwapRemove | src/runner.rs:189 | removes exactly the chosen element, the last element taking its place |
| Runner.Exit | src/runner.rs:186-205 | the exited observation leaves the running list and the table, gets its exit status, `finished` grows by exactly one, and the trial is reported finished when the optimizer says so; the id counters, the worker bound and the run limit are unchanged; the invariant is kept |
| Runner.HandleAsk | src/runner.rs:239-254 | an unknown observation is an error; otherwise the value is recorded with its type under the parameter name and nothing else changes |
| Runner.HandleTell | src/runner.rs:256-268 | an unknown observation is an error; otherwise the metric is recorded under its name and nothing else changes |
| Runner.RequestsPreserveValid | src/runner.rs:239-268 | asking and telling keep the runner invariant |
| Loader.Step | src/runner/loader.rs:26-103 | the whole next state for every event: a study start re-enters skip mode, adds the last elapsed time to the offset and clears the mappings; a definition leaves skip mode; while skipping, and for a finished trial, only the last elapsed time changes; a trial start maps the trial to a fresh id and announces it; an observation start draws a fresh id even when its trial is unmapped, which is the `unknown trial` error; a finished observation is emitted with both ids translated, an unmapped observation or trial being the matching error; emitted elapsed times are shifted by the offset |
| Loader.New | src/runner/loader.rs:17-24 | empty mappings, last elapsed time zero, skipping, and the runner's counters and offset as given |
| Loader.StepPreservesValid | src/runner/loader.rs:58-103 | mapped and announced ids stay below the counters, and no id is announced twice |
| Loader.Steps | src/runner/loader.rs:28-52 | the event loop alone keeps the invariant and draws at most one id of each kind per event |
| Loader.StepsAppend | src/runner/loader.rs:28-52 | the loop over a log is the loop over its first part, then over the rest; after a failing step nothing more is handled |
| Loader.Load | src/runner/loader.rs:26-56 | on success the loop's final state with its last elapsed time added to the offset; on failure the first failing step's state and error; keeps the invariant |
| Loader.LoadStopsAtFirstError | src/runner/loader.rs:28-52 | a failed load is unaffected by anything later in the log |
| Loader.UndefinedStudyIsSkipped | src/runner/loader.rs:27-50 | before a definition, trial and observation events replay nothing and draw no id |
| TempDir.New | src/runner/tempdir.rs:14-20 | no study directory, and no trial or observation directory |
| TempDir.EnsureCreated | src/runner/tempdir.rs:62-78 | an existing directory is returned and nothing is created; otherwise a new one is made inside the parent, or the system's temporary directory |
| TempDir.CreateStudy | src/runner/tempdir.rs:22-28 | the study directory is created at most once |
| TempDir.CreateTrial | src/runner/tempdir.rs:30-40 | an existing trial directory is returned unchanged; otherwise a new one is registered under that id only |
| TempDir.CreateObs | src/runner/tempdir.rs:42-52 | as for trials, for observation directories |
| TempDir.RemoveTrial | src/runner/tempdir.rs:54-56 | drops only that trial's directory |
| TempDir.RemoveObs | src/runner/tempdir.rs:58-60 | drops only that observation's directory |
| TempDir.CreateTrialIdempotent | src/runner/tempdir.rs:30-40 | a repeated create for the same trial returns the same path and changes nothing |
| TempDir.CreateThenRemoveTrial | src/runner/tempdir.rs:30-56 | removing a freshly created trial directory restores the table |
| Show.UpdateBestIsBestAfter | src/commands/show.rs:70-83 | whatever order the metrics are visited in, the per-metric loop equals the reference update |
| Show.BestChangesOnlyWhenBetter | src/commands/show.rs:77-82 | the first observation reporting a metric becomes its best, and the best changes only when the new value is better |
| Show.Debug | src/commands/show.rs:90 | the `{:?}` form of a line is quoted |
| Show.EscapeQuotes | src/commands/show.rs:90 | inside the quotes every quote character is escaped by a backslash |
| Show.Run | src/commands/show.rs:53-98 | the output so far is kept as a prefix; without passthrough the loop fails exactly when some item is not an event, with the message naming the first such line |
| Show.ShowBest | src/commands/show.rs:30-99 | succeeds exactly under passthrough or when every item is an event; otherwise fails naming the first line that is not one |
| Show.Step | src/commands/show.rs:53-94 | a definition outputs the previous study, resets the map and leaves skip mode; a study start enters skip mode; finished observations are ignored while skipping; a non-JSON line is echoed under passthrough and is otherwise the error naming the line in its `{:?}` form |
| Show.RunEndsWithSummary | src/commands/show.rs:53-98 | a successful pass ends with the summary of the last study defined |
| Show.OneSummaryPerStudy | src/commands/show.rs:52-99 | a successful run prints exactly one summary per definition, and the last thing printed is the summary of the last study defined |
| Show.NothingBeforeDefinition | src/commands/show.rs:52-69 | without a definition nothing but echoed lines is printed |
| Best.ParetoFrontAsWritten | src/best.rs:9-17 | as written: the trials that dominate every trial, themselves included, as a subsequence of the input, each kept as often as it occurs |
| Best.AsWrittenIsEmpty | src/best.rs:12 | for a strict dominance relation the front as written is always empty |
| Best.AsWrittenDropsSoleTrial | src/best.rs:12 | with "greater than" as dominance, the single trial `1` is dropped by the source and kept by the corrected front |
| Best.ParetoFront | src/best.rs:9-17 | corrected: the trials no trial dominates, as a subsequence of the input in input order, each kept as often as it occurs |
| Best.ParetoFrontNonEmpty | src/best.rs:9-17 | for a strict partial order, a non-empty input has a non-empty front |

## Left out

- I/O of every kind:
  - process spawning, `try_wait` and sleeping in the runner;
  - the RPC channel and UDP server of the study;
  - opening and listing journal files;
  - stdout writes;
  - config file load/save.

  Journals and event logs are sequences; exits and incoming messages are inputs.
- Concurrency (`Arc<Mutex<_>>`, threads, mpsc channels): the model is sequential.
- JSON/serde: encoding and decoding are function parameters. The journal round trip assumes only that decoding undoes encoding and that encodings contain no newline.
- Floating point: NaN, infinities beyond the validating constructors, `-0.0` versus `is_sign_positive`, rounding, and `f64` `Display`. Numbers are exact reals, and display is a function parameter.
- Random sampling (`gen_range`, normal sampling, `ln`/`exp`): a draw is a parameter. The standard generator's output for a seed is not modelled, only the 32-byte seed.
- RandomTuner.Ask: the value for a log-scale continuous type and for a normal type is unconstrained, because it comes from `exp`/normal sampling over reals.
- RandomTuner.Build: `ArcRng::new` is called with the spec's `Option<u64>` seed, which `ArcRng::new(RngSeed)` in this revision of the source does not accept. The model seeds from the given seed or else from an entropy parameter.
- Tuners.Ask: only the random tuner is covered, as it is the only `Tuner` variant.
- Runner.Schedule: the `FinishTrial` branch writes its event and then reaches `todo!("sweep resource")`, which is modelled as an error. The 64-bit id counters must stay below `u64::MAX`, because `fetch_and_increment` is not part of this model.
- Runner.HandleAsk: `UnknownObservation` is the message prefix only; the source appends the observation id (runner.rs:244, 261).
- Runner.Exit: `Observation::is_succeeded` is not in this revision of the source; `Trial.Observation.IsSucceeded` takes it to mean exit code 0. The observation id of a process is the running-list entry chosen by the caller.
- Loader.Step: the 64-bit id counters must have room for the next id, because `fetch_and_increment` is not part of this model; `Loader.Steps` and `Loader.Load` require room for one id per event. `UnknownTrial` and `UnknownObs` are the message prefixes only; the source appends the id (loader.rs:81, 92, 96). `Event::elapsed` is a parameter, and `tell_finished_obs` is modelled as emitting the rewritten observation. The runner's counters and offset sit in the loader state, because `src/runner/loader.rs` uses runner fields absent from `src/runner.rs`.
- Show.Step: a metric's objective and fidelity are ignored, as in the source. The `{:?}` form escapes quote, backslash, tab, line feed, carriage return and NUL; Rust's other escapes of non-printable characters are not modelled. Compact observations are the observations themselves, and the summary is not rendered as JSON.
- Trials.ListTrials: the result is a map, because `HashMap` iteration order is unspecified. `Trial::report` and `last_step` are parameters.
- Study.HandleMessage: the reply channels and `run_once` loop are not modelled.
- `AskOpt::ask`, `src/commands/tell.rs`, `src/history.rs`, `src/str.rs` and most of `src/optimizer.rs` are unfinished in the source and not modelled.
- CLI and environment plumbing (`src/main.rs`, the other commands, `src/envvar.rs`, error conversions) are not part of this model.

## Findings

| source | as written | input that shows it | evidently intended | confidence | as-written member | corrected member |
|---|---|---|---|---|---|---|
| src/hp.rs:99-101 | a choice merge reports "no change" when the sorted union has as many entries as the known LIST, which can hold duplicates | known `["a","a"]`, new `["b"]`: union size 2 equals list length 2, so `"b"` is dropped and `Ok(false)` is returned | report no change only when every new choice is already known (set inclusion) | not executed | Hp.ExpandIfNeed, Hp.ExpandDropsNewChoice | Hp.ExpandIfNeedFixed, Hp.ExpandFixedCovers |
| src/best.rs:12 | a trial is kept only if it dominates every trial, itself included | any input under strict dominance, e.g. `[1]` with "greater than": `1 > 1` fails, so the front is empty | keep the trials that no other trial dominates | not executed | Best.ParetoFrontAsWritten, Best.AsWrittenIsEmpty | Best.ParetoFront, Best.ParetoFrontNonEmpty |

=== FILE: ask.dfy ===
/** The `hone ask` parameter specification of src/commands/ask.rs and its
    translation into a `Domain.ParamType`. */
module Ask {
  import opened Wrappers
  import Domain

  datatype ParamSpec =
    | Bool
    | Choice(choices: seq<string>, ordinal: bool)
    | Range(start: real, end: real, ln: bool, step: Option<real>, fidelity: bool)
    | Normal(mean: real, stddev: real)

  const BothLnAndStep := "Cannot specify both `--ln` and `--step` options."

  /** `ParamSpec::to_param_type`. The translation is total and its only
      failure is a range given both `--ln` and `--step`. */
  function ToParamType(spec: ParamSpec): (r: Result<Domain.ParamType, string>)
    ensures r.Err? <==> spec.Range? && spec.ln && spec.step.Some?
    ensures r.Err? ==> r.error == BothLnAndStep
    ensures spec.Bool? ==> r == Ok(Domain.CategoricalType(["false", "true"]))
    ensures spec.Choice? && !spec.ordinal ==> r == Ok(Domain.CategoricalType(spec.choices))
    ensures spec.Choice? && spec.ordinal ==> r == Ok(Domain.OrdinalType(spec.choices))
    ensures spec.Normal? ==> r == Ok(Domain.NormalType(spec.mean, spec.stddev))
    ensures spec.Range? && spec.step.None? ==>
      r == Ok(Domain.ContinousType(spec.start, spec.end, spec.ln, spec.fidelity))
    ensures spec.Range? && spec.step.Some? && !spec.ln ==>
      r == Ok(Domain.DiscreteType(spec.start, spec.end, spec.step.value, spec.fidelity))
  {
    match spec
    case Bool => Ok(Domain.CategoricalType(["false", "true"]))
    case Choice(choices, false) => Ok(Domain.CategoricalType(choices))
    case Choice(choices, true) => Ok(Domain.OrdinalType(choices))
    case Normal(mean, stddev) => Ok(Domain.NormalType(mean, stddev))
    case Range(start, end, ln, None, fidelity) => Ok(Domain.ContinousType(start, end, ln, fidelity))
    case Range(start, end, false, Some(step), fidelity) => Ok(Domain.DiscreteType(start, end, step, fidelity))
    case Range(_, _, true, Some(_), _) => Err(BothLnAndStep)
  }

  /** Every successful translation keeps the choices, the numbers and the
      fidelity flag of the specification: the specification can be read back
      from the domain, except that `Bool` is the choice list false/true. */
  lemma ToParamTypeReadBack(spec: ParamSpec)
    requires ToParamType(spec).Ok?
    ensures var t := ToParamType(spec).value;
      && (t.Str? <==> spec.Bool? || spec.Choice?)
      && (spec.Choice? ==> t.str.choices == spec.choices && (t.str.Ordinal? <==> spec.ordinal))
      && (spec.Range? ==> t.Num? && t.fidelity == spec.fidelity && t.num.start == spec.start && t.num.end == spec.end)
      && (spec.Range? ==> (t.num.Discrete? <==> spec.step.Some?))
      && (spec.Normal? ==> t.Num? && !t.fidelity)
  {}

  /** `Bool` is the same domain as a non-ordinal choice of "false" and "true". */
  lemma BoolIsChoiceOfFalseTrue()
    ensures ToParamType(Bool) == ToParamType(Choice(["false", "true"], false))
  {}
}

=== FILE: attr.dfy ===
/** `Attr::from_str` of src/attr.rs: an attribute string `key:value` is split
    at its FIRST colon, so the key never holds a colon while the value may. */
module Attr {
  import opened Wrappers

  datatype Attr = Attr(key: string, value: string)

  const NoValuePart := "No value part in an attribute string"

  /** The position of the first `:` of `s`, if there is one. */
  function FirstColon(s: string): (r: Option<nat>)
    ensures r.None? <==> ':' !in s
    ensures r.Some? ==> r.value < |s| && s[r.value] == ':' && ':' !in s[..r.value]
  {
    if |s| == 0 then None
    else if s[0] == ':' then Some(0)
    else
      match FirstColon(s[1..])
      case None => None
      case Some(i) =>
        assert s[..i + 1] == [s[0]] + s[1..][..i];
        Some(i + 1)
  }

  /** `splitn(2, ':')`: the key is what precedes the first colon and the value
      everything after it; without a colon there is no value part. The `{:?}`
      rendering of `s` in the message is not modelled. */
  function Parse(s: string): (r: Result<Attr, string>)
    ensures r.Err? <==> ':' !in s
    ensures r.Err? ==> r.error == NoValuePart
    ensures r.Ok? ==> ':' !in r.value.key && s == r.value.key + ":" + r.value.value
  {
    match FirstColon(s)
    case None => Err(NoValuePart)
    case Some(i) =>
      assert s == s[..i] + ":" + s[i + 1..];
      Ok(Attr(s[..i], s[i + 1..]))
  }

  /** Writing a colon-free key, a colon and any value, and parsing it back,
      gives exactly that key and value; empty keys and values included. */
  lemma ParseRoundTrip(key: string, value: string)
    requires ':' !in key
    ensures Parse(key + ":" + value) == Ok(Attr(key, value))
  {
    var s := key + ":" + value;
    assert s[|key|] == ':';
    var i := FirstColon(s).value;
    assert i == |key|;
    assert s[..i] == key;
    assert s[i + 1..] == value;
  }
}

=== FILE: best.dfy ===
/** The Pareto front of a list of trials (src/best.rs), for an abstract
    dominance relation `dominates` (`Trial::dominates` is not part of this
    model).

    `ParetoFrontAsWritten` keeps, as the source does, the trials that
    dominate EVERY trial of the list, themselves included. Dominance in the
    Pareto sense is strict (no trial dominates itself), and for such a
    relation that test never passes: the front is always empty. `ParetoFront`
    keeps instead the trials that no trial of the list dominates, which for a
    strict partial order is never empty on a non-empty list. */
module Best {

  /** The elements of `xs` that satisfy `keep`, in their original order,
      each as often as in `xs`. */
  function Filter<T>(xs: seq<T>, keep: T -> bool): (r: seq<T>)
    ensures FilterOf(r, xs, keep)
    ensures |r| <= |xs|
    ensures forall i :: 0 <= i < |r| ==> r[i] in xs && keep(r[i])
    ensures forall i :: 0 <= i < |xs| && keep(xs[i]) ==> xs[i] in r
    ensures Subsequence(r, xs)
    ensures multiset(r) <= multiset(xs)
    ensures forall x | x in multiset(xs) :: multiset(r)[x] == (if keep(x) then multiset(xs)[x] else 0)
    decreases |xs|
  {
    if |xs| == 0 then []
    else
      var rest := Filter(xs[1..], keep);
      var r := if keep(xs[0]) then [xs[0]] + rest else rest;
      FilterStep(xs, rest, r, keep);
      r
  }

  /** What `Filter` promises about `r`: the kept elements in order, and
      with their multiplicities. */
  ghost predicate FilterOf<T>(r: seq<T>, xs: seq<T>, keep: T -> bool) {
    FilterOrder(r, xs, keep) && FilterCount(r, xs, keep)
  }

  ghost predicate FilterOrder<T>(r: seq<T>, xs: seq<T>, keep: T -> bool) {
    && |r| <= |xs|
    && (forall i :: 0 <= i < |r| ==> r[i] in xs && keep(r[i]))
    && (forall i :: 0 <= i < |xs| && keep(xs[i]) ==> xs[i] in r)
    && Subsequence(r, xs)
  }

  ghost predicate FilterCount<T>(r: seq<T>, xs: seq<T>, keep: T -> bool) {
    && multiset(r) <= multiset(xs)
    && (forall x | x in multiset(xs) :: multiset(r)[x] == (if keep(x) then multiset(xs)[x] else 0))
  }

  /** One step of `Filter`: keeping or dropping the head extends what holds
      of the tail to the whole list. */
  lemma FilterStep<T>(xs: seq<T>, rest: seq<T>, r: seq<T>, keep: T -> bool)
    requires |xs| > 0 && FilterOf(rest, xs[1..], keep)
    requires r == if keep(xs[0]) then [xs[0]] + rest else rest
    ensures FilterOf(r, xs, keep)
  {
    FilterOrderStep(xs, rest, r, keep);
    FilterCountStep(xs, rest, r, keep);
  }

  lemma FilterOrderStep<T>(xs: seq<T>, rest: seq<T>, r: seq<T>, keep: T -> bool)
    requires |xs| > 0 && FilterOrder(rest, xs[1..], keep)
    requires r == if keep(xs[0]) then [xs[0]] + rest else rest
    ensures FilterOrder(r, xs, keep)
  {
    assert forall i :: 1 <= i < |xs| ==> xs[i] == xs[1..][i - 1];
  }

  lemma FilterCountStep<T>(xs: seq<T>, rest: seq<T>, r: seq<T>, keep: T -> bool)
    requires |xs| > 0 && FilterCount(rest, xs[1..], keep)
    requires r == if keep(xs[0]) then [xs[0]] + rest else rest
    ensures FilterCount(r, xs, keep)
  {
    assert xs == [xs[0]] + xs[1..];
    assert multiset(xs) == multiset{xs[0]} + multiset(xs[1..]);
    forall x | x in multiset(xs)
      ensures multiset(r)[x] == (if keep(x) then multiset(xs)[x] else 0)
    {
      if x !in multiset(xs[1..]) {
        assert multiset(rest)[x] == 0;
      }
    }
  }

  /** `a` is `b` with some elements deleted, the rest kept in order. */
  ghost predicate Subsequence<T>(a: seq<T>, b: seq<T>)
    decreases |b|
  {
    if |a| == 0 then true
    else if |b| == 0 then false
    else if a[0] == b[0] then Subsequence(a[1..], b[1..])
    else Subsequence(a, b[1..])
  }

  /** `dominates` is a strict partial order on the elements of `xs`. */
  ghost predicate StrictOrderOn<T>(xs: seq<T>, dominates: (T, T) -> bool) {
    && (forall i :: 0 <= i < |xs| ==> !dominates(xs[i], xs[i]))
    && (forall i, j, k :: 0 <= i < |xs| && 0 <= j < |xs| && 0 <= k < |xs| && dominates(xs[i], xs[j]) && dominates(xs[j], xs[k])
          ==> dominates(xs[i], xs[k]))
  }

  /** `t` dominates every trial of `trials`. */
  predicate DominatesAll<T>(t: T, trials: seq<T>, dominates: (T, T) -> bool) {
    forall i :: 0 <= i < |trials| ==> dominates(t, trials[i])
  }

  /** No trial of `trials` dominates `t`. */
  predicate Undominated<T>(t: T, trials: seq<T>, dominates: (T, T) -> bool) {
    forall i :: 0 <= i < |trials| ==> !dominates(trials[i], t)
  }

  /** `pareto_front`, as written. */
  function ParetoFrontAsWritten<T>(trials: seq<T>, dominates: (T, T) -> bool): (r: seq<T>)
    ensures Subsequence(r, trials)
    ensures forall i :: 0 <= i < |r| ==> r[i] in trials && DominatesAll(r[i], trials, dominates)
    ensures forall i :: 0 <= i < |trials| && DominatesAll(trials[i], trials, dominates) ==> trials[i] in r
    ensures multiset(r) <= multiset(trials)
    ensures forall t | t in multiset(trials) ::
      multiset(r)[t] == (if DominatesAll(t, trials, dominates) then multiset(trials)[t] else 0)
  {
    Filter(trials, t => DominatesAll(t, trials, dominates))
  }

  /** The discrepancy: under a strict dominance relation the source's front
      is empty, whatever the trials. */
  lemma AsWrittenIsEmpty<T>(trials: seq<T>, dominates: (T, T) -> bool)
    requires StrictOrderOn(trials, dominates)
    ensures ParetoFrontAsWritten(trials, dominates) == []
  {
    if |ParetoFrontAsWritten(trials, dominates)| > 0 {
      assert false;
    }
  }

  /** A concrete instance: one trial, dominance as "greater than". The
      source reports no front; the intended front is that trial. */
  lemma AsWrittenDropsSoleTrial()
    ensures ParetoFrontAsWritten([1], (a: int, b: int) => a > b) == []
    ensures ParetoFront([1], (a: int, b: int) => a > b) == [1]
  {
    var gt := (a: int, b: int) => a > b;
    assert [1][0] == 1 && !gt(1, 1);
    assert !DominatesAll(1, [1], gt);
    assert Undominated(1, [1], gt);
  }

  /** The Pareto front: the trials no trial dominates, in input order. */
  function ParetoFront<T>(trials: seq<T>, dominates: (T, T) -> bool): (r: seq<T>)
    ensures Subsequence(r, trials)
    ensures forall i :: 0 <= i < |r| ==> r[i] in trials && Undominated(r[i], trials, dominates)
    ensures forall i :: 0 <= i < |trials| && Undominated(trials[i], trials, dominates) ==> trials[i] in r
    ensures multiset(r) <= multiset(trials)
    ensures forall t | t in multiset(trials) ::
      multiset(r)[t] == (if Undominated(t, trials, dominates) then multiset(trials)[t] else 0)
  {
    Filter(trials, t => Undominated(t, trials, dominates))
  }

  /** Under a strict dominance relation, a non-empty list has a non-empty
      front. */
  lemma ParetoFrontNonEmpty<T>(trials: seq<T>, dominates: (T, T) -> bool)
    requires StrictOrderOn(trials, dominates) && |trials| > 0
    ensures |ParetoFront(trials, dominates)| > 0
  {
    var i := SomeUndominated(trials, dominates);
    assert trials[i] in ParetoFront(trials, dominates);
  }

  /** A strict partial order on a non-empty list has a maximal element. */
  lemma {:induction false} SomeUndominated<T>(trials: seq<T>, dominates: (T, T) -> bool) returns (i: nat)
    requires StrictOrderOn(trials, dominates) && |trials| > 0
    ensures i < |trials| && Undominated(trials[i], trials, dominates)
    decreases |trials|
  {
    if |trials| == 1 {
      return 0;
    }
    var rest := trials[1..];
    assert StrictOrderOn(rest, dominates) by {
      forall a, b, c | 0 <= a < |rest| && 0 <= b < |rest| && 0 <= c < |rest| && dominates(rest[a], rest[b]) && dominates(rest[b], rest[c])
        ensures dominates(rest[a], rest[c])
      {
        assert rest[a] == trials[a + 1] && rest[b] == trials[b + 1] && rest[c] == trials[c + 1];
      }
      forall a | 0 <= a < |rest| ensures !dominates(rest[a], rest[a]) {
        assert rest[a] == trials[a + 1];
      }
    }
    var j := SomeUndominated(rest, dominates);
    if !dominates(trials[0], rest[j]) {
      return j + 1;
    }
    // The head dominates the maximal element of the tail, so nothing in the
    // tail dominates the head: it would dominate that element as well.
    forall k | 0 <= k < |trials|
      ensures !dominates(trials[k], trials[0])
    {
      if k > 0 {
        assert trials[k] == rest[k - 1];
      }
    }
    return 0;
  }
}

=== FILE: config.dfy ===
/** src/config.rs: the default configuration and the search for the nearest
    `.hone/config.json`, starting in the current directory and walking up to
    the root. A directory is the sequence of its path components (the root
    is the empty sequence), and whether a file exists is a parameter. */
module Config {
  import opened Wrappers

  type Path = seq<string>

  datatype Config = Config(dataDir: Option<Path>)

  /** `Config::default`: no data directory. */
  function Default(): (c: Config)
    ensures c.dataDir.None?
  {
    Config(None)
  }

  /** `Config::FILE_PATH`, joined onto a directory. */
  function ConfigFileIn(dir: Path): (p: Path)
    ensures |p| == |dir| + 2 && p[..|dir|] == dir
  {
    dir + [".hone", "config.json"]
  }

  /** `cwd[..k]` has a config file and no directory below it on the way from `cwd` does. */
  predicate ClosestMatch(cwd: Path, exists_: Path -> bool, k: int) {
    && 0 <= k <= |cwd|
    && exists_(ConfigFileIn(cwd[..k]))
    && forall j :: k < j <= |cwd| ==> !exists_(ConfigFileIn(cwd[..j]))
  }

  /** `Config::lookup_path`: the config file of the closest directory, among
      `cwd` and its ancestors, that has one; `InvalidInput` once the root has
      been tried without success. */
  method LookupPath(cwd: Path, exists_: Path -> bool) returns (r: Result<Path, ErrorKind>)
    ensures r.Err? <==> forall k :: 0 <= k <= |cwd| ==> !exists_(ConfigFileIn(cwd[..k]))
    ensures r.Err? ==> r.error == InvalidInput
    ensures r.Ok? ==> exists k :: ClosestMatch(cwd, exists_, k) && r.value == ConfigFileIn(cwd[..k])
  {
    var n := |cwd|;
    while true
      invariant 0 <= n <= |cwd|
      invariant forall j :: n < j <= |cwd| ==> !exists_(ConfigFileIn(cwd[..j]))
      decreases n
    {
      var dir := cwd[..n];
      var path := ConfigFileIn(dir);
      if exists_(path) {
        return Ok(path);
      }
      if n == 0 {
        return Err(InvalidInput);
      }
      n := n - 1;
    }
  }
}

=== FILE: domain.dfy ===
/** The unvalidated parameter domain of src/domain.rs: the shape a command
    line parameter specification is translated into. Unlike `Param`, these
    constructors check nothing and carry their arguments as given. */
module Domain {

  datatype ParamType =
    | Str(str: StrParamType)
    | Num(num: NumParamType, fidelity: bool)

  datatype StrParamType =
    | Categorical(choices: seq<string>)
    | Ordinal(choices: seq<string>)

  datatype NumParamType =
    | Continous(start: real, end: real, ln: bool)
    | Discrete(start: real, end: real, step: real)
    | Normal(mean: real, stddev: real)

  datatype ParamValue = Str(str: string) | Num(num: real)

  /** `ParamType::categorical`: an unordered string domain over `choices`. */
  function CategoricalType(choices: seq<string>): (r: ParamType)
    ensures r.Str? && r.str.Categorical? && r.str.choices == choices
  {
    ParamType.Str(StrParamType.Categorical(choices))
  }

  /** `ParamType::ordinal`: an ordered string domain over `choices`. */
  function OrdinalType(choices: seq<string>): (r: ParamType)
    ensures r.Str? && r.str.Ordinal? && r.str.choices == choices
  {
    ParamType.Str(StrParamType.Ordinal(choices))
  }

  /** `ParamType::normal`: a normal distribution, never a fidelity parameter. */
  function NormalType(mean: real, stddev: real): (r: ParamType)
    ensures r.Num? && !r.fidelity
    ensures r.num.Normal? && r.num.mean == mean && r.num.stddev == stddev
  {
    ParamType.Num(NumParamType.Normal(mean, stddev), false)
  }

  /** `ParamType::continous`: a real interval, all four arguments kept. */
  function ContinousType(start: real, end: real, ln: bool, fidelity: bool): (r: ParamType)
    ensures r.Num? && r.fidelity == fidelity
    ensures r.num.Continous? && r.num.start == start && r.num.end == end && r.num.ln == ln
  {
    ParamType.Num(NumParamType.Continous(start, end, ln), fidelity)
  }

  /** `ParamType::discrete`: a stepped interval, all four arguments kept. */
  function DiscreteType(start: real, end: real, step: real, fidelity: bool): (r: ParamType)
    ensures r.Num? && r.fidelity == fidelity
    ensures r.num.Discrete? && r.num.start == start && r.num.end == end && r.num.step == step
  {
    ParamType.Num(NumParamType.Discrete(start, end, step), fidelity)
  }

  /** The constructors are injective and their images are disjoint, so a
      `ParamType` determines the constructor call that produced it. */
  lemma ConstructorsAreInjective(c1: seq<string>, c2: seq<string>, a: real, b: real, c: real, d: real, x: bool, y: bool)
    ensures CategoricalType(c1) == CategoricalType(c2) ==> c1 == c2
    ensures OrdinalType(c1) == OrdinalType(c2) ==> c1 == c2
    ensures CategoricalType(c1) != OrdinalType(c2)
    ensures ContinousType(a, b, x, y) != DiscreteType(a, b, c, y)
    ensures NormalType(a, b) == NormalType(c, d) ==> a == c && b == d
  {}

  /** `Display for ParamValue`; the decimal rendering of an `f64` is left to
      `showNum`. A string value is printed verbatim. */
  function Display(v: ParamValue, showNum: real -> string): (s: string)
    ensures v.Str? ==> s == v.str
    ensures v.Num? ==> s == showNum(v.num)
  {
    match v
    case Str(x) => x
    case Num(x) => showNum(x)
  }
}

=== FILE: hp.dfy ===
/** Hyperparameter distributions of src/hp.rs: merging a newly declared
    distribution into a known one (`expand_if_need`) and rendering a sampled
    value for the command line.

    `ExpandIfNeed` models the merge as written. Its choice branch decides
    "nothing new" by comparing the size of the merged set with the LENGTH of
    the known list, which lets a new choice be dropped when the known list
    holds a duplicate; `ExpandIfNeedFixed` decides by set inclusion instead
    and keeps every other branch. */
module Hp {
  import opened Wrappers
  import opened Lex

  datatype HpDistribution =
    | Flag
    | Choice(choices: seq<string>, ordinal: bool)
    | Range(start: real, end: real, ln: bool, step: Option<real>, fidelity: bool)
    | Normal(mean: real, stddev: real)

  datatype HpValue = FlagValue(flag: bool) | ChoiceValue(choice: string) | RangeValue(x: real) | NormalValue(y: real)

  const Incompatible := "Incompatible distributions"

  /** The outcome of a merge: whether `self` changed (or the error), and `self` afterwards. */
  datatype Merge = Merge(changed: Result<bool, string>, merged: HpDistribution)

  /** The two distributions can be merged: same variant, non-ordinal choices,
      equal normals, ranges agreeing on `ln`, `step` and `fidelity`. */
  predicate Compatible(a: HpDistribution, b: HpDistribution) {
    match (a, b)
    case (Flag, Flag) => true
    case (Choice(_, o0), Choice(_, o1)) => !o0 && !o1
    case (Normal(m0, s0), Normal(m1, s1)) => m0 == m1 && s0 == s1
    case (Range(_, _, l0, st0, f0), Range(_, _, l1, st1, f1)) => l0 == l1 && st0 == st1 && f0 == f1
    case _ => false
  }

  /** `a` already admits every value `b` admits. */
  predicate Covers(a: HpDistribution, b: HpDistribution) {
    match (a, b)
    case (Flag, Flag) => true
    case (Choice(c0, _), Choice(c1, _)) => Elements(c1) <= Elements(c0)
    case (Normal(m0, s0), Normal(m1, s1)) => m0 == m1 && s0 == s1
    case (Range(s0, e0, _, _, _), Range(s1, e1, _, _, _)) => s0 <= s1 && e1 <= e0
    case _ => false
  }

  function Min(a: real, b: real): real { if a <= b then a else b }

  function Max(a: real, b: real): real { if a >= b then a else b }

  /** `HpDistribution::expand_if_need`, as written. */
  function ExpandIfNeed(self: HpDistribution, d: HpDistribution): (r: Merge)
    ensures r.changed.Err? <==> !Compatible(self, d)
    ensures r.changed.Err? ==> r.changed.error == Incompatible
    ensures r.changed != Ok(true) ==> r.merged == self
    ensures self.Choice? && Compatible(self, d) ==>
      var union := SortedSet(self.choices + d.choices);
      && (r.changed == Ok(false) <==> |union| == |self.choices|)
      && (r.changed == Ok(true) ==> r.merged == Choice(union, false))
    ensures self.Range? && Compatible(self, d) ==>
      && (r.changed == Ok(false) <==> Covers(self, d))
      && (r.changed == Ok(true) ==> r.merged == self.(start := Min(self.start, d.start), end := Max(self.end, d.end)))
  {
    match (self, d)
    case (Flag, Flag) => Merge(Ok(false), self)
    case (Choice(c0, false), Choice(c1, false)) =>
      var union := SortedSet(c0 + c1);
      if |c0| == |union| then Merge(Ok(false), self) else Merge(Ok(true), Choice(union, false))
    case (Normal(m0, s0), Normal(m1, s1)) =>
      if m0 == m1 && s0 == s1 then Merge(Ok(false), self) else Merge(Err(Incompatible), self)
    case (Range(s0, e0, l0, st0, f0), Range(s1, e1, l1, st1, f1)) =>
      if l0 == l1 && st0 == st1 && f0 == f1 then
        if s0 <= s1 && e1 <= e0 then Merge(Ok(false), self)
        else Merge(Ok(true), Range(Min(s0, s1), Max(e0, e1), l0, st0, f0))
      else Merge(Err(Incompatible), self)
    case _ => Merge(Err(Incompatible), self)
  }

  /** The merge with the choice branch deciding "nothing new" by inclusion. */
  function ExpandIfNeedFixed(self: HpDistribution, d: HpDistribution): (r: Merge)
    ensures r.changed.Err? <==> !Compatible(self, d)
    ensures r.changed != Ok(true) ==> r.merged == self
    ensures r.changed == Ok(false) <==> Compatible(self, d) && Covers(self, d)
    ensures self.Choice? && r.changed == Ok(true) ==>
      r.merged == Choice(SortedSet(self.choices + d.choices), false)
    ensures !self.Choice? ==> r == ExpandIfNeed(self, d)
  {
    match (self, d)
    case (Choice(c0, false), Choice(c1, false)) =>
      if Elements(c1) <= Elements(c0) then Merge(Ok(false), self)
      else Merge(Ok(true), Choice(SortedSet(c0 + c1), false))
    case _ => ExpandIfNeed(self, d)
  }

  lemma ElementsAppend(a: seq<string>, b: seq<string>)
    ensures Elements(a + b) == Elements(a) + Elements(b)
  {
    assert forall y :: y in a + b <==> y in a || y in b;
  }

  /** Adding `b` to `a` keeps its size exactly when `b` adds nothing new. */
  lemma UnionCardinality(a: set<string>, b: set<string>)
    ensures |a + b| == |a| <==> b <= a
  {
    assert a + b == a + (b - a);
    assert a * (b - a) == {};
    if !(b <= a) {
      var y :| y in b && y !in a;
      assert y in b - a;
    }
  }

  /** When the known choice list is free of duplicates, the length test of
      the source is exactly the inclusion test. */
  lemma LengthTestIsInclusion(c0: seq<string>, c1: seq<string>)
    requires forall i, j :: 0 <= i < j < |c0| ==> c0[i] != c0[j]
    ensures |SortedSet(c0 + c1)| == |c0| <==> Elements(c1) <= Elements(c0)
  {
    DistinctCardinality(c0);
    ElementsAppend(c0, c1);
    UnionCardinality(Elements(c0), Elements(c1));
  }

  /** A successful merge (as written) leaves `self` covering the newly
      declared distribution, provided the known choice list has no duplicate. */
  lemma ExpandCovers(self: HpDistribution, d: HpDistribution)
    requires self.Choice? ==> forall i, j :: 0 <= i < j < |self.choices| ==> self.choices[i] != self.choices[j]
    requires ExpandIfNeed(self, d).changed.Ok?
    ensures Covers(ExpandIfNeed(self, d).merged, d)
  {
    if self.Choice? {
      LengthTestIsInclusion(self.choices, d.choices);
      ElementsAppend(self.choices, d.choices);
    }
  }

  /** The fixed merge leaves `self` covering `d` whenever it succeeds. */
  lemma ExpandFixedCovers(self: HpDistribution, d: HpDistribution)
    requires ExpandIfNeedFixed(self, d).changed.Ok?
    ensures Covers(ExpandIfNeedFixed(self, d).merged, d)
  {
    if self.Choice? {
      ElementsAppend(self.choices, d.choices);
    }
  }

  /** Merging the same distribution again reports no change: the merge (as
      written) is idempotent. */
  lemma ExpandIdempotent(self: HpDistribution, d: HpDistribution)
    requires ExpandIfNeed(self, d).changed.Ok?
    ensures ExpandIfNeed(ExpandIfNeed(self, d).merged, d) == Merge(Ok(false), ExpandIfNeed(self, d).merged)
  {
    var m := ExpandIfNeed(self, d).merged;
    if self.Choice? && ExpandIfNeed(self, d).changed == Ok(true) {
      var u := SortedSet(self.choices + d.choices);
      ElementsAppend(self.choices, d.choices);
      ElementsAppend(u, d.choices);
      assert Elements(u + d.choices) == Elements(u);
      assert |SortedSet(u + d.choices)| == |Elements(u)|;
      forall i, j | 0 <= i < j < |u|
        ensures u[i] != u[j]
      {
        StrictlySortedDistinct(u, i, j);
      }
      DistinctCardinality(u);
    }
  }

  /** The fixed merge is idempotent as well. */
  lemma ExpandFixedIdempotent(self: HpDistribution, d: HpDistribution)
    requires ExpandIfNeedFixed(self, d).changed.Ok?
    ensures ExpandIfNeedFixed(ExpandIfNeedFixed(self, d).merged, d) == Merge(Ok(false), ExpandIfNeedFixed(self, d).merged)
  {
    ExpandFixedCovers(self, d);
  }

  /** The discrepancy: a known list with a duplicate absorbs a new choice
      without recording it, where the fixed merge records it. */
  lemma ExpandDropsNewChoice()
    ensures ExpandIfNeed(Choice(["a", "a"], false), Choice(["b"], false)) == Merge(Ok(false), Choice(["a", "a"], false))
    ensures !Covers(Choice(["a", "a"], false), Choice(["b"], false))
    ensures ExpandIfNeedFixed(Choice(["a", "a"], false), Choice(["b"], false)).changed == Ok(true)
  {
    var c := ["a", "a"] + ["b"];
    assert "a" in c && "b" in c;
    assert Elements(c) == {"a", "b"};
    assert |Elements(c)| == 2;
    assert "b" !in Elements(["a", "a"]);
  }

  /** `HpOpt::ask` rendering. With `--arg` a flag becomes `--name` or nothing
      and other values `--name=value`; without it the bare value is printed.
      The Debug escaping of a choice and the decimal form of an `f64` are left
      to `debugStr` and `showNum`. */
  function Render(name: string, v: HpValue, arg: bool, debugStr: string -> string, showNum: real -> string): (s: string)
    ensures arg && v == FlagValue(false) ==> s == ""
    ensures arg && v == FlagValue(true) ==> s == "--" + name
    ensures arg && !v.FlagValue? ==> |s| >= 3 + |name| && s[..2 + |name|] == "--" + name && s[2 + |name|] == '='
    ensures !arg && v.FlagValue? ==> s == (if v.flag then "true" else "false")
    ensures !arg && v.ChoiceValue? ==> s == v.choice
  {
    if arg then
      match v
      case FlagValue(false) => ""
      case FlagValue(true) => "--" + name
      case ChoiceValue(c) => "--" + name + "=" + debugStr(c)
      case RangeValue(x) => "--" + name + "=" + showNum(x)
      case NormalValue(x) => "--" + name + "=" + showNum(x)
    else
      match v
      case FlagValue(b) => if b then "true" else "false"
      case ChoiceValue(c) => c
      case RangeValue(x) => showNum(x)
      case NormalValue(x) => showNum(x)
  }
}

=== FILE: lex.dfy ===
/** The ordering of Rust `String`s (byte-wise lexicographic, which for UTF-8
    is the order of code points) and the sorted, duplicate-free sequence that
    collecting into a `BTreeSet<&String>` and iterating it produces. */
module Lex {

  /** `a` sorts strictly before `b`: at the first difference `a` has the
      smaller character, or `a` is a proper prefix of `b`. */
  predicate Less(a: string, b: string)
    decreases |a|
  {
    if |a| == 0 then |b| > 0
    else if |b| == 0 then false
    else if a[0] < b[0] then true
    else if a[0] == b[0] then Less(a[1..], b[1..])
    else false
  }

  lemma {:induction false} LessIrreflexive(a: string)
    ensures !Less(a, a)
    decreases |a|
  {
    if |a| > 0 {
      LessIrreflexive(a[1..]);
    }
  }

  lemma {:induction false} LessTransitive(a: string, b: string, c: string)
    requires Less(a, b) && Less(b, c)
    ensures Less(a, c)
    decreases |a|
  {
    if |a| > 0 && a[0] == b[0] && b[0] == c[0] {
      LessTransitive(a[1..], b[1..], c[1..]);
    }
  }

  lemma {:induction false} LessTotal(a: string, b: string)
    requires a != b
    ensures Less(a, b) || Less(b, a)
    decreases |a|
  {
    if |a| > 0 && |b| > 0 && a[0] == b[0] {
      assert a == [a[0]] + a[1..] && b == [b[0]] + b[1..];
      LessTotal(a[1..], b[1..]);
    }
  }

  lemma {:induction false} LessAsymmetric(a: string, b: string)
    requires Less(a, b)
    ensures !Less(b, a)
  {
    if Less(b, a) {
      LessTransitive(a, b, a);
      LessIrreflexive(a);
    }
  }

  /** The set of elements of a sequence. */
  function Elements(s: seq<string>): set<string> {
    set y | y in s
  }

  /** Strictly increasing, hence free of duplicates. */
  predicate StrictlySorted(s: seq<string>) {
    forall i, j :: 0 <= i < j < |s| ==> Less(s[i], s[j])
  }

  lemma StrictlySortedDistinct(s: seq<string>, i: int, j: int)
    requires StrictlySorted(s) && 0 <= i < |s| && 0 <= j < |s| && i != j
    ensures s[i] != s[j]
  {
    if i < j {
      LessIrreflexive(s[i]);
    } else {
      LessIrreflexive(s[j]);
    }
  }

  /** A sequence without duplicates has as many elements as its set. */
  lemma {:induction false} DistinctCardinality(s: seq<string>)
    requires forall i, j :: 0 <= i < j < |s| ==> s[i] != s[j]
    ensures |Elements(s)| == |s|
  {
    if |s| > 0 {
      var t := s[1..];
      DistinctCardinality(t);
      assert Elements(s) == Elements(t) + {s[0]};
      forall k | 0 <= k < |t|
        ensures t[k] != s[0]
      {
        assert t[k] == s[k + 1];
      }
      assert s[0] !in Elements(t);
    }
  }

  /** Inserts `x` at its place in a strictly sorted sequence, unless present. */
  function Insert(x: string, s: seq<string>): (r: seq<string>)
    requires StrictlySorted(s)
    ensures StrictlySorted(r)
    ensures Elements(r) == Elements(s) + {x}
  {
    if |s| == 0 then [x]
    else if x == s[0] then s
    else if Less(x, s[0]) then
      assert forall j :: 0 < j < |s| ==> Less(x, s[j]) by {
        forall j | 0 < j < |s| {
          LessTransitive(x, s[0], s[j]);
        }
      }
      [x] + s
    else
      LessTotal(x, s[0]);
      var rest := Insert(x, s[1..]);
      assert forall y :: y in rest ==> Less(s[0], y) by {
        forall y | y in rest
          ensures Less(s[0], y)
        {
          assert y in Elements(rest);
          if y != x {
            assert y in Elements(s[1..]);
            var k :| 0 <= k < |s[1..]| && s[1..][k] == y;
            assert s[k + 1] == y;
          }
        }
      }
      assert Elements(s) == Elements(s[1..]) + {s[0]};
      assert Elements([s[0]] + rest) == Elements(rest) + {s[0]};
      [s[0]] + rest
  }

  /** The strictly sorted sequence of the distinct elements of `xs`. */
  function SortedSet(xs: seq<string>): (r: seq<string>)
    ensures StrictlySorted(r)
    ensures Elements(r) == Elements(xs)
    ensures |r| == |Elements(xs)|
  {
    if |xs| == 0 then []
    else
      var r := Insert(xs[|xs| - 1], SortedSet(xs[..|xs| - 1]));
      assert xs == xs[..|xs| - 1] + [xs[|xs| - 1]];
      assert Elements(xs) == Elements(xs[..|xs| - 1]) + {xs[|xs| - 1]};
      assert forall i, j :: 0 <= i < j < |r| ==> r[i] != r[j] by {
        forall i, j | 0 <= i < j < |r| {
          StrictlySortedDistinct(r, i, j);
        }
      }
      DistinctCardinality(r);
      r
  }
}

=== FILE: loader.dfy ===
/** Replaying a previous study's event log into a new run (`StudyLoader` of
    src/runner/loader.rs). Every trial and observation of the log is given a
    fresh id of the new run, the id mappings translate the later events, and
    the elapsed times are shifted by the time the earlier studies took.

    Events of a study are skipped until that study is defined. Durations are
    whole numbers of nanoseconds. Which events carry an elapsed time is the
    parameter `elapsedOf` (`Event::elapsed` is not part of this model); the
    runner's id counters and elapsed offset are carried in the loader state,
    and `tell_finished_obs` is modelled as emitting the rewritten observation. */
module Loader {
  import opened Wrappers
  import opened Types
  import opened Trial

  datatype Event =
    | StudyStarted
    | StudyDefined
    | TrialStarted(trialId: TrialId)
    | TrialFinished(trialId: TrialId)
    | ObsStarted(obsId: ObservationId, trialId: TrialId, elapsed: nat)
    | ObsFinished(obs: Observation, elapsed: nat)

  /** What the loader hands on to the new run. */
  datatype Output =
    | NewTrial(trialId: TrialId)
    | NewObs(obsId: ObservationId, trialId: TrialId, elapsed: nat)
    | FinishedObs(obs: Observation, elapsed: nat)

  datatype LoaderState = LoaderState(
    trialMap: map<TrialId, TrialId>,
    obsMap: map<ObservationId, ObservationId>,
    lastElapsed: nat,
    offset: nat,
    nextTrialId: u64,
    nextObsId: u64,
    skip: bool,
    output: seq<Output>)
  {
    /** The mappings point below the counters, and every trial and
        observation announced to the new run got its own id, below the
        counter. */
    ghost predicate Valid() {
      && (forall k :: k in trialMap ==> trialMap[k].Get() < nextTrialId)
      && (forall k :: k in obsMap ==> obsMap[k].Get() < nextObsId)
      && (forall i :: 0 <= i < |output| && output[i].NewTrial? ==> output[i].trialId.Get() < nextTrialId)
      && (forall i :: 0 <= i < |output| && output[i].NewObs? ==> output[i].obsId.Get() < nextObsId)
      && (forall i, j :: 0 <= i < j < |output| && output[i].NewTrial? && output[j].NewTrial? ==>
            output[i].trialId != output[j].trialId)
      && (forall i, j :: 0 <= i < j < |output| && output[i].NewObs? && output[j].NewObs? ==>
            output[i].obsId != output[j].obsId)
    }
  }

  /** `StudyLoader::new` on a runner whose counters and offset are given;
      `load` starts out skipping. */
  function New(nextTrialId: u64, nextObsId: u64, offset: nat): (st: LoaderState)
    ensures st.Valid() && st.skip && st.output == []
    ensures st.trialMap == map[] && st.obsMap == map[] && st.lastElapsed == 0
    ensures st.nextTrialId == nextTrialId && st.nextObsId == nextObsId && st.offset == offset
  {
    LoaderState(map[], map[], 0, offset, nextTrialId, nextObsId, true, [])
  }

  /** Message prefixes of the two lookup errors; the source appends the
      unknown id, which this model leaves out. */
  const UnknownTrial := "unknown trial id"
  const UnknownObs := "unknown observation id"

  /** The counters have room for one more id each. */
  predicate HasRoom(st: LoaderState) {
    st.nextTrialId < U64_MAX && st.nextObsId < U64_MAX
  }

  /** One iteration of `load`: record the event's elapsed time, then handle
      it. An error ends the load; the state it returns alongside is what the
      runner is left with (an observation id may already have been drawn). */
  function Step(st: LoaderState, e: Event, elapsedOf: Event -> Option<nat>): (r: (LoaderState, Result<(), string>))
    requires HasRoom(st)
    ensures var last := elapsedOf(e).GetOr(st.lastElapsed);
      match e
      case StudyStarted =>
        r == (st.(skip := true, offset := st.offset + last, trialMap := map[], obsMap := map[], lastElapsed := 0), Ok(()))
      case StudyDefined => r == (st.(lastElapsed := last, skip := false), Ok(()))
      case _ => st.skip ==> r == (st.(lastElapsed := last), Ok(()))
    ensures !st.skip && e.TrialStarted? ==>
      var id := TrialId(st.nextTrialId);
      r == (st.(lastElapsed := elapsedOf(e).GetOr(st.lastElapsed), nextTrialId := st.nextTrialId + 1,
                trialMap := st.trialMap[e.trialId := id], output := st.output + [NewTrial(id)]), Ok(()))
    ensures !st.skip && e.TrialFinished? ==> r == (st.(lastElapsed := elapsedOf(e).GetOr(st.lastElapsed)), Ok(()))
    ensures !st.skip && e.ObsStarted? ==>
      var drawn := st.(lastElapsed := elapsedOf(e).GetOr(st.lastElapsed), nextObsId := st.nextObsId + 1);
      var id := ObservationId(st.nextObsId);
      && (r.1.Err? <==> e.trialId !in st.trialMap)
      && (e.trialId !in st.trialMap ==> r == (drawn, Err(UnknownTrial)))
      && (e.trialId in st.trialMap ==>
           r == (drawn.(obsMap := st.obsMap[e.obsId := id],
                        output := st.output + [NewObs(id, st.trialMap[e.trialId], st.offset + e.elapsed)]), Ok(())))
    ensures !st.skip && e.ObsFinished? ==>
      var st1 := st.(lastElapsed := elapsedOf(e).GetOr(st.lastElapsed));
      && (r.1.Err? <==> e.obs.id !in st.obsMap || e.obs.trialId !in st.trialMap)
      && (e.obs.id !in st.obsMap ==> r == (st1, Err(UnknownObs)))
      && (e.obs.id in st.obsMap && e.obs.trialId !in st.trialMap ==> r == (st1, Err(UnknownTrial)))
      && (e.obs.id in st.obsMap && e.obs.trialId in st.trialMap ==>
           r == (st1.(output := st.output + [FinishedObs(e.obs.(id := st.obsMap[e.obs.id], trialId := st.trialMap[e.obs.trialId]), e.elapsed)]), Ok(())))
    ensures r.0.nextTrialId >= st.nextTrialId && r.0.nextObsId >= st.nextObsId
    ensures st.output <= r.0.output
  {
    var last := elapsedOf(e).GetOr(st.lastElapsed);
    var st := st.(lastElapsed := last);
    match e
    case StudyStarted =>
      (st.(skip := true, offset := st.offset + st.lastElapsed, trialMap := map[], obsMap := map[], lastElapsed := 0), Ok(()))
    case StudyDefined => (st.(skip := false), Ok(()))
    case TrialStarted(orig) =>
      if st.skip then (st, Ok(()))
      else
        var id := TrialId(st.nextTrialId);
        (st.(nextTrialId := st.nextTrialId + 1, trialMap := st.trialMap[orig := id], output := st.output + [NewTrial(id)]), Ok(()))
    case TrialFinished(_) => (st, Ok(()))
    case ObsStarted(origObs, origTrial, elapsed) =>
      if st.skip then (st, Ok(()))
      else
        var obsId := ObservationId(st.nextObsId);
        var st := st.(nextObsId := st.nextObsId + 1);
        if origTrial !in st.trialMap then (st, Err(UnknownTrial))
        else
          (st.(obsMap := st.obsMap[origObs := obsId],
               output := st.output + [NewObs(obsId, st.trialMap[origTrial], st.offset + elapsed)]), Ok(()))
    case ObsFinished(obs, elapsed) =>
      if st.skip then (st, Ok(()))
      else if obs.id !in st.obsMap then (st, Err(UnknownObs))
      else if obs.trialId !in st.trialMap then (st, Err(UnknownTrial))
      else
        (st.(output := st.output + [FinishedObs(obs.(id := st.obsMap[obs.id], trialId := st.trialMap[obs.trialId]), elapsed)]), Ok(()))
  }

  /** Each step keeps the mappings and the announced ids fresh. */
  lemma StepPreservesValid(st: LoaderState, e: Event, elapsedOf: Event -> Option<nat>)
    requires HasRoom(st)
    ensures st.Valid() ==> Step(st, e, elapsedOf).0.Valid()
  {
    if st.Valid() {
      if e.TrialStarted? && !st.skip {
        TrialStepKeepsValid(st, e, elapsedOf);
      } else if e.ObsStarted? && !st.skip {
        ObsStepKeepsValid(st, e, elapsedOf);
      } else {
        OtherStepKeepsValid(st, e, elapsedOf);
      }
    }
  }

  lemma TrialStepKeepsValid(st: LoaderState, e: Event, elapsedOf: Event -> Option<nat>)
    requires HasRoom(st) && st.Valid() && e.TrialStarted? && !st.skip
    ensures Step(st, e, elapsedOf).0.Valid()
  {
    NewTrialKeepsValid(st.(lastElapsed := elapsedOf(e).GetOr(st.lastElapsed)), e.trialId);
  }

  lemma ObsStepKeepsValid(st: LoaderState, e: Event, elapsedOf: Event -> Option<nat>)
    requires HasRoom(st) && st.Valid() && e.ObsStarted? && !st.skip
    ensures Step(st, e, elapsedOf).0.Valid()
  {
    var r := Step(st, e, elapsedOf).0;
    assert r.trialMap == st.trialMap;
    if e.trialId in st.trialMap {
      NewObsKeepsValid(st, r, e.obsId, st.trialMap[e.trialId], st.offset + e.elapsed);
    } else {
      FrameKeepsValid(st, r);
    }
  }

  lemma OtherStepKeepsValid(st: LoaderState, e: Event, elapsedOf: Event -> Option<nat>)
    requires HasRoom(st) && st.Valid() && !(e.TrialStarted? && !st.skip) && !(e.ObsStarted? && !st.skip)
    ensures Step(st, e, elapsedOf).0.Valid()
  {
    var s := st.(lastElapsed := elapsedOf(e).GetOr(st.lastElapsed));
    FrameKeepsValid(st, s);
    match e
    case StudyStarted =>
      FrameKeepsValid(s, s.(skip := true, offset := s.offset + s.lastElapsed, trialMap := map[], obsMap := map[], lastElapsed := 0));
    case StudyDefined =>
      FrameKeepsValid(s, s.(skip := false));
    case ObsFinished(obs, elapsed) =>
      if !st.skip && obs.id in st.obsMap && obs.trialId in st.trialMap {
        OtherOutputKeepsValid(s, FinishedObs(obs.(id := st.obsMap[obs.id], trialId := st.trialMap[obs.trialId]), elapsed));
      }
    case _ =>
  }

  /** A state with the same announcements, counters no smaller and the same
      or cleared mappings is as fresh as the one it came from. */
  lemma FrameKeepsValid(s: LoaderState, r: LoaderState)
    requires s.Valid() && r.output == s.output
    requires r.nextTrialId >= s.nextTrialId && r.nextObsId >= s.nextObsId
    requires r.trialMap == s.trialMap || r.trialMap == map[]
    requires r.obsMap == s.obsMap || r.obsMap == map[]
    ensures r.Valid()
  {
  }

  /** Handing on a finished observation announces no id. */
  lemma OtherOutputKeepsValid(s: LoaderState, x: Output)
    requires s.Valid() && x.FinishedObs?
    ensures s.(output := s.output + [x]).Valid()
  {
    var o := s.output + [x];
    forall i | 0 <= i < |s.output| ensures o[i] == s.output[i] {}
  }

  /** Announcing a trial under the trial counter keeps the ids fresh. */
  lemma NewTrialKeepsValid(s: LoaderState, orig: TrialId)
    requires s.Valid() && s.nextTrialId < U64_MAX
    ensures s.(nextTrialId := s.nextTrialId + 1, trialMap := s.trialMap[orig := TrialId(s.nextTrialId)],
               output := s.output + [NewTrial(TrialId(s.nextTrialId))]).Valid()
  {
    var o := s.output + [NewTrial(TrialId(s.nextTrialId))];
    forall i | 0 <= i < |s.output| && o[i].NewTrial?
      ensures o[i].trialId != o[|o| - 1].trialId
    {
      assert o[i] == s.output[i];
    }
  }

  /** Announcing an observation under the observation counter keeps the ids
      fresh. */
  lemma NewObsKeepsValid(s: LoaderState, r: LoaderState, orig: ObservationId, trialId: TrialId, elapsed: nat)
    requires s.Valid() && s.nextObsId < U64_MAX
    requires r.nextObsId == s.nextObsId + 1 && r.obsMap == s.obsMap[orig := ObservationId(s.nextObsId)]
    requires r.output == s.output + [NewObs(ObservationId(s.nextObsId), trialId, elapsed)]
    requires r.nextTrialId >= s.nextTrialId && r.trialMap == s.trialMap
    ensures r.Valid()
  {
    var o := r.output;
    forall i | 0 <= i < |s.output| && o[i].NewObs?
      ensures o[i].obsId != o[|o| - 1].obsId
    {
      assert o[i] == s.output[i];
    }
  }

  /** The loop of `load` alone: the events handled in order, ending with
      the state and error of the first step that fails. */
  function Steps(st: LoaderState, events: seq<Event>, elapsedOf: Event -> Option<nat>): (r: (LoaderState, Result<(), string>))
    requires st.nextTrialId as int + |events| < U64_MAX as int && st.nextObsId as int + |events| < U64_MAX as int
    ensures st.Valid() ==> r.0.Valid()
    ensures r.0.nextTrialId as int <= st.nextTrialId as int + |events|
    ensures r.0.nextObsId as int <= st.nextObsId as int + |events|
    ensures |events| == 0 ==> r == (st, Ok(()))
    ensures |events| == 1 ==> r == Step(st, events[0], elapsedOf)
    decreases |events|
  {
    if |events| == 0 then (st, Ok(()))
    else
      var (st1, res) := Step(st, events[0], elapsedOf);
      StepPreservesValid(st, events[0], elapsedOf);
      if res.Err? then (st1, res)
      else Steps(st1, events[1..], elapsedOf)
  }

  /** A log is handled as its first part and then the rest, from the state
      the first part left; once a step fails, nothing after it is handled. */
  lemma {:induction false} StepsAppend(st: LoaderState, xs: seq<Event>, ys: seq<Event>, elapsedOf: Event -> Option<nat>)
    requires st.nextTrialId as int + |xs| + |ys| < U64_MAX as int && st.nextObsId as int + |xs| + |ys| < U64_MAX as int
    ensures var (s, res) := Steps(st, xs, elapsedOf);
      Steps(st, xs + ys, elapsedOf) == (if res.Err? then (s, res) else Steps(s, ys, elapsedOf))
    decreases |xs|
  {
    if |xs| == 0 {
      assert xs + ys == ys;
    } else {
      assert (xs + ys)[0] == xs[0] && (xs + ys)[1..] == xs[1..] + ys;
      var (st1, res) := Step(st, xs[0], elapsedOf);
      if res.Ok? {
        StepsAppend(st1, xs[1..], ys, elapsedOf);
      }
    }
  }

  /** `load`: handles the events in order, stops at the first error, and on
      reaching the end adds the last elapsed time to the offset. */
  function Load(st: LoaderState, events: seq<Event>, elapsedOf: Event -> Option<nat>): (r: (LoaderState, Result<(), string>))
    requires st.nextTrialId as int + |events| < U64_MAX as int && st.nextObsId as int + |events| < U64_MAX as int
    ensures st.Valid() ==> r.0.Valid()
    ensures r.0.nextTrialId as int <= st.nextTrialId as int + |events|
    ensures r.0.nextObsId as int <= st.nextObsId as int + |events|
    ensures st.output <= r.0.output
    ensures var (s, res) := Steps(st, events, elapsedOf);
      && r.1 == res
      && (res.Err? ==> r.0 == s)
      && (res.Ok? ==> r.0 == s.(offset := s.offset + s.lastElapsed))
    decreases |events|
  {
    if |events| == 0 then (st.(offset := st.offset + st.lastElapsed), Ok(()))
    else
      var (st1, res) := Step(st, events[0], elapsedOf);
      StepPreservesValid(st, events[0], elapsedOf);
      if res.Err? then (st1, res)
      else Load(st1, events[1..], elapsedOf)
  }

  /** A load that fails is not affected by anything later in the log: the
      error and the state are those of the first failing step. */
  lemma LoadStopsAtFirstError(st: LoaderState, xs: seq<Event>, ys: seq<Event>, elapsedOf: Event -> Option<nat>)
    requires st.nextTrialId as int + |xs| + |ys| < U64_MAX as int && st.nextObsId as int + |xs| + |ys| < U64_MAX as int
    requires Load(st, xs, elapsedOf).1.Err?
    ensures Load(st, xs + ys, elapsedOf) == Load(st, xs, elapsedOf)
  {
    StepsAppend(st, xs, ys, elapsedOf);
  }

  /** Until a study is defined, a log replays nothing. */
  lemma {:induction false} UndefinedStudyIsSkipped(st: LoaderState, events: seq<Event>, elapsedOf: Event -> Option<nat>)
    requires st.skip
    requires st.nextTrialId as int + |events| < U64_MAX as int && st.nextObsId as int + |events| < U64_MAX as int
    requires forall i :: 0 <= i < |events| ==> !events[i].StudyDefined?
    ensures Load(st, events, elapsedOf).1 == Ok(())
    ensures Load(st, events, elapsedOf).0.output == st.output
    ensures Load(st, events, elapsedOf).0.nextTrialId == st.nextTrialId
    ensures Load(st, events, elapsedOf).0.nextObsId == st.nextObsId
    decreases |events|
  {
    if |events| > 0 {
      var (st1, _) := Step(st, events[0], elapsedOf);
      assert forall i :: 0 <= i < |events[1..]| ==> !events[1..][i].StudyDefined? by {
        forall i | 0 <= i < |events[1..]| ensures !events[1..][i].StudyDefined? {
          assert events[1..][i] == events[i + 1];
        }
      }
      UndefinedStudyIsSkipped(st1, events[1..], elapsedOf);
    }
  }
}

=== FILE: metric.dfy ===
/** Metric types of src/metric.rs, and the journal-level `Metric` record
    (name, value, direction) that src/report.rs, src/pubsub.rs and
    src/study.rs exchange. */
module Metric {
  import opened Wrappers
  import opened Types

  datatype MetricName = MetricName(name: string)

  /** A finite metric value. */
  datatype MetricValue = MetricValue(value: FiniteF64) {
    function Get(): real {
      value.Get()
    }
  }

  /** `MetricValue::new`: accepts exactly the finite numbers and keeps them. */
  function NewMetricValue(x: F64): (r: Result<MetricValue, string>)
    ensures r.Ok? <==> IsFinite(x)
    ensures r.Ok? ==> r.value.Get() == x.v
  {
    var f :- NewFiniteF64(x);
    Ok(MetricValue(f))
  }

  datatype Objective = Minimize | Maximize

  datatype MetricType = MetricType(objective: Option<Objective>)

  datatype MetricInstance = MetricInstance(ty: MetricType, value: MetricValue)

  /** The optimisation direction carried by a journal `Metric`. */
  datatype Direction = Minimize | Maximize

  /** A reported metric as it travels through the study journal. */
  datatype Metric = Metric(name: string, value: real, direction: Direction)
}

=== FILE: param.dfy ===
/** Parameter types and values of src/param.rs with their validating
    constructors, including the rule that snaps the upper bound of a stepped
    range down onto the grid `min + k * step`. */
module Param {
  import opened Wrappers
  import opened Types

  /** `ParamName`: a plain wrapper around the name string. */
  datatype ParamName = ParamName(name: string) {
    function Get(): string {
      name
    }
  }

  /** `ParamName::new(s).get()` gives back `s`, and building from `get` gives back the name. */
  function NewParamName(name: string): (r: ParamName)
    ensures r.Get() == name
    ensures forall p: ParamName :: p.Get() == name ==> p == r
  {
    ParamName(name)
  }

  datatype ParamType = StrType(str: StrParamType) | NumType(num: NumParamType)

  datatype StrParamType =
    | Categorical(categorical: CategoricalParamType)
    | Ordinal(ordinal: OrdinalParamType)

  datatype CategoricalParamType = CategoricalParamType(choices: NonEmptyVec<string>)

  datatype OrdinalParamType = OrdinalParamType(choices: NonEmptyVec<string>)

  datatype NumParamType =
    | Continous(continous: ContinousParamType)
    | Discrete(discrete: DiscreteParamType)
    | Normal(normal: NormalParamType)
    | Fidelity(fidelity: FidelityParamType)

  datatype ContinousParamType = ContinousParamType(range: InclusiveRange, ln: bool)

  datatype NormalParamType = NormalParamType(mean: FiniteF64, stddev: NonNegF64)

  datatype DiscreteParamType = DiscreteParamType(range: InclusiveRange, step: NonNegF64)

  datatype FidelityParamType = FidelityParamType(range: InclusiveRange, step: Option<NonNegF64>)

  datatype ParamValue = Str(str: string) | Num(num: FiniteF64)

  datatype ParamInstance = ParamInstance(ty: ParamType, value: ParamValue)

  /** The invariant every validating constructor establishes: non-empty
      choices, valid ranges (lower bound non-negative under `ln`), a
      non-negative deviation and step. */
  predicate ValidType(t: ParamType) {
    match t
    case StrType(Categorical(c)) => c.choices.Valid()
    case StrType(Ordinal(o)) => o.choices.Valid()
    case NumType(Continous(c)) => c.range.Valid() && (c.ln ==> c.range.min >= 0.0)
    case NumType(Discrete(d)) => d.range.Valid() && d.step.Get() >= 0.0
    case NumType(Normal(n)) => n.stddev.Get() >= 0.0
    case NumType(Fidelity(f)) => f.range.Valid() && (f.step.Some? ==> f.step.value.Get() >= 0.0)
  }

  /** What a parameter type read back by serde guarantees. A continuous type
      derives `Deserialize` without going through its constructor, so its
      `ln` flag is not checked against the lower bound; every other part is
      validated by the field types themselves. */
  predicate DecodedType(t: ParamType) {
    ValidType(t) || (t.NumType? && t.num.Continous? && t.num.continous.range.Valid())
  }

  // ------------------------------------------------------------ constructors

  /** `CategoricalParamType::new`: refuses an empty choice list, otherwise keeps it. */
  function NewCategorical(choices: seq<string>): (r: Result<CategoricalParamType, string>)
    ensures r.Ok? <==> |choices| > 0
    ensures r.Ok? ==> r.value.choices.Get() == choices
  {
    var c :- NewNonEmptyVec(choices);
    Ok(CategoricalParamType(c))
  }

  /** `OrdinalParamType::new`: refuses an empty choice list, otherwise keeps it. */
  function NewOrdinal(choices: seq<string>): (r: Result<OrdinalParamType, string>)
    ensures r.Ok? <==> |choices| > 0
    ensures r.Ok? ==> r.value.choices.Get() == choices
  {
    var c :- NewNonEmptyVec(choices);
    Ok(OrdinalParamType(c))
  }

  /** `ContinousParamType::new`: the range check, plus, when `ln` is set, a
      sign-positive lower bound. */
  function NewContinous(min: F64, max: F64, ln: bool): (r: Result<ContinousParamType, string>)
    ensures r.Ok? <==> IsFinite(min) && IsFinite(max) && min.v <= max.v && (ln ==> min.v >= 0.0)
    ensures r.Ok? ==> r.value.range == InclusiveRange(min.v, max.v) && r.value.ln == ln
  {
    var range :- NewInclusiveRange(min, max);
    if ln && range.min < 0.0 then Err("TODO") else Ok(ContinousParamType(range, ln))
  }

  /** `NormalParamType::new`: a finite mean and a finite, non-negative deviation. */
  function NewNormal(mean: F64, stddev: F64): (r: Result<NormalParamType, string>)
    ensures r.Ok? <==> IsFinite(mean) && IsFinite(stddev) && stddev.v >= 0.0
    ensures r.Ok? ==> r.value.mean.Get() == mean.v && r.value.stddev.Get() == stddev.v
  {
    var m :- NewFiniteF64(mean);
    var s :- NewNonNegF64(stddev);
    Ok(NormalParamType(m, s))
  }

  // --------------------------------------------------------------- snapping

  /** The product `k * step`, kept behind a function so that the solver
      treats a grid offset as a single term in linear reasoning. */
  function Scale(k: real, step: real): real {
    k * step
  }

  lemma ScaleMonotone(a: real, b: real, c: real)
    requires a <= b && c >= 0.0
    ensures Scale(a, c) <= Scale(b, c)
  {}

  lemma ScaleStrict(a: real, b: real, c: real)
    requires a < b && c > 0.0
    ensures Scale(a, c) < Scale(b, c)
  {}

  /** `floor(w / s) * s` is the largest multiple of `s` that does not exceed `w`. */
  lemma FloorDiv(w: real, s: real)
    requires s > 0.0
    ensures Scale((w / s).Floor as real, s) <= w < Scale((w / s).Floor as real, s) + s
    ensures w >= 0.0 ==> (w / s).Floor >= 0
  {
    var q := w / s;
    var kr := q.Floor as real;
    assert kr <= q < kr + 1.0;
    assert Scale(q, s) == w;
    ScaleMonotone(kr, q, s);
    ScaleStrict(q, kr + 1.0, s);
    assert Scale(kr + 1.0, s) == Scale(kr, s) + s;
  }

  /** `min + floor(width / step) * step`, the largest grid point of a stepped range. */
  function SnapMax(min: real, width: real, step: real): real
    requires step != 0.0
  {
    min + Scale((width / step).Floor as real, step)
  }

  /** For a positive step the snapped bound is a grid point within `step` below `max`. */
  lemma SnapMaxBounds(min: real, max: real, step: real)
    requires min <= max && step > 0.0
    ensures var m := SnapMax(min, max - min, step);
      && min <= m <= max
      && max - m < step
      && ((max - min) / step).Floor >= 0
  {
    FloorDiv(max - min, step);
    ScaleMonotone(0.0, ((max - min) / step).Floor as real, step);
  }

  /** `DiscreteParamType::new`. The range is validated first; the upper bound
      is then snapped down to the step grid and the range validated again,
      which fails for a zero or non-finite step (the snapped bound is NaN in
      floating point); a negative step is finally refused by `NonNegF64`. */
  function NewDiscrete(min: F64, max: F64, step: F64): (r: Result<DiscreteParamType, string>)
    ensures r.Ok? <==> IsFinite(min) && IsFinite(max) && min.v <= max.v && IsFinite(step) && step.v > 0.0
    ensures r.Ok? ==>
      && r.value.range.min == min.v
      && min.v <= r.value.range.max <= max.v
      && max.v - r.value.range.max < step.v
      && r.value.step.Get() == step.v
      && r.value.range.max == SnapMax(min.v, max.v - min.v, step.v)
  {
    var range :- NewInclusiveRange(min, max);
    if !IsFinite(step) || step.v == 0.0 then
      Err("`max` isn't an finite number")
    else
      var snapped := SnapMax(range.min, range.Width(), step.v);
      if step.v > 0.0 then
        // both re-checks pass: the snapped range is valid and the step non-negative
        SnapMaxBounds(range.min, range.max, step.v);
        Ok(DiscreteParamType(InclusiveRange(range.min, snapped), NonNegF64(step.v)))
      else
        // the snapped range is still valid, so it is the step check that refuses
        SnapMaxNegativeStep(range.min, range.max, step.v);
        Err("`x` isn't a positive number")
  }

  /** With a negative step the snapped bound lies at or above `max`, so the
      second range check passes and only the step check can refuse. */
  lemma SnapMaxNegativeStep(min: real, max: real, step: real)
    requires min <= max && step < 0.0
    ensures min <= SnapMax(min, max - min, step)
  {
    var w := max - min;
    var q := w / step;
    var kr := q.Floor as real;
    assert kr <= q;
    assert Scale(q, step) == w;
    ScaleMonotone(-q, -kr, -step);
    assert Scale(-q, -step) == Scale(q, step);
    assert Scale(-kr, -step) == Scale(kr, step);
  }

  /** `DiscreteParamType::count`: `(width / step) as u64`, i.e. the quotient
      truncated toward zero and saturated at `u64::MAX`. A zero step (only
      reachable by deserialising) divides to +inf (saturating) or NaN (0). */
  function Count(t: DiscreteParamType): (n: u64)
    requires t.range.Valid() && t.step.Get() >= 0.0
    ensures t.step.Get() > 0.0 ==> n as real <= t.range.Width() / t.step.Get()
    ensures t.step.Get() > 0.0 && n < U64_MAX ==> t.range.Width() / t.step.Get() < n as real + 1.0
  {
    var w := t.range.Width();
    var s := t.step.Get();
    if s == 0.0 then (if w > 0.0 then U64_MAX else 0)
    else
      var k := (w / s).Floor;
      if k >= U64_MAX as int then U64_MAX else k as u64
  }

  /** The count of a constructed discrete type is the number of whole steps
      in the ORIGINAL range: snapping `max` does not change it. */
  lemma DiscreteCountAfterSnap(min: real, max: real, step: real)
    requires min <= max && step > 0.0
    ensures NewDiscrete(Finite(min), Finite(max), Finite(step)).Ok?
    ensures var t := NewDiscrete(Finite(min), Finite(max), Finite(step)).value;
      var k := ((max - min) / step).Floor;
      Count(t) == (if k >= U64_MAX as int then U64_MAX else k as u64)
  {
    var t := NewDiscrete(Finite(min), Finite(max), Finite(step)).value;
    var k := ((max - min) / step).Floor;
    SnapMaxBounds(min, max, step);
    assert t.range.Width() == Scale(k as real, step);
    assert t.range.Width() / step == k as real;
  }

  /** `FidelityParamType::new`: without a step the range is kept as given;
      with one, `max` is snapped exactly as for a discrete type. */
  function NewFidelity(min: F64, max: F64, step: Option<F64>): (r: Result<FidelityParamType, string>)
    ensures step.None? ==>
      (r.Ok? <==> IsFinite(min) && IsFinite(max) && min.v <= max.v)
    ensures step.None? && r.Ok? ==> r.value == FidelityParamType(InclusiveRange(min.v, max.v), None)
    ensures step.Some? ==> (r.Ok? <==> NewDiscrete(min, max, step.value).Ok?)
    ensures step.Some? && r.Ok? ==>
      var d := NewDiscrete(min, max, step.value).value;
      r.value == FidelityParamType(d.range, Some(d.step))
  {
    match step
    case None =>
      var range :- NewInclusiveRange(min, max);
      Ok(FidelityParamType(range, None))
    case Some(st) =>
      var d :- NewDiscrete(min, max, st);
      Ok(FidelityParamType(d.range, Some(d.step)))
  }

  /** Every parameter type a constructor returns satisfies `ValidType`. */
  lemma ConstructorsEstablishValid(min: F64, max: F64, x: F64, ln: bool, step: Option<F64>, choices: seq<string>)
    ensures NewCategorical(choices).Ok? ==> ValidType(StrType(Categorical(NewCategorical(choices).value)))
    ensures NewOrdinal(choices).Ok? ==> ValidType(StrType(Ordinal(NewOrdinal(choices).value)))
    ensures NewContinous(min, max, ln).Ok? ==> ValidType(NumType(Continous(NewContinous(min, max, ln).value)))
    ensures NewDiscrete(min, max, x).Ok? ==> ValidType(NumType(Discrete(NewDiscrete(min, max, x).value)))
    ensures NewNormal(min, x).Ok? ==> ValidType(NumType(Normal(NewNormal(min, x).value)))
    ensures NewFidelity(min, max, step).Ok? ==> ValidType(NumType(Fidelity(NewFidelity(min, max, step).value)))
  {
  }

  // --------------------------------------------------------------- queries

  /** `ParamInstance::is_max_fidelity`: defined only for a fidelity type with
      a numeric value, where it tells whether the value is the range maximum. */
  function IsMaxFidelity(p: ParamInstance): (r: Option<bool>)
    ensures r.Some? <==> p.ty.NumType? && p.ty.num.Fidelity? && p.value.Num?
    ensures r.Some? ==> (r.value <==> p.value.num.Get() == p.ty.num.fidelity.range.max)
  {
    match (p.ty, p.value)
    case (NumType(Fidelity(t)), Num(v)) => Some(t.range.max == v.Get())
    case _ => None
  }

  /** `Display for ParamValue`; the decimal rendering of an `f64` is left to
      `showNum`. A string value is printed verbatim. */
  function Display(v: ParamValue, showNum: real -> string): (s: string)
    ensures v.Str? ==> s == v.str
    ensures v.Num? ==> s == showNum(v.num.Get())
  {
    match v
    case Str(x) => x
    case Num(x) => showNum(x.Get())
  }
}

=== FILE: pubsub.dfy ===
/** The study journal of src/pubsub.rs. Every process appends the actions it
    publishes to its own journal file, one JSON record per line; subscribers
    read every journal of the study, never consume a line that is not yet
    complete, and attribute each action to the trial most recently started
    in that journal.

    A journal is its text, and the JSON form of an action is a pair of
    functions `enc`/`dec` (serde_json), of which the model only assumes
    `Codec`: an encoded action holds no newline and decodes back. */
module PubSub {
  import opened Wrappers
  import Metric

  datatype Uuid = Uuid(value: nat)

  newtype NonZeroU64 = x: int | 0 < x < 0x1_0000_0000_0000_0000 witness 1

  /** The parameter records of this journal API. */
  datatype ParamSpec = Choice(choices: seq<string>)

  datatype Param = Param(name: string, spec: ParamSpec)

  datatype ParamValue = ParamValue(value: string)

  /** The timestamp is a `Duration`, counted here in nanoseconds. */
  datatype TrialAction =
    | Start(id: Uuid, timestamp: nat)
    | Define(param: Param)
    | Sample(name: string, value: ParamValue)
    | Report(step: NonZeroU64, metric: Metric.Metric)
    | End

  /** An encoding never produces a line break, and a line holding an encoded
      action followed by its line break decodes to that action. */
  ghost predicate Codec(enc: TrialAction -> string, dec: string -> Option<TrialAction>) {
    forall a :: '\n' !in enc(a) && dec(enc(a) + "\n") == Some(a)
  }

  // ---------------------------------------------------------------- writer

  /** `JournalWriter::write_action`: appends one record and one line break,
      leaving what was written before untouched. */
  function WriteAction(journal: string, a: TrialAction, enc: TrialAction -> string): (r: string)
    ensures |r| == |journal| + |enc(a)| + 1
    ensures r[..|journal|] == journal
    ensures r[|journal|..|r| - 1] == enc(a) && r[|r| - 1] == '\n'
  {
    journal + enc(a) + "\n"
  }

  /** The text `WriteAction` leaves after writing `actions` in order. */
  function EncodeAll(actions: seq<TrialAction>, enc: TrialAction -> string): string {
    if |actions| == 0 then "" else enc(actions[0]) + "\n" + EncodeAll(actions[1..], enc)
  }

  lemma {:induction false} WriteAllIsEncodeAll(journal: string, actions: seq<TrialAction>, enc: TrialAction -> string)
    ensures WriteAll(journal, actions, enc) == journal + EncodeAll(actions, enc)
    decreases |actions|
  {
    if |actions| > 0 {
      WriteAllIsEncodeAll(WriteAction(journal, actions[0], enc), actions[1..], enc);
    }
  }

  /** A helper for the properties below: `WriteAction` of each action in
      turn, as successive `publish` calls leave the journal. */
  function WriteAll(journal: string, actions: seq<TrialAction>, enc: TrialAction -> string): string
    decreases |actions|
  {
    if |actions| == 0 then journal else WriteAll(WriteAction(journal, actions[0], enc), actions[1..], enc)
  }

  // ---------------------------------------------------------------- reader

  /** A reader: its position in the journal and the trial it is inside of. */
  datatype JournalReader = JournalReader(pos: nat, current: Option<Uuid>)

  /** `JournalReader::new`: at the start, outside any trial. */
  function NewReader(): (r: JournalReader)
    ensures r.pos == 0 && r.current.None?
  {
    JournalReader(0, None)
  }

  /** The position of the first line break at or after `from`. */
  function FindNewline(s: string, from: nat): (r: Option<nat>)
    requires from <= |s|
    ensures r.None? ==> '\n' !in s[from..]
    ensures r.Some? ==> from <= r.value < |s| && s[r.value] == '\n' && '\n' !in s[from..r.value]
    decreases |s| - from
  {
    if from == |s| then None
    else if s[from] == '\n' then Some(from)
    else
      match FindNewline(s, from + 1)
      case None => None
      case Some(i) =>
        assert s[from..i] == [s[from]] + s[from + 1..i];
        Some(i)
  }

  /** The trial an action belongs to, and the current trial afterwards: a
      `Start` belongs to itself and becomes current, `End` belongs to the
      current trial and closes it, any other action belongs to the current
      trial; outside a trial, `End` and the others are `InvalidInput`. */
  function Attribute(current: Option<Uuid>, a: TrialAction): (r: (Option<Uuid>, Result<Uuid, ErrorKind>))
    ensures a.Start? ==> r == (Some(a.id), Ok(a.id))
    ensures a.End? ==> r.0.None?
    ensures !a.Start? && !a.End? ==> r.0 == current
    ensures !a.Start? ==> (r.1.Ok? <==> current.Some?)
    ensures !a.Start? && r.1.Ok? ==> r.1.value == current.value
    ensures r.1.Err? ==> r.1.error == InvalidInput
  {
    match a
    case Start(id, _) => (Some(id), Ok(id))
    case End => (None, if current.Some? then Ok(current.value) else Err(InvalidInput))
    case _ => (current, if current.Some? then Ok(current.value) else Err(InvalidInput))
  }

  /** `JournalReader::read_action`. At the end of the journal, or when the
      rest holds no complete line, nothing is read and the position stays.
      Otherwise the line, line break included, is consumed and decoded; an
      undecodable line is `InvalidInput`; the action is attributed to its
      trial. */
  function ReadAction(r: JournalReader, journal: string, dec: string -> Option<TrialAction>)
    : (res: (JournalReader, Result<Option<(Uuid, TrialAction)>, ErrorKind>))
    requires r.pos <= |journal|
    ensures r.pos <= res.0.pos <= |journal|
    ensures res.1 == Ok(None) <==> '\n' !in journal[r.pos..]
    ensures res.1 == Ok(None) ==> res.0 == r
    ensures res.1 != Ok(None) ==>
      var nl := FindNewline(journal, r.pos).value;
      && res.0.pos == nl + 1
      && var line := journal[r.pos..nl + 1];
         if dec(line).None? then res.1 == Err(InvalidInput) && res.0.current == r.current
         else
           var (cur, owner) := Attribute(r.current, dec(line).value);
           && res.0.current == cur
           && (owner.Ok? ==> res.1 == Ok(Some((owner.value, dec(line).value))))
           && (owner.Err? ==> res.1 == Err(owner.error))
  {
    if r.pos == |journal| then (r, Ok(None))
    else
      match FindNewline(journal, r.pos)
      case None => (r, Ok(None))
      case Some(nl) =>
        var line := journal[r.pos..nl + 1];
        var r1 := r.(pos := nl + 1);
        match dec(line)
        case None => (r1, Err(InvalidInput))
        case Some(a) =>
          var (cur, owner) := Attribute(r.current, a);
          match owner
          case Err(e) => (r1.(current := cur), Err(e))
          case Ok(id) => (r1.(current := cur), Ok(Some((id, a))))
  }

  /** `while let Some(action) = journal.read_action()?`: reads records until
      none is complete, stopping at the first error. On success no complete
      line is left after the reader. */
  function Drain(r: JournalReader, journal: string, dec: string -> Option<TrialAction>)
    : (res: (JournalReader, Result<seq<(Uuid, TrialAction)>, ErrorKind>))
    requires r.pos <= |journal|
    ensures r.pos <= res.0.pos <= |journal|
    ensures res.1.Ok? ==> '\n' !in journal[res.0.pos..]
    decreases |journal| - r.pos
  {
    var (r1, x) := ReadAction(r, journal, dec);
    match x
    case Err(e) => (r1, Err(e))
    case Ok(None) => (r1, Ok([]))
    case Ok(Some(item)) =>
      var (r2, rest) := Drain(r1, journal, dec);
      match rest
      case Err(e) => (r2, Err(e))
      case Ok(items) => (r2, Ok([item] + items))
  }

  /** The reference attribution of a sequence of actions. */
  function AttributeAll(current: Option<Uuid>, actions: seq<TrialAction>): (Option<Uuid>, Result<seq<(Uuid, TrialAction)>, ErrorKind>)
    decreases |actions|
  {
    if |actions| == 0 then (current, Ok([]))
    else
      var (cur, owner) := Attribute(current, actions[0]);
      match owner
      case Err(e) => (cur, Err(e))
      case Ok(id) =>
        var (cur2, rest) := AttributeAll(cur, actions[1..]);
        match rest
        case Err(e) => (cur2, Err(e))
        case Ok(items) => (cur2, Ok([(id, actions[0])] + items))
  }

  /** Reading the first of the records written after the reader's position
      yields that action, attributed, and leaves the reader after its line,
      whatever follows. */
  lemma WriteThenRead(journal: string, r: JournalReader, a: TrialAction, rest: string,
                      enc: TrialAction -> string, dec: string -> Option<TrialAction>)
    requires Codec(enc, dec) && r.pos == |journal|
    ensures var j := WriteAction(journal, a, enc) + rest;
      var (cur, owner) := Attribute(r.current, a);
      && ReadAction(r, j, dec).0 == JournalReader(|journal| + |enc(a)| + 1, cur)
      && ReadAction(r, j, dec).1 == (if owner.Ok? then Ok(Some((owner.value, a))) else Err(owner.error))
  {
    var j := WriteAction(journal, a, enc) + rest;
    var nl := |journal| + |enc(a)|;
    assert j[nl] == '\n';
    assert j[r.pos..nl] == enc(a);
    assert FindNewline(j, r.pos) == Some(nl);
    assert j[r.pos..nl + 1] == enc(a) + "\n";
  }

  /** Draining a journal written after the reader's position yields exactly
      the written actions, attributed as `AttributeAll` does, and leaves the
      reader at the end. */
  lemma {:induction false} DrainWritten(journal: string, r: JournalReader, actions: seq<TrialAction>,
                                        enc: TrialAction -> string, dec: string -> Option<TrialAction>)
    requires Codec(enc, dec) && r.pos == |journal|
    requires AttributeAll(r.current, actions).1.Ok?
    ensures var j := journal + EncodeAll(actions, enc);
      Drain(r, j, dec) == (JournalReader(|j|, AttributeAll(r.current, actions).0), AttributeAll(r.current, actions).1)
    decreases |actions|
  {
    var j := journal + EncodeAll(actions, enc);
    if |actions| == 0 {
      assert j == journal;
    } else {
      var a := actions[0];
      var head := WriteAction(journal, a, enc);
      var tail := EncodeAll(actions[1..], enc);
      assert j == head + tail;
      WriteThenRead(journal, r, a, tail, enc, dec);
      var cur := Attribute(r.current, a).0;
      DrainWritten(head, JournalReader(|head|, cur), actions[1..], enc, dec);
    }
  }

  // ------------------------------------------------------------ subscriber

  /** A directory entry of the study directory: its path, whether it is a
      regular file, and the journal text it holds. */
  datatype Entry = Entry(path: string, isFile: bool, content: string)

  predicate DistinctPaths(entries: seq<Entry>) {
    forall i, j :: 0 <= i < j < |entries| ==> entries[i].path != entries[j].path
  }

  /** Every reader of a listed journal is within that journal's text. */
  predicate ReadersFit(readers: map<string, JournalReader>, entries: seq<Entry>) {
    forall i :: 0 <= i < |entries| && entries[i].isFile && entries[i].path in readers ==>
      readers[entries[i].path].pos <= |entries[i].content|
  }

  /** Every listed journal has a reader with no complete line after it. */
  predicate Drained(readers: map<string, JournalReader>, entries: seq<Entry>) {
    forall i :: 0 <= i < |entries| && entries[i].isFile ==>
      && entries[i].path in readers
      && readers[entries[i].path].pos <= |entries[i].content|
      && '\n' !in entries[i].content[readers[entries[i].path].pos..]
  }

  /** The reader a journal is read with: its own, or a new one the first time. */
  function ReaderFor(readers: map<string, JournalReader>, path: string): (r: JournalReader)
    ensures path !in readers ==> r == NewReader()
  {
    if path in readers then readers[path] else NewReader()
  }

  /** What holds of a listing holds of its tail, whatever reader the head's
      path is given. */
  lemma Tail(readers: map<string, JournalReader>, entries: seq<Entry>, r: JournalReader)
    requires |entries| > 0 && DistinctPaths(entries)
    ensures DistinctPaths(entries[1..])
    ensures ReadersFit(readers, entries) ==>
      && ReadersFit(readers, entries[1..])
      && ReadersFit(readers[entries[0].path := r], entries[1..])
      && (entries[0].isFile ==> ReaderFor(readers, entries[0].path).pos <= |entries[0].content|)
    ensures Drained(readers, entries) ==> Drained(readers, entries[1..])
  {
    forall i | 0 <= i < |entries[1..]|
      ensures entries[1..][i] == entries[i + 1] && entries[i + 1].path != entries[0].path
    {
    }
    if ReadersFit(readers, entries) && entries[0].isFile && entries[0].path in readers {
      assert readers[entries[0].path].pos <= |entries[0].content|;
    }
  }

  /** `Subscriber::poll`: in directory order, skips what is not a regular
      file, opens a reader for a journal seen for the first time, and drains
      every journal into one queue; the first error ends the poll. Readers
      persist from one poll to the next. */
  function Poll(readers: map<string, JournalReader>, entries: seq<Entry>, dec: string -> Option<TrialAction>)
    : (res: (map<string, JournalReader>, Result<seq<(Uuid, TrialAction)>, ErrorKind>))
    requires ReadersFit(readers, entries)
    requires DistinctPaths(entries)
    ensures res.1.Ok? ==> Drained(res.0, entries)
    ensures forall p :: p in readers && (forall i :: 0 <= i < |entries| ==> entries[i].path != p) ==> p in res.0 && res.0[p] == readers[p]
    decreases |entries|
  {
    if |entries| == 0 then (readers, Ok([]))
    else
      var e := entries[0];
      if !e.isFile then
        Tail(readers, entries, NewReader());
        Poll(readers, entries[1..], dec)
      else
        var r := ReaderFor(readers, e.path);
        Tail(readers, entries, r);
        var (r1, items) := Drain(r, e.content, dec);
        var readers1 := readers[e.path := r1];
        Tail(readers, entries, r1);
        match items
        case Err(err) => (readers1, Err(err))
        case Ok(first) =>
          var (readers2, rest) := Poll(readers1, entries[1..], dec);
          match rest
          case Err(err) => (readers2, Err(err))
          case Ok(more) => (readers2, Ok(first + more))
  }

  /** Polling journals that have been drained reads nothing and changes nothing. */
  lemma {:induction false} PollDrained(readers: map<string, JournalReader>, entries: seq<Entry>, dec: string -> Option<TrialAction>)
    requires DistinctPaths(entries) && Drained(readers, entries)
    ensures ReadersFit(readers, entries)
    ensures Poll(readers, entries, dec) == (readers, Ok([]))
    decreases |entries|
  {
    if |entries| > 0 {
      var e := entries[0];
      Tail(readers, entries, ReaderFor(readers, e.path));
      PollDrained(readers, entries[1..], dec);
      if e.isFile {
        assert e.path in readers && readers[e.path].pos <= |e.content| && '\n' !in e.content[readers[e.path].pos..];
        var r := readers[e.path];
        assert ReaderFor(readers, e.path) == r;
        assert ReadAction(r, e.content, dec) == (r, Ok(None));
        assert Drain(r, e.content, dec) == (r, Ok([]));
        assert readers[e.path := r] == readers;
        assert Poll(readers, entries[1..], dec) == (readers, Ok([]));
        var first := Drain(r, e.content, dec).1.value;
        var more := Poll(readers, entries[1..], dec).1.value;
        assert first == [] && more == [];
        assert Poll(readers, entries, dec).1 == Ok(first + more);
        assert first + more == [];
      }
    }
  }

  /** The readers the listed journals are read with, in directory order. */
  function StartReaders(readers: map<string, JournalReader>, entries: seq<Entry>): (starts: seq<JournalReader>)
    ensures |starts| == |entries|
    ensures forall i :: 0 <= i < |entries| ==> starts[i] == ReaderFor(readers, entries[i].path)
  {
    seq(|entries|, i requires 0 <= i < |entries| => ReaderFor(readers, entries[i].path))
  }

  /** Every regular file's reader lies within its journal. */
  predicate StartsFit(starts: seq<JournalReader>, entries: seq<Entry>) {
    && |starts| == |entries|
    && forall i :: 0 <= i < |entries| && entries[i].isFile ==> starts[i].pos <= |entries[i].content|
  }

  /** What a poll returns, journal by journal: the records each regular file
      drains to from its reader, in directory order, or the first error. */
  function Queue(starts: seq<JournalReader>, entries: seq<Entry>, dec: string -> Option<TrialAction>)
    : Result<seq<(Uuid, TrialAction)>, ErrorKind>
    requires StartsFit(starts, entries)
    decreases |entries|
  {
    if |entries| == 0 then Ok([])
    else
      assert StartsFit(starts[1..], entries[1..]) by {
        forall i | 0 <= i < |entries[1..]| ensures entries[1..][i] == entries[i + 1] && starts[1..][i] == starts[i + 1] {}
      }
      if !entries[0].isFile then Queue(starts[1..], entries[1..], dec)
      else
        match Drain(starts[0], entries[0].content, dec).1
        case Err(e) => Err(e)
        case Ok(first) =>
          match Queue(starts[1..], entries[1..], dec)
          case Err(e) => Err(e)
          case Ok(more) => Ok(first + more)
  }

  /** The readers the tail of a listing is read with, after the head's
      journal was drained, are those it had before. */
  lemma TailStarts(readers: map<string, JournalReader>, entries: seq<Entry>, r1: JournalReader)
    requires |entries| > 0 && DistinctPaths(entries)
    ensures var readers1 := if entries[0].isFile then readers[entries[0].path := r1] else readers;
      StartReaders(readers1, entries[1..]) == StartReaders(readers, entries)[1..]
  {
    var readers1 := if entries[0].isFile then readers[entries[0].path := r1] else readers;
    var tail := entries[1..];
    forall i | 0 <= i < |tail| ensures ReaderFor(readers1, tail[i].path) == ReaderFor(readers, tail[i].path) {
      assert tail[i] == entries[i + 1];
    }
  }

  /** Every regular file's reader lies within its journal before the poll. */
  lemma StartsFitReaders(readers: map<string, JournalReader>, entries: seq<Entry>)
    requires ReadersFit(readers, entries)
    ensures StartsFit(StartReaders(readers, entries), entries)
  {
    var starts := StartReaders(readers, entries);
    forall i | 0 <= i < |entries| && entries[i].isFile ensures starts[i].pos <= |entries[i].content| {
      if entries[i].path in readers {
        assert readers[entries[i].path].pos <= |entries[i].content|;
      }
    }
  }

  /** A poll returns the records of every regular-file journal, drained from
      the reader it had before the poll, in directory order; the first error
      is the poll's error. */
  lemma {:induction false} PollIsQueue(readers: map<string, JournalReader>, entries: seq<Entry>, dec: string -> Option<TrialAction>)
    requires ReadersFit(readers, entries) && DistinctPaths(entries)
    ensures StartsFit(StartReaders(readers, entries), entries)
    ensures Poll(readers, entries, dec).1 == Queue(StartReaders(readers, entries), entries, dec)
    decreases |entries|
  {
    StartsFitReaders(readers, entries);
    if |entries| > 0 {
      var e := entries[0];
      var r := ReaderFor(readers, e.path);
      Tail(readers, entries, r);
      var r1 := if e.isFile then Drain(r, e.content, dec).0 else r;
      var readers1 := if e.isFile then readers[e.path := r1] else readers;
      Tail(readers, entries, r1);
      TailStarts(readers, entries, r1);
      PollIsQueue(readers1, entries[1..], dec);
    }
  }

  /** On success a poll leaves each journal's reader where its drain stopped. */
  lemma {:induction false} PollLeavesReaders(readers: map<string, JournalReader>, entries: seq<Entry>, dec: string -> Option<TrialAction>)
    requires ReadersFit(readers, entries) && DistinctPaths(entries)
    requires Poll(readers, entries, dec).1.Ok?
    ensures forall i :: 0 <= i < |entries| && entries[i].isFile ==>
      && entries[i].path in Poll(readers, entries, dec).0
      && Poll(readers, entries, dec).0[entries[i].path] == Drain(ReaderFor(readers, entries[i].path), entries[i].content, dec).0
    decreases |entries|
  {
    if |entries| > 0 {
      var e := entries[0];
      var tail := entries[1..];
      var r := ReaderFor(readers, e.path);
      Tail(readers, entries, r);
      var r1 := if e.isFile then Drain(r, e.content, dec).0 else r;
      var readers1 := if e.isFile then readers[e.path := r1] else readers;
      Tail(readers, entries, r1);
      TailStarts(readers, entries, r1);
      PollLeavesReaders(readers1, tail, dec);
      var after := Poll(readers1, tail, dec).0;
      forall i | 0 <= i < |entries| && entries[i].isFile
        ensures entries[i].path in after && after[entries[i].path] == Drain(ReaderFor(readers, entries[i].path), entries[i].content, dec).0
      {
        if i == 0 {
          forall k | 0 <= k < |tail| ensures tail[k].path != e.path { assert tail[k] == entries[k + 1]; }
        } else {
          assert entries[i] == tail[i - 1];
          assert ReaderFor(readers1, tail[i - 1].path) == StartReaders(readers1, tail)[i - 1];
        }
      }
    }
  }

  /** Each regular-file journal holds, after its reader, exactly the lines
      written for `written[i]`, and those actions attribute without error. */
  ghost predicate WrittenAfter(starts: seq<JournalReader>, entries: seq<Entry>, written: seq<seq<TrialAction>>, enc: TrialAction -> string) {
    && |starts| == |entries| == |written|
    && forall i :: 0 <= i < |entries| && entries[i].isFile ==>
         && starts[i].pos <= |entries[i].content|
         && entries[i].content[starts[i].pos..] == EncodeAll(written[i], enc)
         && AttributeAll(starts[i].current, written[i]).1.Ok?
  }

  /** The attributed written actions, journal by journal in directory order. */
  ghost function Expected(starts: seq<JournalReader>, entries: seq<Entry>, written: seq<seq<TrialAction>>): seq<(Uuid, TrialAction)>
    requires |starts| == |entries| == |written|
    decreases |entries|
  {
    if |entries| == 0 then []
    else
      var here := if entries[0].isFile then AttributeAll(starts[0].current, written[0]).1 else Ok([]);
      (if here.Ok? then here.value else []) + Expected(starts[1..], entries[1..], written[1..])
  }

  /** Draining journals that hold written actions after their readers returns
      those actions with the reference attribution, and leaves each reader at
      the end of its journal, inside the trial the actions left open. */
  lemma {:induction false} QueueWritten(starts: seq<JournalReader>, entries: seq<Entry>, written: seq<seq<TrialAction>>,
                                        enc: TrialAction -> string, dec: string -> Option<TrialAction>)
    requires Codec(enc, dec) && WrittenAfter(starts, entries, written, enc)
    ensures StartsFit(starts, entries)
    ensures Queue(starts, entries, dec) == Ok(Expected(starts, entries, written))
    ensures forall i :: 0 <= i < |entries| && entries[i].isFile ==>
      Drain(starts[i], entries[i].content, dec).0 == JournalReader(|entries[i].content|, AttributeAll(starts[i].current, written[i]).0)
    decreases |entries|
  {
    forall i | 0 <= i < |entries| && entries[i].isFile
      ensures Drain(starts[i], entries[i].content, dec) == (JournalReader(|entries[i].content|, AttributeAll(starts[i].current, written[i]).0), AttributeAll(starts[i].current, written[i]).1)
    {
      var c := entries[i].content;
      var journal := c[..starts[i].pos];
      assert c == journal + EncodeAll(written[i], enc);
      DrainWritten(journal, starts[i], written[i], enc, dec);
    }
    if |entries| > 0 {
      if entries[0].isFile {
        assert Drain(starts[0], entries[0].content, dec).1 == AttributeAll(starts[0].current, written[0]).1;
      }
      assert WrittenAfter(starts[1..], entries[1..], written[1..], enc) by {
        forall i | 0 <= i < |entries[1..]|
          ensures entries[1..][i] == entries[i + 1] && starts[1..][i] == starts[i + 1] && written[1..][i] == written[i + 1]
        {}
      }
      QueueWritten(starts[1..], entries[1..], written[1..], enc, dec);
      var rest := Expected(starts[1..], entries[1..], written[1..]);
      if entries[0].isFile {
        assert Expected(starts, entries, written) == AttributeAll(starts[0].current, written[0]).1.value + rest;
      } else {
        assert Expected(starts, entries, written) == [] + rest == rest;
      }
    }
  }

  /** Polling journals written after their readers returns exactly the
      written actions, attributed, journal by journal in directory order. */
  lemma PollWritten(readers: map<string, JournalReader>, entries: seq<Entry>, written: seq<seq<TrialAction>>,
                    enc: TrialAction -> string, dec: string -> Option<TrialAction>)
    requires Codec(enc, dec) && DistinctPaths(entries) && ReadersFit(readers, entries)
    requires WrittenAfter(StartReaders(readers, entries), entries, written, enc)
    ensures Poll(readers, entries, dec).1 == Ok(Expected(StartReaders(readers, entries), entries, written))
    ensures forall i :: 0 <= i < |entries| && entries[i].isFile ==>
      && entries[i].path in Poll(readers, entries, dec).0
      && Poll(readers, entries, dec).0[entries[i].path]
           == JournalReader(|entries[i].content|, AttributeAll(ReaderFor(readers, entries[i].path).current, written[i]).0)
  {
    var starts := StartReaders(readers, entries);
    PollIsQueue(readers, entries, dec);
    QueueWritten(starts, entries, written, enc, dec);
    PollLeavesReaders(readers, entries, dec);
    var after := Poll(readers, entries, dec).0;
    forall i | 0 <= i < |entries| && entries[i].isFile
      ensures after[entries[i].path] == JournalReader(|entries[i].content|, AttributeAll(ReaderFor(readers, entries[i].path).current, written[i]).0)
    {
      assert starts[i] == ReaderFor(readers, entries[i].path);
    }
  }

  /** The journals of a later poll: the same listing, each regular file grown
      by the lines written for `more[i]`. */
  ghost predicate Grown(entries: seq<Entry>, entries2: seq<Entry>, more: seq<seq<TrialAction>>, enc: TrialAction -> string) {
    && |entries2| == |entries| == |more|
    && forall i :: 0 <= i < |entries| ==>
         && entries2[i].path == entries[i].path && entries2[i].isFile == entries[i].isFile
         && (entries[i].isFile ==> entries2[i].content == entries[i].content + EncodeAll(more[i], enc))
  }

  /** No record is returned twice: readers persist across polls, so when every
      journal grows by appended lines, a second poll returns exactly the
      actions of the appended lines, journal by journal, and none of those
      the first poll returned. */
  lemma NoRecordTwice(readers: map<string, JournalReader>, entries: seq<Entry>, entries2: seq<Entry>,
                      written: seq<seq<TrialAction>>, more: seq<seq<TrialAction>>,
                      enc: TrialAction -> string, dec: string -> Option<TrialAction>)
    requires Codec(enc, dec) && DistinctPaths(entries) && ReadersFit(readers, entries)
    requires WrittenAfter(StartReaders(readers, entries), entries, written, enc)
    requires Grown(entries, entries2, more, enc)
    requires forall i :: 0 <= i < |entries| && entries[i].isFile ==>
      AttributeAll(AttributeAll(ReaderFor(readers, entries[i].path).current, written[i]).0, more[i]).1.Ok?
    ensures Poll(readers, entries, dec).1 == Ok(Expected(StartReaders(readers, entries), entries, written))
    ensures var after := Poll(readers, entries, dec).0;
      && DistinctPaths(entries2) && ReadersFit(after, entries2)
      && Poll(after, entries2, dec).1 == Ok(Expected(StartReaders(after, entries2), entries2, more))
      && forall i :: 0 <= i < |entries| && entries[i].isFile ==>
           StartReaders(after, entries2)[i]
             == JournalReader(|entries[i].content|, AttributeAll(ReaderFor(readers, entries[i].path).current, written[i]).0)
  {
    PollWritten(readers, entries, written, enc, dec);
    var after := Poll(readers, entries, dec).0;
    assert DistinctPaths(entries2) by {
      forall i, j | 0 <= i < j < |entries2| ensures entries2[i].path != entries2[j].path {
        assert entries2[i].path == entries[i].path && entries2[j].path == entries[j].path;
      }
    }
    forall i | 0 <= i < |entries2| && entries2[i].isFile
      ensures entries2[i].path in after
      ensures after[entries2[i].path] == JournalReader(|entries[i].content|, AttributeAll(ReaderFor(readers, entries[i].path).current, written[i]).0)
      ensures after[entries2[i].path].pos <= |entries2[i].content|
      ensures entries2[i].content[after[entries2[i].path].pos..] == EncodeAll(more[i], enc)
    {
      assert entries2[i].path == entries[i].path && entries[i].isFile;
    }
    assert ReadersFit(after, entries2);
    assert WrittenAfter(StartReaders(after, entries2), entries2, more, enc);
    PollWritten(after, entries2, more, enc, dec);
  }

  /** Reading the same journal again after it grew: the records of the first
      drain followed by those of draining on from where it stopped are the
      records of one drain of the grown journal, so nothing is returned
      twice and nothing is skipped. */
  lemma {:induction false} DrainGrown(r: JournalReader, c: string, extra: string, dec: string -> Option<TrialAction>)
    requires r.pos <= |c|
    requires Drain(r, c, dec).1.Ok?
    ensures var (r1, xs) := Drain(r, c, dec);
      var (r2, ys) := Drain(r1, c + extra, dec);
      Drain(r, c + extra, dec) == (r2, if ys.Ok? then Ok(xs.value + ys.value) else ys)
    decreases |c| - r.pos
  {
    var (r1, x) := ReadAction(r, c, dec);
    if x == Ok(None) {
      DrainNothing(r, c, extra, dec);
    } else {
      ReadGrown(r, c, extra, dec);
      DrainGrown(r1, c, extra, dec);
      DrainStep(r, c, dec);
      DrainStep(r, c + extra, dec);
      var xs := Drain(r1, c, dec).1.value;
      var ys := Drain(Drain(r1, c, dec).0, c + extra, dec).1;
      Prepend(x.value.value, xs, ys);
    }
  }

  /** The grown-journal case where the first drain read nothing. */
  lemma DrainNothing(r: JournalReader, c: string, extra: string, dec: string -> Option<TrialAction>)
    requires r.pos <= |c| && ReadAction(r, c, dec).1 == Ok(None)
    ensures Drain(r, c, dec) == (r, Ok([]))
    ensures var (r2, ys) := Drain(r, c + extra, dec);
      Drain(r, c + extra, dec) == (r2, if ys.Ok? then Ok([] + ys.value) else ys)
  {
    var ys := Drain(r, c + extra, dec).1;
    if ys.Ok? {
      assert [] + ys.value == ys.value;
    }
  }

  /** Putting a record in front of two concatenated runs of records. */
  lemma Prepend<T>(item: T, xs: seq<T>, ys: Result<seq<T>, ErrorKind>)
    ensures (if ys.Ok? then Ok([item] + (xs + ys.value)) else ys)
      == (if ys.Ok? then Ok(([item] + xs) + ys.value) else ys)
  {
    if ys.Ok? {
      assert [item] + (xs + ys.value) == ([item] + xs) + ys.value;
    }
  }

  /** Draining after one record is read: that record, then the rest. */
  lemma DrainStep(r: JournalReader, j: string, dec: string -> Option<TrialAction>)
    requires r.pos <= |j|
    requires ReadAction(r, j, dec).1.Ok? && ReadAction(r, j, dec).1.value.Some?
    ensures var (r1, x) := ReadAction(r, j, dec);
      var (r2, rest) := Drain(r1, j, dec);
      Drain(r, j, dec) == (r2, if rest.Ok? then Ok([x.value.value] + rest.value) else rest)
  {
  }

  /** A complete line read from a journal reads the same after it grows. */
  lemma ReadGrown(r: JournalReader, c: string, extra: string, dec: string -> Option<TrialAction>)
    requires r.pos <= |c| && ReadAction(r, c, dec).1 != Ok(None)
    ensures ReadAction(r, c + extra, dec) == ReadAction(r, c, dec)
  {
    var nl := FindNewline(c, r.pos).value;
    FindNewlineGrown(c, extra, r.pos);
    assert (c + extra)[r.pos..nl + 1] == c[r.pos..nl + 1];
  }

  /** A line break found in a journal is still the first one after it grows. */
  lemma FindNewlineGrown(c: string, extra: string, from: nat)
    requires from <= |c| && FindNewline(c, from).Some?
    ensures FindNewline(c + extra, from) == FindNewline(c, from)
    decreases |c| - from
  {
    if c[from] != '\n' {
      FindNewlineGrown(c, extra, from + 1);
    }
  }
}

=== FILE: random.dfy ===
/** The random tuner of src/tuners/random.rs. The generator is not modelled:
    each `ask` receives a `Draw`, the values the generator would produce for
    that call (an index for a uniform choice, a uniform number in [0, 1), and
    a sample for the normal and log-uniform cases). rand's `gen_range`
    panics on an empty range, the error `PanicEmptyRange`, and on an
    infinite bound, the error `PanicNonFinite`. */
module RandomTuner {
  import opened Wrappers
  import opened Types
  import opened Param
  import Trial
  import Rng

  datatype RandomTunerSpec = RandomTunerSpec(seed: Option<u64>)

  /** `RandomTunerSpec::default`: no fixed seed. */
  function DefaultSpec(): (s: RandomTunerSpec)
    ensures s.seed.None?
  {
    RandomTunerSpec(None)
  }

  datatype RandomTuner = RandomTuner(rng: Rng.RngSeed, finishedTrials: seq<Trial.TrialId>)

  /** `RandomTunerSpec::build`: seeds the generator with the given seed, or
      with `entropy` when there is none, and starts with no finished trial. */
  function Build(spec: RandomTunerSpec, entropy: u64): (r: Result<RandomTuner, string>)
    ensures r.Ok? && r.value.finishedTrials == []
    ensures r.value.rng.seed == (if spec.seed.Some? then spec.seed.value else entropy)
  {
    Ok(RandomTuner(Rng.RngSeed(spec.seed.GetOr(entropy)), []))
  }

  /** What the generator yields for one `ask`. */
  datatype Draw = Draw(index: nat, unit: real, sample: real)

  const PanicEmptyRange := "panic: UniformSampler::sample_single: low >= high"
  const PanicNonFinite := "panic: Uniform::sample_single: low and high must be finite"

  /** The grid point `min + n * step` of a discrete type. */
  function GridPoint(t: DiscreteParamType, n: nat): real {
    t.range.min + Scale(n as real, t.step.Get())
  }

  /** `RandomTuner::ask`. The observation and the parameter name are not
      inputs: the source ignores both. */
  function Ask(ty: ParamType, draw: Draw): (r: Result<ParamValue, string>)
    requires DecodedType(ty)
    requires 0.0 <= draw.unit < 1.0
    ensures r.Err? <==>
      || (ty.NumType? && ty.num.Continous? && ty.num.continous.ln && !(0.0 < ty.num.continous.range.min < ty.num.continous.range.max))
      || (ty.NumType? && ty.num.Continous? && !ty.num.continous.ln && !(ty.num.continous.range.min < ty.num.continous.range.max))
      || (ty.NumType? && ty.num.Discrete? && Count(ty.num.discrete) == 0)
    ensures r.Err? ==> r.error == PanicEmptyRange || r.error == PanicNonFinite
    ensures ty.NumType? && ty.num.Continous? && ty.num.continous.ln ==>
      (r == Err(PanicNonFinite) <==> ty.num.continous.range.min == 0.0 < ty.num.continous.range.max)
    ensures r.Ok? && ty.StrType? ==>
      var choices := if ty.str.Categorical? then ty.str.categorical.choices.Get() else ty.str.ordinal.choices.Get();
      r.value.Str? && r.value.str in choices
    ensures r.Ok? && ty.NumType? ==> r.value.Num?
    ensures r.Ok? && ty.NumType? && ty.num.Continous? && !ty.num.continous.ln ==>
      ty.num.continous.range.min <= r.value.num.Get() < ty.num.continous.range.max
    ensures r.Ok? && ty.NumType? && ty.num.Discrete? ==>
      && (exists n: nat :: n < Count(ty.num.discrete) as nat && r.value.num.Get() == GridPoint(ty.num.discrete, n))
      && ty.num.discrete.range.min <= r.value.num.Get() <= ty.num.discrete.range.max
    ensures r.Ok? && ty.NumType? && ty.num.Fidelity? ==> r.value.num.Get() == ty.num.fidelity.range.max
  {
    match ty
    case StrType(Categorical(t)) =>
      var c := t.choices.Get();
      Ok(Str(c[draw.index % |c|]))
    case StrType(Ordinal(t)) =>
      var c := t.choices.Get();
      Ok(Str(c[draw.index % |c|]))
    case NumType(Continous(t)) =>
      if t.ln then
        // `gen_range(ln min, ln max)`: an empty range panics; ln 0 is -inf,
        // which passes the range test and then fails the finiteness test
        if t.range.min == 0.0 < t.range.max then Err(PanicNonFinite)
        else if !(0.0 < t.range.min < t.range.max) then Err(PanicEmptyRange)
        else Ok(Num(FiniteF64(draw.sample)))
      else if !(t.range.min < t.range.max) then Err(PanicEmptyRange)
      else
        var w := t.range.max - t.range.min;
        ScaleMonotone(0.0, draw.unit, w);
        ScaleStrict(draw.unit, 1.0, w);
        Ok(Num(FiniteF64(t.range.min + Scale(draw.unit, w))))
    case NumType(Discrete(t)) =>
      var count := Count(t);
      if count == 0 then Err(PanicEmptyRange)
      else
        var n := draw.index % count as nat;
        DiscreteGridPointInRange(t, n);
        Ok(Num(FiniteF64(GridPoint(t, n))))
    case NumType(Normal(t)) =>
      Ok(Num(FiniteF64(draw.sample)))
    case NumType(Fidelity(t)) =>
      Ok(Num(FiniteF64(t.range.max)))
  }

  /** A deserialised log-scale type with a negative lower bound is not one
      its constructor builds, yet `ask` accepts it: `ln min` is NaN, which
      fails rand's `low < high` test. */
  lemma LogNegativeMinPanics(ty: ParamType, draw: Draw)
    requires ty.NumType? && ty.num.Continous? && ty.num.continous.ln
    requires ty.num.continous.range.Valid() && ty.num.continous.range.min < 0.0
    requires 0.0 <= draw.unit < 1.0
    ensures DecodedType(ty) && !ValidType(ty)
    ensures Ask(ty, draw) == Err(PanicEmptyRange)
  {
  }

  /** Every grid point below the count lies inside the range. */
  lemma DiscreteGridPointInRange(t: DiscreteParamType, n: nat)
    requires t.range.Valid() && t.step.Get() >= 0.0
    requires n < Count(t) as nat
    ensures t.range.min <= GridPoint(t, n) <= t.range.max
  {
    var s := t.step.Get();
    var w := t.range.Width();
    ScaleMonotone(0.0, n as real, s);
    if s > 0.0 {
      assert n as real + 1.0 <= w / s;
      ScaleMonotone(n as real, w / s, s);
      assert Scale(w / s, s) == w;
    } else {
      assert Scale(n as real, s) == 0.0;
    }
  }

  /** `RandomTuner::tell`: records the trial as finished and reports it so. */
  function Tell(t: RandomTuner, obs: Trial.Observation): (r: (RandomTuner, Result<bool, string>))
    ensures r.0.finishedTrials == t.finishedTrials + [obs.trialId]
    ensures r.0.rng == t.rng
    ensures r.1 == Ok(true)
  {
    (t.(finishedTrials := t.finishedTrials + [obs.trialId]), Ok(true))
  }
}

=== FILE: report.dfy ===
/** `ReportOpt::to_metric` of src/report.rs: turning the command-line options
    of `hone report` into the metric sent to the study server. */
module Report {
  import opened Wrappers
  import opened Metric

  const DefaultName := "objective value"

  /** The direction structopt fills in when `--direction` is absent. */
  const DefaultDirection := Direction.Minimize

  /** The parsed options; `step` is a `NonZeroU64` when given. */
  datatype ReportOpt = ReportOpt(value: real, name: Option<string>, step: Option<nat>, direction: Direction)

  /** Builds the options from the command line, defaulting the direction. */
  function NewReportOpt(value: real, name: Option<string>, step: Option<nat>, direction: Option<Direction>): (r: ReportOpt)
    requires step.Some? ==> step.value > 0
    ensures r.value == value && r.name == name && r.step == step
    ensures direction.Some? ==> r.direction == direction.value
    ensures direction.None? ==> r.direction == Direction.Minimize
  {
    ReportOpt(value, name, step, direction.GetOr(DefaultDirection))
  }

  /** The metric name defaults to "objective value"; a given name, the value
      and the direction pass through unchanged. */
  function ToMetric(opt: ReportOpt): (m: Metric)
    ensures opt.name.Some? ==> m.name == opt.name.value
    ensures opt.name.None? ==> m.name == "objective value"
    ensures m.value == opt.value
    ensures m.direction == opt.direction
  {
    Metric(opt.name.GetOr(DefaultName), opt.value, opt.direction)
  }

  /** Without `--direction` the reported metric is minimised. */
  lemma DefaultIsMinimize(value: real, name: Option<string>, step: Option<nat>)
    requires step.Some? ==> step.value > 0
    ensures ToMetric(NewReportOpt(value, name, step, None)).direction == Direction.Minimize
  {
  }
}

=== FILE: retry.dfy ===
/** The retry wrapper of src/tuners/retry.rs. A trial whose observation
    fails is resumed up to `maxRetries` times, replaying the parameters of the
    first failed observation; only then is the failure passed on to the
    wrapped tuner. The wrapped tuner is any state `S` with its `ask`, `tell`
    and `next_action` given as functions, and the action queue is FIFO. */
module Retry {
  import opened Wrappers
  import opened Trial
  import opened Tuners
  import Param

  /** The first failed observation of a trial and how often it was resumed. */
  datatype FailedObservation = FailedObservation(obs: Observation, retriedCount: nat)

  datatype RetryTuner<S> = RetryTuner(
    inner: S,
    maxRetries: nat,
    actions: seq<Action>,
    retryings: map<TrialId, FailedObservation>)
  {
    /** No trial has been resumed more often than allowed. */
    predicate Valid() {
      forall id :: id in retryings ==> retryings[id].retriedCount <= maxRetries
    }
  }

  /** `RetryTuner::new`: nothing queued, nothing being retried. */
  function New<S>(inner: S, maxRetries: nat): (r: RetryTuner<S>)
    ensures r.Valid() && r.actions == [] && r.retryings == map[]
    ensures r.inner == inner && r.maxRetries == maxRetries
  {
    RetryTuner(inner, maxRetries, [], map[])
  }

  const DifferentParameter := "retried trial asked a different parameter"

  const DifferentParameters := "retried trial has the different parameters with the original one"

  /** The panic message of the `assert!` at the top of `tell`. */
  const MissingExitStatus := "assertion failed: obs.exit_status.is_some()"

  /** `RetryTuner::ask`: a trial being retried gets the value its first failed
      observation had, without the wrapped tuner; any other trial is asked of
      the wrapped tuner. */
  function Ask<S>(rt: RetryTuner<S>, obs: Observation, name: Param.ParamName, ty: Param.ParamType,
                  innerAsk: (S, Observation, Param.ParamName, Param.ParamType) -> (S, Result<Param.ParamValue, string>))
    : (r: (RetryTuner<S>, Result<Param.ParamValue, string>))
    ensures obs.trialId in rt.retryings ==> r.0 == rt
    ensures obs.trialId in rt.retryings ==>
      var params := rt.retryings[obs.trialId].obs.params;
      && (r.1.Ok? <==> name in params)
      && (r.1.Ok? ==> r.1.value == params[name].value)
      && (r.1.Err? ==> r.1.error == DifferentParameter)
    ensures obs.trialId !in rt.retryings ==>
      var (s, v) := innerAsk(rt.inner, obs, name, ty);
      r.0 == rt.(inner := s) && r.1 == v
  {
    if obs.trialId in rt.retryings then
      var params := rt.retryings[obs.trialId].obs.params;
      if name in params then (rt, Ok(params[name].value)) else (rt, Err(DifferentParameter))
    else
      var (s, v) := innerAsk(rt.inner, obs, name, ty);
      (rt.(inner := s), v)
  }

  /** The inner `tell` result with its `bool` dropped. */
  function Unit(r: Result<bool, string>): (u: Result<(), string>)
    ensures u.Ok? <==> r.Ok?
    ensures u.Err? ==> u.error == r.error
  {
    match r
    case Ok(_) => Ok(())
    case Err(e) => Err(e)
  }

  /** `RetryTuner::tell`. An observation that has not exited is the panic of
      its opening assertion, with nothing changed.

      Success: the retry entry of the trial is removed; a retried trial must
      have kept its parameters, and the ORIGINAL observation is passed on
      with the new metrics and exit status, while an observation of a trial
      that was not retried is passed on unchanged.

      Failure: the first failed observation of the trial is kept; while its
      count is below `maxRetries` it is incremented and one `ResumeTrial` is
      queued, and afterwards the original failed observation is passed on. */
  function Tell<S>(rt: RetryTuner<S>, obs: Observation, innerTell: (S, Observation) -> (S, Result<bool, string>))
    : (r: (RetryTuner<S>, Result<(), string>))
    ensures r.0.maxRetries == rt.maxRetries
    ensures obs.exitStatus.None? ==> r == (rt, Err(MissingExitStatus))
    ensures obs.IsSucceeded() ==> r.0.retryings == rt.retryings - {obs.trialId} && r.0.actions == rt.actions
    ensures obs.IsSucceeded() && obs.trialId !in rt.retryings ==>
      var (s, v) := innerTell(rt.inner, obs);
      r.0.inner == s && r.1 == Unit(v)
    ensures obs.IsSucceeded() && obs.trialId in rt.retryings ==>
      var orig := rt.retryings[obs.trialId].obs;
      if orig.params != obs.params then r.1 == Err(DifferentParameters) && r.0.inner == rt.inner
      else
        var (s, v) := innerTell(rt.inner, orig.(metrics := obs.metrics, exitStatus := obs.exitStatus));
        r.0.inner == s && r.1 == Unit(v)
    ensures obs.exitStatus.Some? && !obs.IsSucceeded() ==>
      var failed := if obs.trialId in rt.retryings then rt.retryings[obs.trialId] else FailedObservation(obs, 0);
      && r.0.retryings.Keys == rt.retryings.Keys + {obs.trialId}
      && (forall id :: id in rt.retryings && id != obs.trialId ==> r.0.retryings[id] == rt.retryings[id])
      && r.0.retryings[obs.trialId].obs == failed.obs
      && if failed.retriedCount < rt.maxRetries then
           && r.0.retryings[obs.trialId].retriedCount == failed.retriedCount + 1
           && r.0.actions == rt.actions + [ResumeTrial(obs.trialId)]
           && r.0.inner == rt.inner
           && r.1 == Ok(())
         else
           var (s, v) := innerTell(rt.inner, failed.obs);
           && r.0.retryings[obs.trialId] == failed
           && r.0.actions == rt.actions
           && r.0.inner == s
           && r.1 == Unit(v)
  {
    var id := obs.trialId;
    if obs.exitStatus.None? then (rt, Err(MissingExitStatus))
    else if obs.IsSucceeded() then
      if id in rt.retryings then
        var orig := rt.retryings[id].obs;
        var rt1 := rt.(retryings := rt.retryings - {id});
        if orig.params != obs.params then (rt1, Err(DifferentParameters))
        else
          var (s, v) := innerTell(rt.inner, orig.(metrics := obs.metrics, exitStatus := obs.exitStatus));
          (rt1.(inner := s), Unit(v))
      else
        var (s, v) := innerTell(rt.inner, obs);
        (rt.(inner := s), Unit(v))
    else
      var failed := if id in rt.retryings then rt.retryings[id] else FailedObservation(obs, 0);
      if failed.retriedCount < rt.maxRetries then
        (rt.(retryings := rt.retryings[id := failed.(retriedCount := failed.retriedCount + 1)],
             actions := rt.actions + [ResumeTrial(id)]), Ok(()))
      else
        var (s, v) := innerTell(rt.inner, failed.obs);
        (rt.(inner := s, retryings := rt.retryings[id := failed]), Unit(v))
  }

  /** `RetryTuner::next_action`: queued actions first, oldest first, and the
      wrapped tuner only once the queue is empty. */
  function NextAction<S>(rt: RetryTuner<S>, innerNext: S -> (S, Option<Action>)): (r: (RetryTuner<S>, Option<Action>))
    ensures |rt.actions| > 0 ==> r.1 == Some(rt.actions[0]) && r.0 == rt.(actions := rt.actions[1..])
    ensures |rt.actions| == 0 ==> r.0 == rt.(inner := innerNext(rt.inner).0) && r.1 == innerNext(rt.inner).1
  {
    if |rt.actions| > 0 then (rt.(actions := rt.actions[1..]), Some(rt.actions[0]))
    else
      var (s, a) := innerNext(rt.inner);
      (rt.(inner := s), a)
  }

  /** `ask`, `tell` and `next_action` all keep every retry count within
      `maxRetries`. */
  lemma StepsPreserveValid<S>(rt: RetryTuner<S>, obs: Observation, name: Param.ParamName, ty: Param.ParamType,
                              innerAsk: (S, Observation, Param.ParamName, Param.ParamType) -> (S, Result<Param.ParamValue, string>),
                              innerTell: (S, Observation) -> (S, Result<bool, string>),
                              innerNext: S -> (S, Option<Action>))
    requires rt.Valid()
    ensures Ask(rt, obs, name, ty, innerAsk).0.Valid()
    ensures Tell(rt, obs, innerTell).0.Valid()
    ensures NextAction(rt, innerNext).0.Valid()
  {
    if obs.exitStatus.Some? && !obs.IsSucceeded() {
      var r := Tell(rt, obs, innerTell).0;
      forall id | id in r.retryings
        ensures r.retryings[id].retriedCount <= r.maxRetries
      {
        if id != obs.trialId {
          assert r.retryings[id] == rt.retryings[id];
        }
      }
    }
  }

  /** A trial whose observations keep failing is resumed exactly `maxRetries`
      times: starting from no entry, `k <= maxRetries` failures leave a count
      of `k` and `k` queued resumptions without telling the wrapped tuner. */
  lemma {:induction false} RepeatedFailures<S>(rt: RetryTuner<S>, obs: Observation, innerTell: (S, Observation) -> (S, Result<bool, string>), k: nat)
    requires obs.exitStatus.Some? && !obs.IsSucceeded()
    requires obs.trialId !in rt.retryings
    requires k <= rt.maxRetries
    ensures var r := FailTimes(rt, obs, innerTell, k);
      && (k > 0 ==> obs.trialId in r.retryings && r.retryings[obs.trialId] == FailedObservation(obs, k))
      && r.actions == rt.actions + seq(k, _ => ResumeTrial(obs.trialId))
      && r.inner == rt.inner
      && r.maxRetries == rt.maxRetries
  {
    if k > 0 {
      RepeatedFailures(rt, obs, innerTell, k - 1);
      var p := FailTimes(rt, obs, innerTell, k - 1);
      var failed := if obs.trialId in p.retryings then p.retryings[obs.trialId] else FailedObservation(obs, 0);
      assert failed == FailedObservation(obs, k - 1);
      var r := Tell(p, obs, innerTell).0;
      assert r.retryings[obs.trialId].obs == obs && r.retryings[obs.trialId].retriedCount == k;
      assert p.actions + [ResumeTrial(obs.trialId)] == rt.actions + seq(k, _ => ResumeTrial(obs.trialId));
    }
  }

  /** `k` failed `tell`s of the same observation in a row. */
  function FailTimes<S>(rt: RetryTuner<S>, obs: Observation, innerTell: (S, Observation) -> (S, Result<bool, string>), k: nat): RetryTuner<S>
    requires obs.exitStatus.Some?
  {
    if k == 0 then rt else Tell(FailTimes(rt, obs, innerTell, k - 1), obs, innerTell).0
  }
}

=== FILE: rng.dfy ===
/** src/rng.rs: expanding a `u64` seed into the 32-byte seed of the
    generator, and the decimal text form of `RngSeed` (`Display` prints the
    number, `FromStr` parses it as a `u64`). The generator itself is not
    modelled. */
module Rng {
  import opened Wrappers
  import opened Types

  newtype byte = x: int | 0 <= x < 256

  datatype RngSeed = RngSeed(seed: u64)

  // ------------------------------------------------------------ seed bytes

  function Pow256(n: nat): (p: nat)
    ensures p >= 1
  {
    if n == 0 then 1 else 256 * Pow256(n - 1)
  }

  /** The `n` big-endian bytes of `x`. */
  function BigEndian(x: nat, n: nat): (r: seq<byte>)
    ensures |r| == n
  {
    if n == 0 then [] else BigEndian(x / 256, n - 1) + [(x % 256) as byte]
  }

  /** The number a big-endian byte string denotes. */
  function FromBigEndian(b: seq<byte>): nat {
    if |b| == 0 then 0 else FromBigEndian(b[..|b| - 1]) * 256 + b[|b| - 1] as nat
  }

  /** Decoding the `n` big-endian bytes of a number below `256^n` gives it back. */
  lemma {:induction false} BigEndianRoundTrip(x: nat, n: nat)
    requires x < Pow256(n)
    ensures FromBigEndian(BigEndian(x, n)) == x
  {
    if n > 0 {
      var b := BigEndian(x, n);
      assert b[..n - 1] == BigEndian(x / 256, n - 1);
      assert x / 256 < Pow256(n - 1);
      BigEndianRoundTrip(x / 256, n - 1);
    }
  }

  /** `seed.0.to_be_bytes()`. */
  function ToBeBytes(x: u64): (r: seq<byte>)
    ensures |r| == 8
    ensures FromBigEndian(r) == x as nat
  {
    assert Pow256(8) == 0x1_0000_0000_0000_0000;
    BigEndianRoundTrip(x as nat, 8);
    BigEndian(x as nat, 8)
  }

  /** `ArcRng::new`: bytes 0..8 hold the seed big-endian, bytes 8..32 are zero. */
  function Seed256(seed: RngSeed): (r: seq<byte>)
    ensures |r| == 32
    ensures r[..8] == ToBeBytes(seed.seed)
    ensures forall i :: 8 <= i < 32 ==> r[i] == 0
  {
    ToBeBytes(seed.seed) + seq(24, _ => 0)
  }

  /** Decoding the first eight bytes recovers the seed, so distinct seeds
      give distinct generator seeds. */
  lemma Seed256Injective(a: RngSeed, b: RngSeed)
    ensures FromBigEndian(Seed256(a)[..8]) == a.seed as nat
    ensures Seed256(a) == Seed256(b) ==> a == b
  {
    assert Seed256(a)[..8] == ToBeBytes(a.seed);
    assert Seed256(b)[..8] == ToBeBytes(b.seed);
  }

  // --------------------------------------------------------- decimal text

  predicate IsDigit(c: char) {
    '0' <= c <= '9'
  }

  predicate AllDigits(s: string) {
    forall i :: 0 <= i < |s| ==> IsDigit(s[i])
  }

  /** The number a string of decimal digits denotes (leading zeros allowed). */
  function Value(s: string): nat
    requires AllDigits(s)
  {
    if |s| == 0 then 0 else Value(s[..|s| - 1]) * 10 + (s[|s| - 1] as int - '0' as int)
  }

  /** The kinds of `std::num::ParseIntError` that parsing a `u64` can raise. */
  datatype IntErrorKind = Empty | InvalidDigit | PosOverflow

  /** The digit loop of `u64::from_str`: digits are consumed left to right,
      the first non-digit is `InvalidDigit`, and the first step whose value
      exceeds `u64::MAX` is `PosOverflow`. */
  function ParseDigits(s: string): (r: Result<u64, IntErrorKind>)
    ensures r.Ok? <==> AllDigits(s) && Value(s) <= U64_MAX as nat
    ensures r.Ok? ==> r.value as nat == Value(s)
    ensures r.Err? ==> r.error != Empty
  {
    if |s| == 0 then Ok(0)
    else
      var p := s[..|s| - 1];
      var c := s[|s| - 1];
      match ParseDigits(p)
      case Err(e) =>
        assert !AllDigits(s) || Value(p) <= Value(s) by {
          if AllDigits(s) {
            assert AllDigits(p) by {
              forall i | 0 <= i < |p| ensures IsDigit(p[i]) {
                assert p[i] == s[i];
              }
            }
          }
        }
        Err(e)
      case Ok(v) =>
        if !IsDigit(c) then Err(InvalidDigit)
        else
          var n := v as int * 10 + (c as int - '0' as int);
          assert AllDigits(s) by {
            forall i | 0 <= i < |s| ensures IsDigit(s[i]) {
              if i < |p| {
                assert s[i] == p[i];
              }
            }
          }
          if n > U64_MAX as int then Err(PosOverflow) else Ok(n as u64)
  }

  /** `u64::from_str`: empty text is `Empty`, a lone sign is `InvalidDigit`,
      one leading `+` is accepted, and a `-` is an invalid digit. */
  function ParseU64(s: string): (r: Result<u64, IntErrorKind>)
    ensures |s| == 0 ==> r == Err(Empty)
    ensures |s| > 0 && s[0] != '+' ==> r == ParseDigits(s)
    ensures |s| > 0 && s[0] == '+' ==> r == (if |s| == 1 then Err(InvalidDigit) else ParseDigits(s[1..]))
    ensures r.Ok? ==> exists k :: 0 <= k <= 1 && AllDigits(s[k..]) && r.value as nat == Value(s[k..])
  {
    if |s| == 0 then Err(Empty)
    else if s[0] == '+' then
      if |s| == 1 then Err(InvalidDigit) else ParseDigits(s[1..])
    else
      assert s[0..] == s;
      ParseDigits(s)
  }

  /** The decimal form of `n`: no sign, no leading zero, "0" for zero. */
  function Print(n: nat): (s: string)
    ensures |s| > 0 && AllDigits(s)
    ensures |s| > 1 ==> s[0] != '0'
    ensures Value(s) == n
  {
    var d := [(n % 10 + '0' as int) as char];
    if n < 10 then d
    else
      var p := Print(n / 10);
      var s := p + d;
      assert s[..|s| - 1] == p;
      s
  }

  /** `RngSeed::from_str`. */
  function SeedFromStr(s: string): (r: Result<RngSeed, IntErrorKind>)
    ensures r.Ok? <==> ParseU64(s).Ok?
    ensures r.Ok? ==> r.value.seed == ParseU64(s).value
  {
    var n :- ParseU64(s);
    Ok(RngSeed(n))
  }

  /** `Display for RngSeed`: the seed in decimal, without a sign or a
      leading zero. */
  function SeedToString(seed: RngSeed): (s: string)
    ensures |s| > 0 && AllDigits(s)
    ensures |s| > 1 ==> s[0] != '0'
    ensures Value(s) == seed.seed as nat
  {
    Print(seed.seed as nat)
  }

  /** Parsing the printed form of a seed gives the seed back. */
  lemma SeedRoundTrip(seed: RngSeed)
    ensures SeedFromStr(SeedToString(seed)) == Ok(seed)
  {
    var s := SeedToString(seed);
    assert s[0] != '+';
  }

  /** Text that is empty, or holds a character other than a digit (beyond
      one leading `+`), is refused. */
  lemma NonDecimalRefused(s: string)
    requires |s| == 0 || (s[0] != '+' && !AllDigits(s)) || (s[0] == '+' && !AllDigits(s[1..]))
    ensures SeedFromStr(s).Err?
  {
  }
}

=== FILE: runner.dfy ===
/** The bookkeeping of `StudyRunner` in src/runner.rs: the id counters, the
    bound on concurrently running observations, the table of running
    observations that `ask`/`tell` requests update, and what happens when an
    observation's process exits.

    The optimizer is any state `S` with its `next_action`, `ask` and `tell`
    given as functions. Spawning, the clock and the RPC channel are not
    modelled: which running process exits, and with which code, are inputs,
    and the events written carry no elapsed time. The `u64` id counters must
    stay below `u64::MAX` (`fetch_and_increment` is not part of this model). */
module Runner {
  import opened Wrappers
  import opened Types
  import opened Trial
  import opened Tuners
  import Param
  import Metric

  /** The events the runner writes, without their elapsed times. */
  datatype Event =
    | TrialStarted(trialId: TrialId)
    | ObsStarted(obsId: ObservationId, trialId: TrialId)
    | ObsFinished(obs: Observation)
    | TrialFinished(trialId: TrialId)

  datatype StudyRunner = StudyRunner(
    running: seq<ObservationId>,
    observations: map<ObservationId, Observation>,
    finished: nat,
    nextObservationId: u64,
    nextObsId: u64,
    nextTrialId: u64,
    workers: nat,
    runs: Option<nat>,
    output: seq<Event>)
  {
    /** The running processes are distinct, within the worker bound, and
        exactly the keys of the table; every observation is filed under its
        own id, below the counter, which advances with `nextObsId`. */
    ghost predicate Valid() {
      && workers > 0
      && |running| <= workers
      && (forall i, j :: 0 <= i < j < |running| ==> running[i] != running[j])
      && (forall id :: id in observations <==> id in running)
      && (forall id :: id in observations ==> observations[id].id == id && id.Get() < nextObservationId)
      && nextObsId == nextObservationId
    }
  }

  /** `StudyRunner::new`: nothing running, nothing finished, counters at 0. */
  function New(workers: nat, runs: Option<nat>): (s: StudyRunner)
    requires workers > 0
    ensures s.Valid() && s.running == [] && s.finished == 0 && s.output == []
    ensures s.nextObservationId == 0 && s.nextObsId == 0 && s.nextTrialId == 0
    ensures s.workers == workers && s.runs == runs
  {
    StudyRunner([], map[], 0, 0, 0, 0, workers, runs, [])
  }

  /** `is_study_finished`: never without a run limit, otherwise once that
      many observations have finished. */
  function IsStudyFinished(s: StudyRunner): (b: bool)
    ensures s.runs.None? ==> !b
    ensures s.runs.Some? ==> (b <==> s.finished >= s.runs.value)
  {
    match s.runs
    case None => false
    case Some(n) => s.finished >= n
  }

  /** `start_observation`: files the observation under the next id of
      `next_observation_id` and starts its process. */
  function StartObservation(s: StudyRunner, obs: Observation): (r: StudyRunner)
    requires s.nextObservationId < U64_MAX
    ensures r.nextObservationId == s.nextObservationId + 1
    ensures r.running == s.running + [ObservationId(s.nextObservationId)]
    ensures r.observations == s.observations[ObservationId(s.nextObservationId) := obs]
    ensures r.output == s.output + [ObsStarted(ObservationId(s.nextObservationId), obs.trialId)]
    ensures r.finished == s.finished && r.nextObsId == s.nextObsId && r.nextTrialId == s.nextTrialId
    ensures r.workers == s.workers && r.runs == s.runs
  {
    var id := ObservationId(s.nextObservationId);
    s.(nextObservationId := s.nextObservationId + 1,
       running := s.running + [id],
       observations := s.observations[id := obs],
       output := s.output + [ObsStarted(id, obs.trialId)])
  }

  /** What a scheduling pass leads to. */
  datatype Outcome = Continue | Quit

  const TodoSweep := "not yet implemented: sweep resource"

  /** The scheduling part of one pass of `run`: only while fewer than
      `workers` observations run is the optimizer asked for an action, and
      at most one observation starts. `CreateTrial` draws a fresh trial id
      and a fresh observation id, `ResumeTrial` a fresh observation id for
      the given trial; `WaitObservations` ends the pass and
      `QuitOptimization` ends the run; `FinishTrial` is unfinished code. */
  function Schedule<S>(s: StudyRunner, opt: S, nextAction: S -> (S, Result<Action, string>))
    : (r: (StudyRunner, S, Result<Outcome, string>))
    requires s.Valid()
    requires s.nextObsId < U64_MAX && s.nextTrialId < U64_MAX
    ensures r.0.Valid()
    ensures |s.running| >= s.workers ==> r == (s, opt, Ok(Continue))
    ensures |s.running| < s.workers ==>
      var (opt1, a) := nextAction(opt);
      && r.1 == opt1
      && match a
         case Err(e) => r.0 == s && r.2 == Err(e)
         case Ok(CreateTrial) =>
           var id := ObservationId(s.nextObsId);
           var t := TrialId(s.nextTrialId);
           && r.2 == Ok(Continue)
           && r.0 == s.(nextTrialId := s.nextTrialId + 1, nextObsId := s.nextObsId + 1,
                        nextObservationId := s.nextObservationId + 1,
                        running := s.running + [id],
                        observations := s.observations[id := NewObservation(id, t)],
                        output := s.output + [TrialStarted(t), ObsStarted(id, t)])
         case Ok(ResumeTrial(t)) =>
           var id := ObservationId(s.nextObsId);
           && r.2 == Ok(Continue)
           && r.0 == s.(nextObsId := s.nextObsId + 1, nextObservationId := s.nextObservationId + 1,
                        running := s.running + [id],
                        observations := s.observations[id := NewObservation(id, t)],
                        output := s.output + [ObsStarted(id, t)])
         case Ok(FinishTrial(t)) => r.0 == s.(output := s.output + [TrialFinished(t)]) && r.2 == Err(TodoSweep)
         case Ok(WaitObservations) => r.0 == s && r.2 == Ok(Continue)
         case Ok(QuitOptimization) => r.0 == s && r.2 == Ok(Quit)
    ensures r.0.finished == s.finished
  {
    if |s.running| >= s.workers then (s, opt, Ok(Continue))
    else
      FreshIdNotRunning(s);
      var (opt1, a) := nextAction(opt);
      match a
      case Err(e) => (s, opt1, Err(e))
      case Ok(CreateTrial) =>
        var obs := NewObservation(ObservationId(s.nextObsId), TrialId(s.nextTrialId));
        var s1 := s.(nextObsId := s.nextObsId + 1, nextTrialId := s.nextTrialId + 1,
                     output := s.output + [TrialStarted(obs.trialId)]);
        (StartObservation(s1, obs), opt1, Ok(Continue))
      case Ok(ResumeTrial(t)) =>
        var obs := NewObservation(ObservationId(s.nextObsId), t);
        (StartObservation(s.(nextObsId := s.nextObsId + 1), obs), opt1, Ok(Continue))
      case Ok(FinishTrial(t)) => (s.(output := s.output + [TrialFinished(t)]), opt1, Err(TodoSweep))
      case Ok(WaitObservations) => (s, opt1, Ok(Continue))
      case Ok(QuitOptimization) => (s, opt1, Ok(Quit))
  }

  /** The next observation id is not in use. */
  lemma FreshIdNotRunning(s: StudyRunner)
    requires s.Valid()
    ensures ObservationId(s.nextObservationId) !in s.running
    ensures forall i, j :: 0 <= i < j < |s.running + [ObservationId(s.nextObservationId)]| ==>
      (s.running + [ObservationId(s.nextObservationId)])[i] != (s.running + [ObservationId(s.nextObservationId)])[j]
  {
  }

  /** `Vec::swap_remove`: the last element takes the place of the removed one. */
  function SwapRemove<T>(xs: seq<T>, i: nat): (r: seq<T>)
    requires i < |xs|
    ensures |r| == |xs| - 1
    ensures multiset(r) == multiset(xs) - multiset{xs[i]}
    ensures i < |r| ==> r[i] == xs[|xs| - 1]
    ensures forall j :: 0 <= j < |r| && j != i ==> r[j] == xs[j]
  {
    var last := |xs| - 1;
    var front := xs[..last];
    assert xs == front + [xs[last]];
    assert multiset(xs) == multiset(front) + multiset{xs[last]};
    if i == last then front
    else
      assert front[i] == xs[i];
      front[i := xs[last]]
  }

  /** The process of the `i`-th running observation exited with `code`: it
      leaves the running list and the table, its exit status is set, the
      finished count grows by one, and the completed observation goes to the
      optimizer, whose answer decides whether the trial finished too. */
  function Exit<S>(s: StudyRunner, i: nat, code: Option<int>, opt: S, tell: (S, Observation) -> (S, Result<bool, string>))
    : (r: (StudyRunner, S, Result<(), string>))
    requires s.Valid() && i < |s.running|
    ensures r.0.Valid()
    ensures var id := s.running[i];
      var obs := s.observations[id].(exitStatus := code);
      && r.0.running == SwapRemove(s.running, i)
      && r.0.observations == s.observations - {id}
      && r.0.finished == s.finished + 1
      && r.1 == tell(opt, obs).0
      && match tell(opt, obs).1
         case Err(e) => r.2 == Err(e) && r.0.output == s.output
         case Ok(trialFinished) =>
           && r.2 == Ok(())
           && r.0.output == s.output + [ObsFinished(obs)] + (if trialFinished then [TrialFinished(obs.trialId)] else [])
    ensures r.0 == s.(running := r.0.running, observations := r.0.observations, finished := r.0.finished, output := r.0.output)
  {
    var id := s.running[i];
    var obs := s.observations[id].(exitStatus := code);
    var running := SwapRemove(s.running, i);
    var s1 := s.(running := running, observations := s.observations - {id}, finished := s.finished + 1);
    assert s1.Valid() by {
      forall x ensures x in s1.observations <==> x in running {
        assert x in running <==> x in multiset(running);
        assert x in s.running <==> x in multiset(s.running);
        if x != id && x in s.running {
          assert multiset(running)[x] == multiset(s.running)[x];
        }
        if x == id {
          DistinctCount(s.running, i);
        }
      }
      DistinctAfterSwapRemove(s.running, i);
    }
    var (opt1, told) := tell(opt, obs);
    match told
    case Err(e) => (s1, opt1, Err(e))
    case Ok(trialFinished) =>
      (s1.(output := s1.output + [ObsFinished(obs)] + (if trialFinished then [TrialFinished(obs.trialId)] else [])), opt1, Ok(()))
  }

  /** A distinct sequence holds each of its elements once. */
  lemma DistinctCount<T>(xs: seq<T>, i: nat)
    requires i < |xs| && forall a, b :: 0 <= a < b < |xs| ==> xs[a] != xs[b]
    ensures multiset(xs)[xs[i]] == 1
  {
    assert xs == xs[..i] + [xs[i]] + xs[i + 1..];
    assert xs[i] !in xs[..i] by {
      forall a | 0 <= a < i ensures xs[..i][a] != xs[i] {
        assert xs[..i][a] == xs[a];
      }
    }
    assert multiset(xs) == multiset(xs[..i]) + multiset{xs[i]} + multiset(xs[i + 1..]);
  }

  lemma DistinctAfterSwapRemove<T>(xs: seq<T>, i: nat)
    requires i < |xs| && forall a, b :: 0 <= a < b < |xs| ==> xs[a] != xs[b]
    ensures var r := SwapRemove(xs, i); forall a, b :: 0 <= a < b < |r| ==> r[a] != r[b]
  {
    var r := SwapRemove(xs, i);
    forall a, b | 0 <= a < b < |r|
      ensures r[a] != r[b]
    {
      var a' := if a == i then |xs| - 1 else a;
      var b' := if b == i then |xs| - 1 else b;
      assert r[a] == xs[a'] && r[b] == xs[b'] && a' != b';
    }
  }

  /** Message prefix of the lookup error; the source appends the unknown
      id, which this model leaves out. */
  const UnknownObservation := "unknown observation_id"

  /** `handle_ask`: an unknown observation is an error; otherwise the
      optimizer's value is recorded, with its type, under the parameter
      name, and nothing else changes. */
  function HandleAsk<S>(s: StudyRunner, obsId: ObservationId, name: Param.ParamName, ty: Param.ParamType, opt: S,
                        ask: (S, Observation, Param.ParamName, Param.ParamType) -> (S, Result<Param.ParamValue, string>))
    : (r: (StudyRunner, S, Result<Param.ParamValue, string>))
    ensures obsId !in s.observations ==> r == (s, opt, Err(UnknownObservation))
    ensures obsId in s.observations ==>
      var (opt1, v) := ask(opt, s.observations[obsId], name, ty);
      && r.1 == opt1 && r.2 == v
      && (v.Err? ==> r.0 == s)
      && (v.Ok? ==> r.0 == s.(observations := s.observations[obsId := s.observations[obsId].(
            params := s.observations[obsId].params[name := Param.ParamInstance(ty, v.value)])]))
  {
    if obsId !in s.observations then (s, opt, Err(UnknownObservation))
    else
      var obs := s.observations[obsId];
      var (opt1, v) := ask(opt, obs, name, ty);
      match v
      case Err(e) => (s, opt1, Err(e))
      case Ok(value) =>
        var obs' := obs.(params := obs.params[name := Param.ParamInstance(ty, value)]);
        (s.(observations := s.observations[obsId := obs']), opt1, Ok(value))
  }

  /** `handle_tell`: an unknown observation is an error; otherwise the metric
      is recorded under its name, and nothing else changes. */
  function HandleTell(s: StudyRunner, obsId: ObservationId, name: Metric.MetricName, ty: Metric.MetricType, value: Metric.MetricValue)
    : (r: Result<StudyRunner, string>)
    ensures r.Err? <==> obsId !in s.observations
    ensures r.Err? ==> r.error == UnknownObservation
    ensures r.Ok? ==>
      && r.value.observations.Keys == s.observations.Keys
      && (forall k :: k in s.observations && k != obsId ==> r.value.observations[k] == s.observations[k])
      && r.value.observations[obsId] == s.observations[obsId].(
           metrics := s.observations[obsId].metrics[name := Metric.MetricInstance(ty, value)])
      && r.value == s.(observations := r.value.observations)
  {
    if obsId !in s.observations then Err(UnknownObservation)
    else
      var obs := s.observations[obsId];
      Ok(s.(observations := s.observations[obsId := obs.(metrics := obs.metrics[name := Metric.MetricInstance(ty, value)])]))
  }

  /** Asking and telling keep the runner's invariant. */
  lemma RequestsPreserveValid<S>(s: StudyRunner, obsId: ObservationId, name: Param.ParamName, ty: Param.ParamType, opt: S,
                                 ask: (S, Observation, Param.ParamName, Param.ParamType) -> (S, Result<Param.ParamValue, string>),
                                 mname: Metric.MetricName, mty: Metric.MetricType, mvalue: Metric.MetricValue)
    requires s.Valid()
    ensures HandleAsk(s, obsId, name, ty, opt, ask).0.Valid()
    ensures HandleTell(s, obsId, mname, mty, mvalue).Ok? ==> HandleTell(s, obsId, mname, mty, mvalue).value.Valid()
  {
  }
}

=== FILE: show.dfy ===
/** `hone show best` (src/commands/show.rs): a reduction over an event log
    that keeps, for every metric name, the finished observation with the best
    value of that metric, per study, and prints one summary per study.

    A study's observations count only once the study is defined; a study
    `Started` event (a resumed study) suspends counting until the next
    definition. Metric comparison is the parameter `better` (the source's
    `is_better_than`), study options are an opaque `S`, and JSON rendering is
    left out: a summary is emitted as the study together with its best map. */
module Show {
  import opened Wrappers

  /** A finished observation in its compact form: its metrics by name. */
  datatype Obs<M> = Obs(id: nat, metrics: map<string, M>)

  /** One item of the input: an event, or a line that is not JSON. */
  datatype Item<S, M> =
    | Defined(study: S)
    | Started
    | Finished(obs: Obs<M>)
    | OtherEvent
    | Line(line: string)

  datatype Output<S, M> =
    | Summary(study: S, best: map<string, Obs<M>>)
    | Echo(line: string)

  datatype ShowState<S, M> = ShowState(
    current: Option<S>,
    best: map<string, Obs<M>>,
    skip: bool,
    out: seq<Output<S, M>>)

  /** The best observation stored for a metric reports that metric. */
  ghost predicate BestWellFormed<M>(best: map<string, Obs<M>>) {
    forall name :: name in best ==> name in best[name].metrics
  }

  /** The reference for one finished observation, restricted to the metric
      names in `names`: for each of them the observation becomes the best if
      there was none yet or if its value is better than the stored best's;
      every other entry stays. */
  function BestAfterOn<M>(best: map<string, Obs<M>>, obs: Obs<M>, names: set<string>, better: (M, M) -> bool)
    : (r: map<string, Obs<M>>)
    requires BestWellFormed(best) && names <= obs.metrics.Keys
    ensures r.Keys == best.Keys + names
    ensures BestWellFormed(r)
  {
    map name | name in best.Keys + names ::
      if name !in names then best[name]
      else if name !in best then obs
      else if better(obs.metrics[name], best[name].metrics[name]) then obs
      else best[name]
  }

  /** All of the observation's metrics taken into account. */
  function BestAfter<M>(best: map<string, Obs<M>>, obs: Obs<M>, better: (M, M) -> bool): (r: map<string, Obs<M>>)
    requires BestWellFormed(best)
    ensures r.Keys == best.Keys + obs.metrics.Keys
    ensures BestWellFormed(r)
  {
    BestAfterOn(best, obs, obs.metrics.Keys, better)
  }

  function Names(names: seq<string>): set<string> {
    set i | 0 <= i < |names| :: names[i]
  }

  /** The source's loop over the observation's metrics, in the given order:
      `entry(name).or_insert(obs)`, then replace when strictly better. */
  function UpdateBest<M>(best: map<string, Obs<M>>, obs: Obs<M>, names: seq<string>, better: (M, M) -> bool)
    : (r: map<string, Obs<M>>)
    requires BestWellFormed(best)
    requires forall i :: 0 <= i < |names| ==> names[i] in obs.metrics
    ensures BestWellFormed(r)
    decreases |names|
  {
    if |names| == 0 then best
    else
      var name := names[0];
      var current := if name in best then best[name] else obs;
      UpdateBest(best[name := if better(obs.metrics[name], current.metrics[name]) then obs else current], obs, names[1..], better)
  }

  /** The first step of the loop: handling one name first and the others
      afterwards is the reference for all of them. */
  lemma BestAfterOnStep<M>(best: map<string, Obs<M>>, obs: Obs<M>, name: string, rest: set<string>, better: (M, M) -> bool)
    requires BestWellFormed(best) && name in obs.metrics && rest <= obs.metrics.Keys && name !in rest
    ensures var current := if name in best then best[name] else obs;
      var best1 := best[name := if better(obs.metrics[name], current.metrics[name]) then obs else current];
      BestWellFormed(best1) && BestAfterOn(best1, obs, rest, better) == BestAfterOn(best, obs, {name} + rest, better)
  {
    var current := if name in best then best[name] else obs;
    var best1 := best[name := if better(obs.metrics[name], current.metrics[name]) then obs else current];
    var l := BestAfterOn(best1, obs, rest, better);
    var r := BestAfterOn(best, obs, {name} + rest, better);
    assert l.Keys == r.Keys;
    forall k | k in l.Keys ensures l[k] == r[k] {
      if k == name {
        assert l[k] == best1[name];
      }
    }
  }

  /** The names of a non-empty sequence: its head and the names of its tail. */
  lemma NamesCons(names: seq<string>)
    requires |names| > 0
    ensures Names(names) == {names[0]} + Names(names[1..])
    ensures (forall i, j :: 0 <= i < j < |names| ==> names[i] != names[j]) ==> names[0] !in Names(names[1..])
  {
    var rest := names[1..];
    forall x | x in Names(names) ensures x in {names[0]} + Names(rest) {
      var i :| 0 <= i < |names| && names[i] == x;
      if i > 0 {
        assert rest[i - 1] == x;
      }
    }
    forall x | x in Names(rest) ensures x in Names(names) {
      var i :| 0 <= i < |rest| && rest[i] == x;
      assert names[i + 1] == x;
    }
    if names[0] in Names(rest) {
      var i :| 0 <= i < |rest| && rest[i] == names[0];
      assert names[i + 1] == names[0];
    }
  }

  /** Whatever order the metric names are visited in, the loop computes the
      reference: distinct names update distinct entries. */
  lemma {:induction false} UpdateBestIsBestAfterOn<M>(best: map<string, Obs<M>>, obs: Obs<M>, names: seq<string>, better: (M, M) -> bool)
    requires BestWellFormed(best)
    requires forall i :: 0 <= i < |names| ==> names[i] in obs.metrics
    requires forall i, j :: 0 <= i < j < |names| ==> names[i] != names[j]
    ensures Names(names) <= obs.metrics.Keys
    ensures UpdateBest(best, obs, names, better) == BestAfterOn(best, obs, Names(names), better)
    decreases |names|
  {
    if |names| == 0 {
      assert Names(names) == {};
      assert BestAfterOn(best, obs, {}, better) == best;
    } else {
      NamesCons(names);
      var name := names[0];
      var current := if name in best then best[name] else obs;
      var best1 := best[name := if better(obs.metrics[name], current.metrics[name]) then obs else current];
      UpdateBestIsBestAfterOn(best1, obs, names[1..], better);
      BestAfterOnStep(best, obs, name, Names(names[1..]), better);
    }
  }

  /** A metric's best changes only to the new observation, and only when
      that metric had no best yet or the new value is better; metrics the
      observation does not report keep their best. */
  lemma BestChangesOnlyWhenBetter<M>(best: map<string, Obs<M>>, obs: Obs<M>, better: (M, M) -> bool, name: string)
    requires BestWellFormed(best)
    ensures name in best && name !in obs.metrics ==> BestAfter(best, obs, better)[name] == best[name]
    ensures name !in best && name in obs.metrics ==> BestAfter(best, obs, better)[name] == obs
    ensures name in best && name in obs.metrics ==>
      (BestAfter(best, obs, better)[name] == obs <==> better(obs.metrics[name], best[name].metrics[name]) || best[name] == obs)
    ensures name in best && name in obs.metrics && !better(obs.metrics[name], best[name].metrics[name]) ==>
      BestAfter(best, obs, better)[name] == best[name]
  {
  }

  /** With every metric name visited once, the loop is the reference. */
  lemma UpdateBestIsBestAfter<M>(best: map<string, Obs<M>>, obs: Obs<M>, names: seq<string>, better: (M, M) -> bool)
    requires BestWellFormed(best)
    requires forall i, j :: 0 <= i < j < |names| ==> names[i] != names[j]
    requires Names(names) == obs.metrics.Keys
    ensures UpdateBest(best, obs, names, better) == BestAfter(best, obs, better)
  {
    forall i | 0 <= i < |names| ensures names[i] in obs.metrics {
      assert names[i] in Names(names);
    }
    UpdateBestIsBestAfterOn(best, obs, names, better);
  }

  // ------------------------------------------------------------ the stream

  /** The fold state is well formed: every stored best reports its metric,
      so the comparison with it is always defined. */
  ghost predicate Valid<S, M>(st: ShowState<S, M>) {
    BestWellFormed(st.best)
  }

  function Start<S, M>(): (st: ShowState<S, M>)
    ensures Valid(st) && st.current.None? && st.skip && st.out == []
  {
    ShowState(None, map[], true, [])
  }

  /** The summary of the open study, if any. */
  function Flush<S, M>(st: ShowState<S, M>): (o: seq<Output<S, M>>)
    ensures |o| == (if st.current.Some? then 1 else 0)
    ensures st.current.Some? ==> o == [Summary(st.current.value, st.best)]
  {
    match st.current
    case Some(study) => [Summary(study, st.best)]
    case None => []
  }

  const NotJson := "Expected a JSON object, got "

  /** A character as `{:?}` writes it inside a string. */
  function EscapeChar(c: char): (r: string)
    ensures |r| >= 1
    ensures c !in "\"\\\n\r\t\0" ==> r == [c]
  {
    match c
    case '"' => "\\\""
    case '\\' => "\\\\"
    case '\n' => "\\n"
    case '\r' => "\\r"
    case '\t' => "\\t"
    case '\0' => "\\0"
    case _ => [c]
  }

  function Escape(s: string): string
    decreases |s|
  {
    if |s| == 0 then "" else EscapeChar(s[0]) + Escape(s[1..])
  }

  /** `format!("{:?}", s)` of a string: quoted, with no bare quote inside. */
  function Debug(s: string): (r: string)
    ensures |r| >= 2 && r[0] == '"' && r[|r| - 1] == '"'
  {
    "\"" + Escape(s) + "\""
  }

  /** Escaping leaves no bare quote: every quote follows a backslash. */
  lemma {:induction false} EscapeQuotes(s: string)
    ensures |Escape(s)| >= |s|
    ensures forall i :: 0 <= i < |Escape(s)| && Escape(s)[i] == '"' ==> i > 0 && Escape(s)[i - 1] == '\\'
    decreases |s|
  {
    if |s| > 0 {
      EscapeQuotes(s[1..]);
      var h := EscapeChar(s[0]);
      var t := Escape(s[1..]);
      assert Escape(s) == h + t;
      forall i | 0 <= i < |h + t| && (h + t)[i] == '"' ensures i > 0 && (h + t)[i - 1] == '\\' {
        if i >= |h| {
          assert (h + t)[i] == t[i - |h|];
          if i - |h| > 0 {
            assert (h + t)[i - 1] == t[i - |h| - 1];
          } else {
            assert false;
          }
        }
      }
    }
  }

  /** One item of the loop. The observation's metrics are folded in with
      `BestAfter`, which `UpdateBestIsBestAfter` shows equal to the source's
      loop in any visiting order. */
  function Step<S, M>(st: ShowState<S, M>, item: Item<S, M>, passthrough: bool, better: (M, M) -> bool)
    : (r: Result<ShowState<S, M>, string>)
    requires Valid(st)
    ensures r.Err? <==> item.Line? && !passthrough
    ensures r.Err? ==> r.error == NotJson + Debug(item.line)
    ensures r.Ok? ==> Valid(r.value)
    ensures item.Defined? ==> r == Ok(ShowState(Some(item.study), map[], false, st.out + Flush(st)))
    ensures item.Started? ==> r == Ok(st.(skip := true))
    ensures item.Finished? && st.skip ==> r == Ok(st)
    ensures item.Finished? && !st.skip ==> r == Ok(st.(best := BestAfter(st.best, item.obs, better)))
    ensures item.Line? && passthrough ==> r == Ok(st.(out := st.out + [Echo(item.line)]))
    ensures item.OtherEvent? ==> r == Ok(st)
  {
    match item
    case Defined(study) => Ok(ShowState(Some(study), map[], false, st.out + Flush(st)))
    case Started => Ok(st.(skip := true))
    case Finished(obs) =>
      if st.skip then Ok(st) else Ok(st.(best := BestAfter(st.best, obs, better)))
    case OtherEvent => Ok(st)
    case Line(line) =>
      if passthrough then Ok(st.(out := st.out + [Echo(line)])) else Err(NotJson + Debug(line))
  }

  /** The position of a line that is not an event, with none before it. */
  predicate FirstLineAt<S, M>(items: seq<Item<S, M>>, i: int) {
    0 <= i < |items| && items[i].Line? && forall j :: 0 <= j < i ==> !items[j].Line?
  }

  /** The loop over the remaining items; the open study is output at the end.
      It fails exactly when, without passthrough, some item is not an event,
      and then with the message naming the first such line. */
  function Run<S, M>(st: ShowState<S, M>, items: seq<Item<S, M>>, passthrough: bool, better: (M, M) -> bool)
    : (r: Result<seq<Output<S, M>>, string>)
    requires Valid(st)
    ensures r.Ok? ==> st.out <= r.value
    ensures r.Err? <==> !passthrough && exists i :: 0 <= i < |items| && items[i].Line?
    ensures r.Err? ==> exists i :: FirstLineAt(items, i) && r.error == NotJson + Debug(items[i].line)
    decreases |items|
  {
    if |items| == 0 then Ok(st.out + Flush(st))
    else
      var st1 :- Step(st, items[0], passthrough, better);
      var r := Run(st1, items[1..], passthrough, better);
      assert forall i :: 1 <= i < |items| ==> items[i] == items[1..][i - 1];
      assert r.Err? ==> exists i :: FirstLineAt(items[1..], i) && r.error == NotJson + Debug(items[1..][i].line)
                                 && FirstLineAt(items, i + 1);
      r
  }

  /** `show_best` over the whole input: without passthrough, the first line
      that is not an event ends the command with an error naming it, and
      otherwise the command succeeds. */
  function ShowBest<S, M>(items: seq<Item<S, M>>, passthrough: bool, better: (M, M) -> bool)
    : (r: Result<seq<Output<S, M>>, string>)
    ensures r.Ok? <==> passthrough || forall i :: 0 <= i < |items| ==> !items[i].Line?
    ensures r.Err? ==> exists i :: FirstLineAt(items, i) && r.error == NotJson + Debug(items[i].line)
  {
    Run(Start(), items, passthrough, better)
  }

  function CountDefined<S, M>(items: seq<Item<S, M>>): nat {
    if |items| == 0 then 0 else (if items[0].Defined? then 1 else 0) + CountDefined(items[1..])
  }

  function CountSummaries<S, M>(out: seq<Output<S, M>>): nat {
    if |out| == 0 then 0 else (if out[0].Summary? then 1 else 0) + CountSummaries(out[1..])
  }

  lemma {:induction false} CountSummariesAppend<S, M>(a: seq<Output<S, M>>, b: seq<Output<S, M>>)
    ensures CountSummaries(a + b) == CountSummaries(a) + CountSummaries(b)
    decreases |a|
  {
    if |a| > 0 {
      assert (a + b)[1..] == a[1..] + b;
      CountSummariesAppend(a[1..], b);
    } else {
      assert a + b == b;
    }
  }

  /** Each pass adds one summary per definition, counting the study still
      open at the start. */
  lemma {:induction false} RunCountsSummaries<S, M>(st: ShowState<S, M>, items: seq<Item<S, M>>, passthrough: bool, better: (M, M) -> bool)
    requires Valid(st)
    requires Run(st, items, passthrough, better).Ok?
    ensures CountSummaries(Run(st, items, passthrough, better).value)
      == CountSummaries(st.out) + (if st.current.Some? then 1 else 0) + CountDefined(items)
    decreases |items|
  {
    if |items| == 0 {
      CountSummariesAppend(st.out, Flush(st));
      assert CountSummaries(Flush(st)) == (if st.current.Some? then 1 else 0);
    } else {
      var st1 := Step(st, items[0], passthrough, better).value;
      RunCountsSummaries(st1, items[1..], passthrough, better);
      CountSummariesAppend(st.out, st1.out[|st.out|..]);
      if items[0].Defined? {
        CountSummariesAppend(st.out, Flush(st));
        assert CountSummaries(Flush(st)) == (if st.current.Some? then 1 else 0);
      } else if items[0].Line? {
        CountSummariesAppend(st.out, [Echo(items[0].line)]);
      }
    }
  }

  /** The study most recently defined in `items`, or `current` when none is. */
  function LastStudy<S, M>(current: Option<S>, items: seq<Item<S, M>>): Option<S>
    decreases |items|
  {
    if |items| == 0 then current
    else LastStudy(if items[0].Defined? then Some(items[0].study) else current, items[1..])
  }

  /** A successful pass ends with the summary of the last study defined, or
      of the one open at the start when none is. */
  lemma {:induction false} RunEndsWithSummary<S, M>(st: ShowState<S, M>, items: seq<Item<S, M>>, passthrough: bool, better: (M, M) -> bool)
    requires Valid(st)
    requires Run(st, items, passthrough, better).Ok?
    ensures var out := Run(st, items, passthrough, better).value;
      LastStudy(st.current, items).Some? ==>
        |out| > 0 && out[|out| - 1].Summary? && out[|out| - 1].study == LastStudy(st.current, items).value
    decreases |items|
  {
    if |items| > 0 {
      var st1 := Step(st, items[0], passthrough, better).value;
      assert st1.current == (if items[0].Defined? then Some(items[0].study) else st.current);
      RunEndsWithSummary(st1, items[1..], passthrough, better);
    }
  }

  /** A successful `show best` prints exactly one summary per definition, and
      the last thing it prints is the summary of the last study defined. */
  lemma OneSummaryPerStudy<S, M>(items: seq<Item<S, M>>, passthrough: bool, better: (M, M) -> bool)
    requires ShowBest(items, passthrough, better).Ok?
    ensures CountSummaries(ShowBest(items, passthrough, better).value) == CountDefined(items)
    ensures var out := ShowBest(items, passthrough, better).value;
      LastStudy(None, items).Some? ==>
        |out| > 0 && out[|out| - 1].Summary? && out[|out| - 1].study == LastStudy(None, items).value
  {
    RunCountsSummaries(Start(), items, passthrough, better);
    RunEndsWithSummary(Start(), items, passthrough, better);
  }

  /** Without a definition, observations are never counted and nothing but
      echoed lines is printed. */
  lemma {:induction false} NothingBeforeDefinition<S, M>(items: seq<Item<S, M>>, passthrough: bool, better: (M, M) -> bool)
    requires forall i :: 0 <= i < |items| ==> !items[i].Defined?
    requires ShowBest(items, passthrough, better).Ok?
    ensures forall i :: 0 <= i < |ShowBest(items, passthrough, better).value| ==> ShowBest(items, passthrough, better).value[i].Echo?
  {
    RunEchoesOnly(Start(), items, passthrough, better);
  }

  lemma {:induction false} RunEchoesOnly<S, M>(st: ShowState<S, M>, items: seq<Item<S, M>>, passthrough: bool, better: (M, M) -> bool)
    requires Valid(st) && st.current.None?
    requires forall i :: 0 <= i < |st.out| ==> st.out[i].Echo?
    requires forall i :: 0 <= i < |items| ==> !items[i].Defined?
    requires Run(st, items, passthrough, better).Ok?
    ensures forall i :: 0 <= i < |Run(st, items, passthrough, better).value| ==> Run(st, items, passthrough, better).value[i].Echo?
    decreases |items|
  {
    if |items| == 0 {
      assert Flush(st) == [];
      assert st.out + Flush(st) == st.out;
    } else {
      var st1 := Step(st, items[0], passthrough, better).value;
      assert !items[0].Defined?;
      assert forall i :: 0 <= i < |items[1..]| ==> !items[1..][i].Defined? by {
        forall i | 0 <= i < |items[1..]| ensures !items[1..][i].Defined? {
          assert items[1..][i] == items[i + 1];
        }
      }
      RunEchoesOnly(st1, items[1..], passthrough, better);
    }
  }
}

=== FILE: study.dfy ===
/** The bookkeeping of the study server of src/study.rs: the trial table it
    keeps in sync with the journals, the trial it currently runs, the
    commands that start and end that trial, and the messages of the
    evaluated command (parameter suggestions and metric reports).

    Publishing appends to the server's own journal; the model records the
    published actions in order (`PubSub.WriteAll` turns them into journal
    text). The UDP socket, the channel and the threads are not modelled.
    The choice `rand::thread_rng` makes is the parameter `pick`; what
    `Trial::report` and `Trial::last_step` do is given by `report` and
    `lastStep`. */
module Study {
  import opened Wrappers
  import opened PubSub
  import opened Trials
  import Metric

  datatype StudyServer<R> = StudyServer(
    trials: map<Uuid, Trial<R>>,
    current: Option<Trial<R>>,
    published: seq<TrialAction>)

  /** `StudyServer::handle_action`: the same table update as `list_trials`. */
  function HandleAction<R>(s: StudyServer<R>, id: Uuid, a: TrialAction,
                           report: (R, Option<NonZeroU64>, Metric.Metric) -> R, noReports: R)
    : (r: Result<StudyServer<R>, ErrorKind>)
    ensures r.Err? <==> NeedsTrial(a) && id !in s.trials
    ensures r.Err? ==> r.error == InvalidInput
    ensures r.Ok? ==> r.value.current == s.current && r.value.published == s.published
    ensures r.Ok? && a.Start? ==> r.value.trials == s.trials[a.id := NewTrial(a.id, a.timestamp, noReports)]
    ensures r.Ok? && a.End? ==> r.value.trials == s.trials
  {
    match a
    case Start(sid, ts) => Ok(s.(trials := s.trials[sid := NewTrial(sid, ts, noReports)]))
    case End => Ok(s)
    case _ =>
      if id !in s.trials then Err(InvalidInput)
      else
        var t := s.trials[id];
        var t' := match a
          case Define(p) => t.(paramSpecs := t.paramSpecs[p.name := p.spec])
          case Sample(n, v) => t.(paramValues := t.paramValues[n := v])
          case Report(st, m) => t.(reports := report(t.reports, Some(st), m))
          case _ => t;
        Ok(s.(trials := s.trials[id := t']))
  }

  /** `StudyServer::sync`: handles a poll's actions in order, stopping at the first error. */
  function Sync<R>(s: StudyServer<R>, polled: seq<(Uuid, TrialAction)>,
                   report: (R, Option<NonZeroU64>, Metric.Metric) -> R, noReports: R)
    : (r: Result<StudyServer<R>, ErrorKind>)
    ensures r.Ok? ==> r.value.current == s.current && r.value.published == s.published
    decreases |polled|
  {
    if |polled| == 0 then Ok(s)
    else
      var s1 :- HandleAction(s, polled[0].0, polled[0].1, report, noReports);
      Sync(s1, polled[1..], report, noReports)
  }

  /** The server's table follows exactly the rules of `list_trials`. */
  lemma {:induction false} HandleActionIsApply<R>(s: StudyServer<R>, id: Uuid, a: TrialAction,
                                                  report: (R, Option<NonZeroU64>, Metric.Metric) -> R, noReports: R)
    ensures HandleAction(s, id, a, report, noReports).Ok? == Apply(s.trials, id, a, report, noReports).Ok?
    ensures HandleAction(s, id, a, report, noReports).Ok? ==>
      HandleAction(s, id, a, report, noReports).value.trials == Apply(s.trials, id, a, report, noReports).value
  {
  }

  /** Syncing a poll builds the same table as folding it in `list_trials`. */
  lemma {:induction false} SyncIsFold<R>(s: StudyServer<R>, polled: seq<(Uuid, TrialAction)>,
                                         report: (R, Option<NonZeroU64>, Metric.Metric) -> R, noReports: R)
    ensures Sync(s, polled, report, noReports).Ok? == Fold(s.trials, polled, report, noReports).Ok?
    ensures Sync(s, polled, report, noReports).Ok? ==>
      Sync(s, polled, report, noReports).value.trials == Fold(s.trials, polled, report, noReports).value
    decreases |polled|
  {
    if |polled| > 0 {
      HandleActionIsApply(s, polled[0].0, polled[0].1, report, noReports);
      var h := HandleAction(s, polled[0].0, polled[0].1, report, noReports);
      if h.Ok? {
        SyncIsFold(h.value, polled[1..], report, noReports);
      }
    }
  }

  // -------------------------------------------------------------- commands

  datatype Command = StartTrial | EndTrial

  /** `StudyServer::handle_command`. `StartTrial` makes a new trial (with the
      id and timestamp `Trial::new` would draw), publishes its `Start` and
      makes it current; `EndTrial` publishes `End` and clears the current
      trial. */
  function HandleCommand<R>(s: StudyServer<R>, c: Command, freshId: Uuid, timestamp: nat, noReports: R)
    : (r: StudyServer<R>)
    ensures r.trials == s.trials
    ensures c.StartTrial? ==>
      && r.published == s.published + [Start(freshId, timestamp)]
      && r.current == Some(NewTrial(freshId, timestamp, noReports))
    ensures c.EndTrial? ==> r.published == s.published + [End] && r.current.None?
  {
    match c
    case StartTrial =>
      var t := NewTrial(freshId, timestamp, noReports);
      s.(published := s.published + [Start(t.id, t.timestamp)], current := Some(t))
    case EndTrial =>
      s.(published := s.published + [End], current := None)
  }

  // -------------------------------------------------------------- messages

  /** `StudyServer::handle_suggest_call`. Without a current trial it is a
      `Bug`. A parameter the current trial already has a value for gets that
      value again and nothing is published. Otherwise one of the choices is
      picked (an empty list is `InvalidInput`), `Define` and then `Sample`
      are published, and the value is recorded in the current trial. */
  function Suggest<R>(s: StudyServer<R>, param: Param, pick: nat): (r: (StudyServer<R>, Result<ParamValue, ErrorKind>))
    ensures s.current.None? ==> r == (s, Err(Bug))
    ensures s.current.Some? && param.name in s.current.value.paramValues ==>
      r == (s, Ok(s.current.value.paramValues[param.name]))
    ensures s.current.Some? && param.name !in s.current.value.paramValues ==>
      var choices := param.spec.choices;
      if |choices| == 0 then r == (s, Err(InvalidInput))
      else
        && r.1.Ok? && r.1.value.value in choices
        && r.0.published == s.published + [Define(param), Sample(param.name, r.1.value)]
        && r.0.trials == s.trials
        && r.0.current == Some(s.current.value.(paramValues := s.current.value.paramValues[param.name := r.1.value]))
  {
    match s.current
    case None => (s, Err(Bug))
    case Some(t) =>
      if param.name in t.paramValues then (s, Ok(t.paramValues[param.name]))
      else
        var choices := param.spec.choices;
        if |choices| == 0 then (s, Err(InvalidInput))
        else
          var v := ParamValue(choices[pick % |choices|]);
          var t' := t.(paramValues := t.paramValues[param.name := v]);
          (s.(published := s.published + [Define(param), Sample(param.name, v)], current := Some(t')), Ok(v))
  }

  /** Suggestions are memoised: asking again for a parameter that was just
      suggested returns the same value and publishes nothing, whatever the
      next pick. */
  lemma SuggestMemoised<R>(s: StudyServer<R>, param: Param, pick: nat, pick2: nat)
    requires Suggest(s, param, pick).1.Ok?
    ensures var (s1, v) := Suggest(s, param, pick);
      Suggest(s1, param, pick2) == (s1, v)
  {
  }

  datatype Message =
    | SuggestCall(param: Param)
    | SuggestReply(value: ParamValue)
    | ReportCast(step: Option<NonZeroU64>, metric: Metric.Metric)

  /** `StudyServer::handle_message`. A `SuggestReply` sent to the server is a
      `Bug`. A `ReportCast` without a current trial is a `Bug`; otherwise the
      metric is reported to the current trial and `Report` is published with
      the trial's last step for that metric (a `Bug` if it has none). */
  function HandleMessage<R>(s: StudyServer<R>, m: Message, pick: nat,
                            report: (R, Option<NonZeroU64>, Metric.Metric) -> R,
                            lastStep: (R, string) -> Option<NonZeroU64>)
    : (r: (StudyServer<R>, Result<Option<Message>, ErrorKind>))
    ensures m.SuggestReply? ==> r == (s, Err(Bug))
    ensures m.SuggestCall? ==>
      var (s1, v) := Suggest(s, m.param, pick);
      r.0 == s1 && (v.Ok? ==> r.1 == Ok(Some(SuggestReply(v.value)))) && (v.Err? ==> r.1 == Err(v.error))
    ensures m.ReportCast? && s.current.None? ==> r == (s, Err(Bug))
    ensures m.ReportCast? && s.current.Some? ==>
      var t := s.current.value;
      var reports := report(t.reports, m.step, m.metric);
      && r.0.trials == s.trials
      && r.0.current == Some(t.(reports := reports))
      && match lastStep(reports, m.metric.name)
         case None => r.0.published == s.published && r.1 == Err(Bug)
         case Some(st) => r.0.published == s.published + [Report(st, m.metric)] && r.1 == Ok(None)
  {
    match m
    case SuggestCall(param) =>
      var (s1, v) := Suggest(s, param, pick);
      (s1, if v.Ok? then Ok(Some(SuggestReply(v.value))) else Err(v.error))
    case SuggestReply(_) => (s, Err(Bug))
    case ReportCast(step, metric) =>
      match s.current
      case None => (s, Err(Bug))
      case Some(t) =>
        var t' := t.(reports := report(t.reports, step, metric));
        var s1 := s.(current := Some(t'));
        match lastStep(t'.reports, metric.name)
        case None => (s1, Err(Bug))
        case Some(st) => (s1.(published := s1.published + [Report(st, metric)]), Ok(None))
  }
}

=== FILE: tempdir.dfy ===
/** Temporary directories of the study, its trials and its observations
    (src/runner/tempdir.rs). A directory is created at most once per owner and
    handed out again on every later request, until it is removed.

    The file system is not modelled: the name the `tempfile` crate picks for
    a new directory is the parameter `newName`, the system's temporary
    directory is `sysTemp`, and creating a directory cannot fail here. */
module TempDir {
  import opened Wrappers
  import opened Trial

  /** A path as its list of components. */
  type Path = seq<string>

  datatype TempDirs = TempDirs(
    study: Option<Path>,
    trials: map<TrialId, Path>,
    observations: map<ObservationId, Path>)

  /** `TempDirs::new`: no directory yet. */
  function New(): (t: TempDirs)
    ensures t.study.None? && t.trials == map[] && t.observations == map[]
  {
    TempDirs(None, map[], map[])
  }

  /** `ensure_temp_dir_created`: an existing directory is reused and nothing
      new is created; otherwise a new one is made under `parent`, or under
      the system's temporary directory when there is no parent. The path
      returned is always the one of the directory now owned. */
  function EnsureCreated(existing: Option<Path>, parent: Option<Path>, newName: string, sysTemp: Path)
    : (r: (Option<Path>, Path))
    ensures existing.Some? <==> r.0.None?
    ensures existing.Some? ==> r.1 == existing.value
    ensures existing.None? ==> r.0 == Some(r.1) && r.1 == parent.GetOr(sysTemp) + [newName]
  {
    match existing
    case Some(p) => (None, p)
    case None =>
      var p := parent.GetOr(sysTemp) + [newName];
      (Some(p), p)
  }

  /** `create_study_tempdir`. */
  function CreateStudy(t: TempDirs, parent: Option<Path>, newName: string, sysTemp: Path): (r: (TempDirs, Path))
    ensures r.0.study == Some(r.1)
    ensures t.study.Some? ==> r == (t, t.study.value)
    ensures r.0.trials == t.trials && r.0.observations == t.observations
  {
    var (created, path) := EnsureCreated(t.study, parent, newName, sysTemp);
    match created
    case Some(d) => (t.(study := Some(d)), path)
    case None => (t, path)
  }

  /** `create_trial_tempdir`. */
  function CreateTrial(t: TempDirs, id: TrialId, parent: Option<Path>, newName: string, sysTemp: Path): (r: (TempDirs, Path))
    ensures id in r.0.trials && r.0.trials[id] == r.1
    ensures id in t.trials ==> r == (t, t.trials[id])
    ensures r.0.trials.Keys == t.trials.Keys + {id}
    ensures forall k :: k in t.trials && k != id ==> r.0.trials[k] == t.trials[k]
    ensures r.0.study == t.study && r.0.observations == t.observations
  {
    var existing := if id in t.trials then Some(t.trials[id]) else None;
    var (created, path) := EnsureCreated(existing, parent, newName, sysTemp);
    match created
    case Some(d) => (t.(trials := t.trials[id := d]), path)
    case None => (t, path)
  }

  /** `create_obs_tempdir`. */
  function CreateObs(t: TempDirs, id: ObservationId, parent: Option<Path>, newName: string, sysTemp: Path): (r: (TempDirs, Path))
    ensures id in r.0.observations && r.0.observations[id] == r.1
    ensures id in t.observations ==> r == (t, t.observations[id])
    ensures r.0.observations.Keys == t.observations.Keys + {id}
    ensures forall k :: k in t.observations && k != id ==> r.0.observations[k] == t.observations[k]
    ensures r.0.study == t.study && r.0.trials == t.trials
  {
    var existing := if id in t.observations then Some(t.observations[id]) else None;
    var (created, path) := EnsureCreated(existing, parent, newName, sysTemp);
    match created
    case Some(d) => (t.(observations := t.observations[id := d]), path)
    case None => (t, path)
  }

  /** `remove_trial_tempdir`: drops (and so deletes) that trial's directory only. */
  function RemoveTrial(t: TempDirs, id: TrialId): (r: TempDirs)
    ensures id !in r.trials
    ensures forall k :: k != id ==> (k in r.trials <==> k in t.trials)
    ensures forall k :: k in r.trials ==> r.trials[k] == t.trials[k]
    ensures r.study == t.study && r.observations == t.observations
  {
    t.(trials := t.trials - {id})
  }

  /** `remove_obs_tempdir`: drops that observation's directory only. */
  function RemoveObs(t: TempDirs, id: ObservationId): (r: TempDirs)
    ensures id !in r.observations
    ensures forall k :: k != id ==> (k in r.observations <==> k in t.observations)
    ensures forall k :: k in r.observations ==> r.observations[k] == t.observations[k]
    ensures r.study == t.study && r.trials == t.trials
  {
    t.(observations := t.observations - {id})
  }

  /** A second request for the same trial, whatever its parent and whatever
      name would be picked, hands out the first directory and changes nothing. */
  lemma CreateTrialIdempotent(t: TempDirs, id: TrialId, parent: Option<Path>, newName: string, sysTemp: Path,
                              parent2: Option<Path>, name2: string)
    ensures var (t1, p1) := CreateTrial(t, id, parent, newName, sysTemp);
      CreateTrial(t1, id, parent2, name2, sysTemp) == (t1, p1)
  {
  }

  /** Removing a trial's directory after creating it leaves the other
      directories as they were before. */
  lemma CreateThenRemoveTrial(t: TempDirs, id: TrialId, parent: Option<Path>, newName: string, sysTemp: Path)
    requires id !in t.trials
    ensures RemoveTrial(CreateTrial(t, id, parent, newName, sysTemp).0, id) == t
  {
    assert CreateTrial(t, id, parent, newName, sysTemp).0.trials - {id} == t.trials;
  }
}

=== FILE: trial.dfy ===
/** Trial and observation identifiers of src/trial.rs: transparent wrappers
    around a `u64` whose equality and (derived) ordering are those of the
    wrapped number, plus the `Observation` record the tuners and the runner
    exchange. */
module Trial {
  import opened Wrappers
  import opened Types
  import Param
  import Metric

  datatype TrialId = TrialId(id: u64) {
    function Get(): u64 {
      id
    }
  }

  /** `TrialId::new`: `get` gives the number back, and it is the only id doing so. */
  function NewTrialId(id: u64): (r: TrialId)
    ensures r.Get() == id
    ensures forall t: TrialId :: t.Get() == id ==> t == r
  {
    TrialId(id)
  }

  datatype ObservationId = ObservationId(id: u64) {
    function Get(): u64 {
      id
    }
  }

  /** `ObservationId::new`: `get` gives the number back, and it is the only id doing so. */
  function NewObservationId(id: u64): (r: ObservationId)
    ensures r.Get() == id
    ensures forall o: ObservationId :: o.Get() == id ==> o == r
  {
    ObservationId(id)
  }

  datatype Ordering = Less | Equal | Greater

  /** The derived `Ord` of a one-field tuple struct: the order of the field. */
  function CompareTrialIds(a: TrialId, b: TrialId): (r: Ordering)
    ensures r == Equal <==> a == b
    ensures r == Less <==> a.Get() < b.Get()
    ensures r == Greater <==> b.Get() < a.Get()
  {
    if a.id < b.id then Less else if a.id == b.id then Equal else Greater
  }

  function CompareObservationIds(a: ObservationId, b: ObservationId): (r: Ordering)
    ensures r == Equal <==> a == b
    ensures r == Less <==> a.Get() < b.Get()
    ensures r == Greater <==> b.Get() < a.Get()
  {
    if a.id < b.id then Less else if a.id == b.id then Equal else Greater
  }

  /** One run of the evaluated command for a trial: the parameters it asked
      for, the metrics it told, and its exit code once it has exited. */
  datatype Observation = Observation(
    id: ObservationId,
    trialId: TrialId,
    params: map<Param.ParamName, Param.ParamInstance>,
    metrics: map<Metric.MetricName, Metric.MetricInstance>,
    exitStatus: Option<int>)
  {
    /** An exit code of zero. */
    predicate IsSucceeded() {
      exitStatus == Some(0)
    }
  }

  /** `Observation::new`: no parameters, no metrics, not exited. */
  function NewObservation(id: ObservationId, trialId: TrialId): (r: Observation)
    ensures r.id == id && r.trialId == trialId
    ensures r.params == map[] && r.metrics == map[] && r.exitStatus.None?
    ensures !r.IsSucceeded()
  {
    Observation(id, trialId, map[], map[], None)
  }
}

=== FILE: trials.dfy ===
/** `list_trials` of src/trials.rs: the table of trials rebuilt from the
    attributed actions a subscriber polls from a study's journals.

    A `Trial` record comes from src/trial.rs of the journal API, which is
    not part of this model; what `Trial::report` does with a metric is the
    parameter `report`, and the report state of a new trial is `noReports`.
    The returned `Vec` lists the table's values in hash order; the model
    returns the table itself. */
module Trials {
  import opened Wrappers
  import opened PubSub

  datatype Trial<R> = Trial(
    id: Uuid,
    timestamp: nat,
    paramSpecs: map<string, ParamSpec>,
    paramValues: map<string, ParamValue>,
    reports: R)

  /** `Trial::with_id_and_timestamp`: no parameter and no report yet. */
  function NewTrial<R>(id: Uuid, timestamp: nat, noReports: R): (t: Trial<R>)
    ensures t.id == id && t.timestamp == timestamp
    ensures t.paramSpecs == map[] && t.paramValues == map[] && t.reports == noReports
  {
    Trial(id, timestamp, map[], map[], noReports)
  }

  /** The actions that must name a trial already in the table. */
  predicate NeedsTrial(a: TrialAction) {
    a.Define? || a.Sample? || a.Report?
  }

  /** One step of the fold. `Start` inserts (or replaces) the trial under the
      id it carries; `Define`, `Sample` and `Report` update the trial the
      action is attributed to, which must exist (`InvalidInput` otherwise);
      `End` changes nothing. */
  function Apply<R>(trials: map<Uuid, Trial<R>>, id: Uuid, a: TrialAction,
                    report: (R, Option<NonZeroU64>, Metric.Metric) -> R, noReports: R)
    : (r: Result<map<Uuid, Trial<R>>, ErrorKind>)
    ensures r.Err? <==> NeedsTrial(a) && id !in trials
    ensures r.Err? ==> r.error == InvalidInput
    ensures r.Ok? && a.Start? ==> r.value == trials[a.id := NewTrial(a.id, a.timestamp, noReports)]
    ensures r.Ok? && a.End? ==> r.value == trials
    ensures r.Ok? && NeedsTrial(a) ==>
      && r.value.Keys == trials.Keys
      && (forall k :: k in trials && k != id ==> r.value[k] == trials[k])
      && var t := trials[id];
         r.value[id] == (match a
           case Define(p) => t.(paramSpecs := t.paramSpecs[p.name := p.spec])
           case Sample(n, v) => t.(paramValues := t.paramValues[n := v])
           case Report(s, m) => t.(reports := report(t.reports, Some(s), m))
           case _ => t)
  {
    match a
    case Start(sid, ts) => Ok(trials[sid := NewTrial(sid, ts, noReports)])
    case End => Ok(trials)
    case _ =>
      if id !in trials then Err(InvalidInput)
      else
        var t := trials[id];
        var t' := match a
          case Define(p) => t.(paramSpecs := t.paramSpecs[p.name := p.spec])
          case Sample(n, v) => t.(paramValues := t.paramValues[n := v])
          case Report(s, m) => t.(reports := report(t.reports, Some(s), m))
          case _ => t;
        Ok(trials[id := t'])
  }

  /** The ids the `Start` actions of `actions` carry. */
  function StartedIds(actions: seq<(Uuid, TrialAction)>): set<Uuid> {
    set i | 0 <= i < |actions| && actions[i].1.Start? :: actions[i].1.id
  }

  lemma StartedIdsCons(actions: seq<(Uuid, TrialAction)>)
    requires |actions| > 0
    ensures StartedIds(actions) == (if actions[0].1.Start? then {actions[0].1.id} else {}) + StartedIds(actions[1..])
  {
    var tail := actions[1..];
    forall i | 0 <= i < |tail|
      ensures tail[i] == actions[i + 1]
    {
    }
    forall x | x in StartedIds(actions)
      ensures x in (if actions[0].1.Start? then {actions[0].1.id} else {}) + StartedIds(tail)
    {
      var i :| 0 <= i < |actions| && actions[i].1.Start? && actions[i].1.id == x;
      if i > 0 {
        assert tail[i - 1] == actions[i];
      }
    }
  }

  /** Every action that needs a trial names one started before it (in the
      table already or by an earlier `Start`). */
  predicate AllAttributed<R>(trials: map<Uuid, Trial<R>>, actions: seq<(Uuid, TrialAction)>) {
    forall i :: 0 <= i < |actions| && NeedsTrial(actions[i].1) ==>
      actions[i].0 in trials.Keys + StartedIds(actions[..i])
  }

  /** Each trial is filed under its own id. */
  predicate Keyed<R>(trials: map<Uuid, Trial<R>>) {
    forall k :: k in trials ==> trials[k].id == k
  }

  /** The fold of `list_trials`, from a given table. It fails exactly when
      an action names a trial never started before it; otherwise the table
      holds one trial per id started, each filed under its own id. */
  function Fold<R>(trials: map<Uuid, Trial<R>>, actions: seq<(Uuid, TrialAction)>,
                   report: (R, Option<NonZeroU64>, Metric.Metric) -> R, noReports: R)
    : (r: Result<map<Uuid, Trial<R>>, ErrorKind>)
    ensures r.Ok? <==> AllAttributed(trials, actions)
    ensures r.Err? ==> r.error == InvalidInput
    ensures r.Ok? ==> r.value.Keys == trials.Keys + StartedIds(actions)
    ensures r.Ok? && Keyed(trials) ==> Keyed(r.value)
    decreases |actions|
  {
    if |actions| == 0 then Ok(trials)
    else
      var (id, a) := actions[0];
      match Apply(trials, id, a, report, noReports)
      case Err(e) =>
        assert actions[..0] == [];
        Err(e)
      case Ok(t1) =>
        var r := Fold(t1, actions[1..], report, noReports);
        StartedIdsCons(actions);
        FoldStep(trials, t1, actions);
        r
  }

  /** How `AllAttributed` splits at the first action, once it succeeded. */
  lemma FoldStep<R>(trials: map<Uuid, Trial<R>>, t1: map<Uuid, Trial<R>>, actions: seq<(Uuid, TrialAction)>)
    requires |actions| > 0
    requires NeedsTrial(actions[0].1) ==> actions[0].0 in trials
    requires t1.Keys == trials.Keys + (if actions[0].1.Start? then {actions[0].1.id} else {})
    ensures AllAttributed(trials, actions) <==> AllAttributed(t1, actions[1..])
  {
    var tail := actions[1..];
    forall i | 0 <= i <= |tail|
      ensures trials.Keys + StartedIds(actions[..i + 1]) == t1.Keys + StartedIds(tail[..i])
    {
      var p := actions[..i + 1];
      assert p[1..] == tail[..i];
      StartedIdsCons(p);
    }
    if AllAttributed(trials, actions) {
      forall i | 0 <= i < |tail| && NeedsTrial(tail[i].1)
        ensures tail[i].0 in t1.Keys + StartedIds(tail[..i])
      {
        assert tail[i] == actions[i + 1];
      }
    }
    if AllAttributed(t1, tail) {
      forall i | 0 <= i < |actions| && NeedsTrial(actions[i].1)
        ensures actions[i].0 in trials.Keys + StartedIds(actions[..i])
      {
        if i > 0 {
          assert actions[i] == tail[i - 1];
        }
      }
    }
  }

  /** `list_trials` over one poll of the study's journals. */
  function ListTrials<R>(polled: seq<(Uuid, TrialAction)>,
                         report: (R, Option<NonZeroU64>, Metric.Metric) -> R, noReports: R)
    : (r: Result<map<Uuid, Trial<R>>, ErrorKind>)
    ensures r.Ok? <==> AllAttributed<R>(map[], polled)
    ensures r.Ok? ==> r.value.Keys == StartedIds(polled) && Keyed(r.value)
  {
    Fold(map[], polled, report, noReports)
  }
}

=== FILE: tuners.dfy ===
/** src/tuners.rs: the actions a tuner asks the runner to take, the default
    `next_action`, the tuner specification and its `build`, and the `Tuner`
    enum, which forwards every call to the tuner it wraps. */
module Tuners {
  import opened Wrappers
  import opened Types
  import Param
  import Trial
  import RandomTuner

  datatype Action =
    | CreateTrial
    | ResumeTrial(trialId: Trial.TrialId)
    | FinishTrial(trialId: Trial.TrialId)
    | WaitObservations
    | QuitOptimization

  /** The provided `Tune::next_action`: always create a new trial. */
  function DefaultNextAction(): (r: Result<Action, string>)
    ensures r.Ok? && r.value.CreateTrial?
  {
    Ok(CreateTrial)
  }

  datatype TunerSpec = RandomSpec(spec: RandomTuner.RandomTunerSpec)

  /** `TunerSpec::default`: the random tuner without a fixed seed. */
  function DefaultTunerSpec(): (s: TunerSpec)
    ensures s.RandomSpec? && s.spec.seed.None?
  {
    RandomSpec(RandomTuner.DefaultSpec())
  }

  datatype Tuner = Random(random: RandomTuner.RandomTuner)

  /** `TunerSpec::build`: a random spec builds a `Tuner::Random` around the
      tuner its own `build` makes. */
  function Build(spec: TunerSpec, entropy: u64): (r: Result<Tuner, string>)
    ensures r.Ok? <==> RandomTuner.Build(spec.spec, entropy).Ok?
    ensures r.Ok? ==> r.value == Random(RandomTuner.Build(spec.spec, entropy).value)
    ensures r.Ok? ==> r.value.random.finishedTrials == []
  {
    // the random tuner's `build` never fails
    Ok(Random(RandomTuner.Build(spec.spec, entropy).value))
  }

  /** `Tuner::ask` forwards to the wrapped tuner. */
  function Ask(t: Tuner, ty: Param.ParamType, draw: RandomTuner.Draw): (r: Result<Param.ParamValue, string>)
    requires Param.DecodedType(ty)
    requires 0.0 <= draw.unit < 1.0
    ensures t.Random? ==> r == RandomTuner.Ask(ty, draw)
  {
    match t
    case Random(o) => RandomTuner.Ask(ty, draw)
  }

  /** `Tuner::tell` forwards to the wrapped tuner and keeps the variant. */
  function Tell(t: Tuner, obs: Trial.Observation): (r: (Tuner, Result<bool, string>))
    ensures r.0.Random? && r.0.random == RandomTuner.Tell(t.random, obs).0
    ensures r.1 == RandomTuner.Tell(t.random, obs).1
  {
    match t
    case Random(o) =>
      var (o', res) := RandomTuner.Tell(o, obs);
      (Random(o'), res)
  }

  /** `Tuner::next_action`: the random tuner keeps the default. */
  function NextAction(t: Tuner): (r: (Tuner, Result<Action, string>))
    ensures r.0 == t
    ensures r.1 == DefaultNextAction()
  {
    match t
    case Random(o) => (t, DefaultNextAction())
  }

  /** A built default tuner asks for a new trial first. */
  lemma DefaultTunerCreatesTrial(entropy: u64)
    ensures Build(DefaultTunerSpec(), entropy).Ok?
    ensures NextAction(Build(DefaultTunerSpec(), entropy).value).1 == Ok(CreateTrial)
  {
  }
}

=== FILE: types.dfy ===
/** Validated value types of src/types.rs: `NonEmptyVec`, `InclusiveRange`,
    `NonNegF64` and `FiniteF64`, each reachable only through a smart
    constructor that returns an error for the inputs it rejects.

    An `f64` that reaches a constructor is an `F64`: either a finite value,
    carried as a `real`, or one of the non-finite values (NaN or an infinity),
    which every constructor here rejects. */
module Types {
  import opened Wrappers

  /** Rust's `u64`. */
  newtype u64 = x: int | 0 <= x < 0x1_0000_0000_0000_0000

  const U64_MAX: u64 := 0xFFFF_FFFF_FFFF_FFFF

  /** An IEEE double as seen by the validating constructors. */
  datatype F64 = Finite(v: real) | NonFinite

  predicate IsFinite(x: F64) {
    x.Finite?
  }

  // ---------------------------------------------------------------- NonEmptyVec

  /** A vector known to hold at least one element once built by `NewNonEmptyVec`. */
  datatype NonEmptyVec<T> = NonEmptyVec(items: seq<T>) {
    predicate Valid() {
      |items| > 0
    }

    function Get(): seq<T> {
      items
    }
  }

  /** `NonEmptyVec::new`: refuses exactly the empty vector and otherwise keeps
      the elements, unchanged and in order. */
  function NewNonEmptyVec<T>(inner: seq<T>): (r: Result<NonEmptyVec<T>, string>)
    ensures r.Ok? <==> |inner| > 0
    ensures r.Ok? ==> r.value.Valid() && r.value.Get() == inner
  {
    if |inner| == 0 then Err("empty vector isn't allowed") else Ok(NonEmptyVec(inner))
  }

  /** `TryFrom<Vec<T>>` (also the serde path): the same validation as `new`. */
  function NonEmptyVecTryFrom<T>(from: seq<T>): (r: Result<NonEmptyVec<T>, string>)
    ensures r.Ok? <==> |from| > 0
    ensures r.Ok? ==> r.value.Valid() && r.value.Get() == from
    ensures r == NewNonEmptyVec(from)
  {
    NewNonEmptyVec(from)
  }

  // ------------------------------------------------------------- InclusiveRange

  /** A closed interval `[min, max]` of finite numbers with `min <= max`. */
  datatype InclusiveRange = InclusiveRange(min: real, max: real) {
    predicate Valid() {
      min <= max
    }

    /** The distance between the bounds; never negative for a valid range. */
    function Width(): (w: real)
      ensures Valid() ==> w >= 0.0
      ensures min + w == max
    {
      max - min
    }
  }

  /** `InclusiveRange::new`: both bounds must be finite (min is checked
      first) and `min <= max`; an empty-width range `min == max` is allowed. */
  function NewInclusiveRange(min: F64, max: F64): (r: Result<InclusiveRange, string>)
    ensures r.Ok? <==> IsFinite(min) && IsFinite(max) && min.v <= max.v
    ensures r.Ok? ==> r.value.Valid() && r.value.min == min.v && r.value.max == max.v
    ensures !IsFinite(min) ==> r == Err("`min` isn't an finite number")
    ensures IsFinite(min) && !IsFinite(max) ==> r == Err("`max` isn't an finite number")
  {
    if !IsFinite(min) then Err("`min` isn't an finite number")
    else if !IsFinite(max) then Err("`max` isn't an finite number")
    else if !(min.v <= max.v) then Err("`min` must be smaller than or equal to `max`")
    else Ok(InclusiveRange(min.v, max.v))
  }

  /** The unvalidated shape an `InclusiveRange` is deserialised from. */
  datatype UncheckedInclusiveRange = UncheckedInclusiveRange(min: F64, max: F64)

  /** Deserialisation goes through `TryFrom<UncheckedInclusiveRange>`, i.e.
      through exactly the validation of `new`. */
  function InclusiveRangeTryFrom(from: UncheckedInclusiveRange): (r: Result<InclusiveRange, string>)
    ensures r.Ok? <==> IsFinite(from.min) && IsFinite(from.max) && from.min.v <= from.max.v
    ensures r.Ok? ==> r.value.min == from.min.v && r.value.max == from.max.v
    ensures r == NewInclusiveRange(from.min, from.max)
  {
    NewInclusiveRange(from.min, from.max)
  }

  // ------------------------------------------------------ NonNegF64 / FiniteF64

  /** A finite, sign-positive number. */
  datatype NonNegF64 = NonNegF64(x: real) {
    function Get(): real {
      x
    }
  }

  /** `NonNegF64::new`: refuses non-finite and negative input. */
  function NewNonNegF64(x: F64): (r: Result<NonNegF64, string>)
    ensures r.Ok? <==> IsFinite(x) && x.v >= 0.0
    ensures r.Ok? ==> r.value.Get() == x.v
  {
    if !IsFinite(x) then Err("`x` isn't a finite number")
    else if x.v < 0.0 then Err("`x` isn't a positive number")
    else Ok(NonNegF64(x.v))
  }

  /** A finite number. */
  datatype FiniteF64 = FiniteF64(x: real) {
    function Get(): real {
      x
    }
  }

  /** `FiniteF64::new`: refuses exactly the non-finite input and keeps the value. */
  function NewFiniteF64(x: F64): (r: Result<FiniteF64, string>)
    ensures r.Ok? <==> IsFinite(x)
    ensures r.Ok? ==> r.value.Get() == x.v
  {
    if !IsFinite(x) then Err("`x` isn't a finite number") else Ok(FiniteF64(x.v))
  }
}

=== FILE: wrappers.dfy ===
/** Failure-compatible result types shared by every module of the model.

    `Result<T, E>` stands for Rust's `Result` (and for `anyhow::Result`, whose
    error is modelled as a message string); `Option<T>` for Rust's `Option`. */
module Wrappers {

  datatype Option<+T> = None | Some(value: T) {
    function GetOr(default: T): T {
      match this
      case Some(v) => v
      case None => default
    }
  }

  datatype Result<+T, +E> = Ok(value: T) | Err(error: E) {
    predicate IsFailure() {
      Err?
    }

    function PropagateFailure<U>(): Result<U, E>
      requires Err?
    {
      Err(error)
    }

    function Extract(): T
      requires Ok?
    {
      value
    }
  }

  /** The crate's own error kinds (src/error.rs), used by the modules that
      return the crate `Result` rather than `anyhow::Result`. */
  datatype ErrorKind = InvalidInput | IoError | Bug | Other
}
